=== FILE: README.md ===
# EcoMatrix backend services in Dafny

EcoMatrix is a household energy-monitoring backend. Users own households. A household has rooms, and rooms have devices. A device may have one Shelly smart plug. A scheduler polls every active plug, decodes its status into a cumulative kWh reading and stores it as a measurement. Reports, costs, goals, insights and ML-style analytics are computed from those readings. A notification store keeps per-user messages.

This project models the logic of those services as pure Dafny functions over immutable records and sequences. It proves what each operation computes and how the operations relate:

- the counter-to-delta derivation and the pattern analysis of the insights service;
- the z-score, least-squares, hourly-ranking and quartile rules of the ML insights service;
- the Shelly status decode and its error mapping;
- the scheduler's start/stop state machine and its collection cycle, including the plug-deactivation rule;
- measurement storage, listing and collection;
- the goal-progress classifier;
- the report and cost aggregations and their partition properties;
- the plug registry and the notification store as transitions over tables.

Modules follow the services:

| module | file | service |
|---|---|---|
| `Common` | `common.dfy` | `Option`/`Result`, sums, filters, stable sorts, top-k, cent rounding |
| `Records` | `records.dfy` | the stored rows shared by several services |
| `Grouping` | `grouping.dfy` | group-and-sum in order of first appearance |
| `Stats` | `stats.dfy` | mean, variance, least squares and R² over exact reals |
| `Shelly` | `shelly.dfy` | `shelly.service.js` |
| `Measurements` | `measurements.dfy` | `measurements.service.js` |
| `Scheduler` | `scheduler.dfy` | `scheduler.service.js` |
| `Insights` | `insights.dfy` | `insights.service.js` |
| `MlInsights` | `ml_insights.dfy` | `ml-insights.service.js` |
| `Goals` | `goals.dfy` | `goals.service.js` |
| `Reports` | `reports.dfy` | `reports.service.js` |
| `Costs` | `costs.dfy` | `costs.service.js` |
| `Devices` | `devices.dfy` | `devices.service.js` |
| `Notifications` | `notifications.dfy` | `notification.service.js` |

Some inputs are parameters rather than values the model computes:

- SQL queries are given as row sequences. The per-device and per-group `MAX − MIN` spreads of the cost and report queries arrive as input rows; the `MIN`, `MAX` and `COUNT` of `getDailyConsumption` are computed (`Measurements.Spread`).
- Clock readings are parameters: the hour, weekday and month of a reading, "today", and whether a goal has ended.
- The network answer of a plug is an input datatype `Transport`.
- The cron validity check is a predicate parameter.
- A goal's period totals, the usage and cost that `calculateCosts` reports for the goal's household and dates, are the function parameter `totalsFor` of `Goals.GetGoals` and `Goals.ViewOf`.
- The library quantiles are parameters.
- Numbers are exact `real`s. In the cost and report services `toFixed(2)` is modelled as `Common.Round2`, which rounds half away from zero to the cent; where other services round, "## Left out" says so member by member.
- The library's population standard deviation appears through its square, the variance: the guard "deviation below 0.01" is "variance below 0.0001", and the z-score test is compared without a square root (`Stats.ExceedsZMeansZScore`).

## Model

| member | source | states |
|---|---|---|
| `Shelly.GetShellyStatus` | backend/src/services/shelly.service.js:16-45 | the request succeeds exactly when the plug answered, and then yields the answered status; a failure is a timeout exactly when the request was aborted and a communication error otherwise (a non-2xx status included); every failure names the plug's address |
| `Shelly.TestShellyConnection` | backend/src/services/shelly.service.js:181-188 | the connection test is true exactly when the status request answers |
| `Shelly.ParsePowerMeter` | backend/src/services/shelly.service.js:137-155 | the decode fails with the power-meter error exactly when neither `pm1:0` nor `switch:0` is present, and with the missing-energy error exactly when the component read has no `aenergy`; on success the fields come from `pm1:0` when it is present and from `switch:0` otherwise (power from `apower`, total energy from `aenergy.total`, timestamp from `aenergy.minute_ts`, voltage, current and frequency copied) |
| `Shelly.PowerMeterFallback` | backend/src/services/shelly.service.js:137-155 | with `pm1:0` present `switch:0` plays no part; without it `switch:0` is decoded exactly as `pm1:0` would have been |
| `Shelly.TemperatureOf` | backend/src/services/shelly.service.js:172 | the temperature is present exactly when `tC` is present and non-zero, and then equals it |
| `Shelly.ParseSwitch` | backend/src/services/shelly.service.js:162-174 | the switch decode fails exactly when `switch:0` is absent; otherwise id and output are copied and the temperature follows the falsy-to-null rule |
| `Shelly.Reading` | backend/src/services/shelly.service.js:202-219 | the stored energy times 1000 is the meter's Wh total, and the millisecond timestamp is a whole multiple of 1000 whose seconds are `minute_ts` |
| `Shelly.GetCurrentEnergyConsumption` | backend/src/services/shelly.service.js:196-223 | every failure is re-raised behind the consumption prefix, an abort as a wrapped timeout; the read succeeds exactly when the plug answered, the meter decodes and `switch:0` is present, and then yields the converted reading of the two decodes |
| `Shelly.TransportMessagesMention` | backend/src/services/shelly.service.js:39-44 | the message of every transport failure contains "Timeout" or "komunikaciji", on its own and behind the consumption prefix |
| `Shelly.ParseFailuresDoNotMention` | backend/src/services/shelly.service.js:137-174 | the messages of the three decode failures contain neither "Timeout" nor "komunikaciji", on their own and behind the consumption prefix |
| `Shelly.TransportIffRequestFailed` | backend/src/services/shelly.service.js:196-223 | a failed consumption read carries one of the two transport words exactly when the status request itself failed |
| `Shelly.MeterOnlyStatusFails` | backend/src/services/shelly.service.js:199-200 | a status with `pm1:0` and no `switch:0` decodes the meter but still fails the consumption read with the switch error |
| `Scheduler.StartDataCollection` | backend/src/services/scheduler.service.js:94-112 | a running job is kept and the start answers false; otherwise an invalid cron expression fails with no job created; a valid expression creates a job with that schedule and answers true |
| `Scheduler.IsRunning` | backend/src/services/scheduler.service.js:135-137 | a job is running exactly when one is stored, that is, when the state is not the empty one |
| `Scheduler.StartWithDefault` | backend/src/services/scheduler.service.js:94-112 | a start without an argument, with nothing running and a valid default, schedules the five-minute default `*/5 * * * *` and answers true |
| `Scheduler.StopDataCollection` | backend/src/services/scheduler.service.js:118-129 | the stop answers true exactly when a job was running, and no job runs afterwards |
| `Scheduler.StopThenStart` | backend/src/services/scheduler.service.js:94-129 | stopping a running job lets a later valid start succeed and create the new job |
| `Scheduler.StartTwice` | backend/src/services/scheduler.service.js:95-98 | after a successful start, a second start with any expression leaves the state as it is and answers false |
| `Scheduler.Selection` | backend/src/services/scheduler.service.js:25-39 | the cycle polls exactly the plugs that are active and have an address |
| `Scheduler.Deactivate` | backend/src/services/scheduler.service.js:74-77 | the update sets the status of every plug with that id to inactive and changes nothing else |
| `Scheduler.PollAll` | backend/src/services/scheduler.service.js:52-81 | every selected plug is polled once: successes plus errors grow by the number of plugs, the successes are the plugs whose read succeeds, each success adds exactly one measurement after the rows already stored, and the plug list keeps its length |
| `Scheduler.CollectCycle` | backend/src/services/scheduler.service.js:41-83 | over one cycle, successes plus errors equal the number of selected plugs, one measurement is stored per success after the rows already stored, and an empty selection writes nothing |
| `Scheduler.RunCycle` | backend/src/services/scheduler.service.js:48-83 | the loop over the selected plugs computes the cycle |
| `Scheduler.PollOnePlug` | backend/src/services/scheduler.service.js:53-80 | one poll deactivates a plug exactly when the polled plug has its id and its failure mentions a transport word |
| `Scheduler.PollAllDeactivates` | backend/src/services/scheduler.service.js:52-81 | after the loop a plug is deactivated exactly when some polled plug with its id lost its connection |
| `Scheduler.PollAllSaves` | backend/src/services/scheduler.service.js:52-67 | the loop keeps the stored rows and appends, in polling order, one row per plug whose read succeeded, holding that plug's device and id and the reading's energy and time, automatic and valid |
| `Scheduler.CycleSaves` | backend/src/services/scheduler.service.js:41-67 | the rows one cycle appends are exactly the readings of the selected plugs that answered, in selection order |
| `Scheduler.LostIffRequestFailed` | backend/src/services/scheduler.service.js:72-79 | with distinct plug ids, a plug's id loses its connection in the cycle exactly when the plug is pollable and its status request failed |
| `Scheduler.CycleDeactivatesLostPlugs` | backend/src/services/scheduler.service.js:72-79 | with distinct plug ids the cycle deactivates exactly the pollable plugs whose status request failed, on the first failure, and leaves every other plug as it was |
| `Scheduler.DeactivatedNotReselected` | backend/src/services/scheduler.service.js:38-79 | every plug the next cycle selects was in the table before and answered in this cycle, so a deactivated plug is not polled again |
| `Measurements.SaveMeasurement` | backend/src/services/measurements.service.js:4-28 | the stored row is valid and echoes device, plug, kWh, time and kind; it is appended to the table under an id no earlier row has |
| `Measurements.GetMeasurementsByDevice` | backend/src/services/measurements.service.js:30-66 | the listing holds only valid rows of the device inside the inclusive bounds, newest first, no row more often than the table holds it, and has the limit or the number of such rows, whichever is smaller |
| `Measurements.ListingKeepsNewest` | backend/src/services/measurements.service.js:61 | a matching row cut off by the limit is no newer than any row listed |
| `Measurements.SavedIsListed` | backend/src/services/measurements.service.js:4-66 | saving a row adds one row to its device's unbounded listing and none to any other device's |
| `Measurements.StatusOf` | backend/src/services/measurements.service.js:133-145 | a missing active plug carries 404, a plug without an address 400, and a device failure no status |
| `Measurements.Attempt` | backend/src/services/measurements.service.js:117-147 | the collection fails with 404 exactly when the device has no active plug, with 400 exactly when its first active plug has no address, and otherwise reads that plug |
| `Measurements.GuardsPrecedeNetwork` | backend/src/services/measurements.service.js:133-145 | a 404 or 400 does not depend on what the network would answer |
| `Measurements.CollectDataFromDevice` | backend/src/services/measurements.service.js:117-167 | the collection fails exactly as its guards and read fail; on success exactly one valid automatic row with the read kWh and timestamp is appended |
| `Measurements.CollectEach` | backend/src/services/measurements.service.js:197-210 | each device ends in exactly one of the success and error lists, the errors are exactly the devices whose collection fails, one row is stored per success, and the earlier rows are kept as a prefix |
| `Measurements.CollectErrorsInOrder` | backend/src/services/measurements.service.js:197-210 | the error list is the failing devices in device order, each entry carrying that device's id and the error its collection fails with |
| `Measurements.CollectSuccessesInOrder` | backend/src/services/measurements.service.js:197-210 | the success list is the devices whose collection succeeds, in device order, each entry holding the automatic valid row of its plug's reading and the reading itself |
| `Measurements.CollectRowsInOrder` | backend/src/services/measurements.service.js:197-210 | the table after the loop is the earlier rows followed by the successes' rows, in the order of the successes |
| `Measurements.CollectDataFromAllDevices` | backend/src/services/measurements.service.js:169-219 | 404 exactly when the household is not the user's; otherwise the total is the number of devices and collected plus failed equals it; the errors are the failing devices in order with their errors, the successes the other devices in order with their rows and readings, and the table is the earlier rows followed by the successes' rows |
| `Measurements.MaxKwh` | backend/src/services/measurements.service.js:233 | `MAX` is at least every selected reading and is one of them |
| `Measurements.MinKwh` | backend/src/services/measurements.service.js:232 | `MIN` is at most every selected reading and is one of them |
| `Measurements.Spread` | backend/src/services/measurements.service.js:231-235 | the aggregates are `NULL` exactly over no rows; otherwise `MIN` and `MAX` are each attained by a selected reading, every reading lies between them, and usage is `MAX − MIN` and never negative |
| `Measurements.GetDailyConsumption` | backend/src/services/measurements.service.js:221-244 | the count is the number of the device's valid readings between 00:00:00.000 and 23:59:59.999; `MIN` and `MAX` are readings of that day, every other one lies between them, and the usage is their non-negative difference |
| `Measurements.MonotoneCounterUsage` | backend/src/services/measurements.service.js:230-241 | for a counter that never decreases over the day, the day's usage is the last reading minus the first |
| `Measurements.SpreadOfNonDecreasing` | backend/src/services/measurements.service.js:232-234 | in non-decreasing readings `MIN` is the first and `MAX` the last |
| `Costs.GetElectricityPrice` | backend/src/services/costs.service.js:6-26 | 404 exactly when the household is not the user's; otherwise the stored price and currency |
| `Costs.SetElectricityPrice` | backend/src/services/costs.service.js:31-55 | 404 exactly when the household is not the user's; otherwise the new setting has the given price and the given currency or EUR, and the answer is the stored setting |
| `Costs.SetThenGet` | backend/src/services/costs.service.js:31-55 | reading the price after a successful set gives what the setter answered; a set is refused exactly when a read by the same user is refused, and then no new setting exists |
| `Costs.DeviceCostOf` | backend/src/services/costs.service.js:88-95 | a device keeps its id, room and type; its usage is the row's kWh or 0 when missing, and its cost is usage times price rounded to the cent, hence within half a cent of it |
| `Costs.ByDevice` | backend/src/services/costs.service.js:88-95 | one priced device per row, in row order |
| `Costs.GroupKeys` | backend/src/services/costs.service.js:102-110 | the group keys are distinct, every device's key is among them, and each belongs to some device |
| `Costs.GroupCosts` | backend/src/services/costs.service.js:102-139 | one group per key, holding the cent-rounded sums of the usages and of the rounded costs of the devices with that key |
| `Costs.EachDeviceInOneGroup` | backend/src/services/costs.service.js:102-139 | every device falls in exactly one group |
| `Costs.GroupSumsPartition` | backend/src/services/costs.service.js:102-139 | the unrounded group sums of usage and of cost add up to the device totals |
| `Costs.CalculateCosts` | backend/src/services/costs.service.js:60-158 | 404 exactly when the household is not the user's; otherwise the report carries the stored price, the priced devices, the rounded totals of their usage and rounded costs, and the room and type breakdowns |
| `Costs.SumScales` | backend/src/services/costs.service.js:94-98 | pricing each device exactly and summing is pricing the summed usage |
| `Costs.CostDrift` | backend/src/services/costs.service.js:98-99 | summing the cent-rounded device costs drifts from the exact summed cost by at most half a cent per device |
| `Costs.TotalCostBound` | backend/src/services/costs.service.js:88-153 | the reported total cost is within half a cent per device, plus half a cent for the final rounding, of the total usage times the price |
| `Costs.PairwiseUsage` | backend/src/services/costs.service.js:172-192 | the daily query as written: each reading minus every earlier reading of the device on the day, summed; constant readings sum to zero, and for a non-decreasing counter the sum is at least the day's spread, last minus first |
| `Costs.PairwiseOvercounts` | backend/src/services/costs.service.js:172-192 | for readings of 1, 2 and 3 kWh the daily query's pairwise differences give 4 kWh where consecutive differences give the 2 kWh used |
| `Costs.ConsecutiveTelescopes` | backend/src/services/costs.service.js:172-192 | consecutive differences of a day's readings add up to the last reading minus the first |
| `Costs.DayUsageIsSpread` | backend/src/services/costs.service.js:172-192 | a day's usage is the sum over devices of each device's first-to-last spread |
| `Costs.DailyCostOf` | backend/src/services/costs.service.js:194-198 | a day keeps its date; its kWh is the day's usage rounded to the cent and its cost is usage times price rounded to the cent, each within half a cent of the exact value |
| `Costs.GetDailyCosts` | backend/src/services/costs.service.js:163-205 | 404 exactly when the household is not the user's; otherwise the stored price and currency and one costed entry per day, in order |
| `Common.Round2Close` | backend/src/services/costs.service.js:94 | `toFixed(2)` moves a value by at most half a cent |
| `Common.Round2Idempotent` | backend/src/services/costs.service.js:151-152 | rounding an already rounded value to the cent changes nothing |
| `Common.Round2Monotone` | backend/src/services/costs.service.js:117-118 | rounding to the cent keeps the order of values |
| `Common.Round2` | backend/src/services/costs.service.js:94 | `toFixed(2)` lands within half a cent of the value with ties away from zero and keeps the value's sign |
| `Goals.Normalized` | backend/src/services/goals.service.js:36-37 | a target is reported as a number exactly when it is truthy (present and non-zero), and then unchanged; otherwise as `null` |
| `Goals.Percent` | backend/src/services/goals.service.js:228-234 | a percentage exists exactly for a set target, and then percentage times target is current times 100 |
| `Goals.Classify` | backend/src/services/goals.service.js:236-261 | an ended goal is achieved exactly when some set target was met and exceeded exactly when none was; an ongoing goal is exceeded exactly when some set target is passed, warns exactly when none is passed and some set target is above 80 %, and is never achieved |
| `Goals.NearMeansFourFifths` | backend/src/services/goals.service.js:255-259 | for a positive target, "above 80 %" means the current value is more than four fifths of the target |
| `Goals.WarningBand` | backend/src/services/goals.service.js:250-261 | with only a positive kWh target, an ongoing goal warns exactly when usage is above four fifths of the target and not above the target |
| `Goals.NoTargetsNoAchievement` | backend/src/services/goals.service.js:240-261 | without set targets an ended goal is exceeded and an ongoing one on track |
| `Goals.Remaining` | backend/src/services/goals.service.js:269-270 | what remains exists exactly for a set target, is never negative, is zero exactly when the target is reached, and otherwise adds to the current value to give the target |
| `Goals.Reported` | backend/src/services/goals.service.js:266-267 | a percentage is reported exactly when it exists and is non-zero, and then unchanged |
| `Goals.CalculateGoalProgress` | backend/src/services/goals.service.js:210-284 | when the cost calculation fails, progress is zero usage and cost, zero percentages, on track, and the raw targets as what remains; otherwise it carries the period's usage and cost, the classified status, the reported percentages and what remains |
| `Goals.CreateGoal` | backend/src/services/goals.service.js:7-42 | 404 exactly when the household is not the user's; otherwise the table grows by one row under the next id, the counter advances, the row holds the name, type, dates and targets as given and is active, and the answer is that row with the targets as numbers or `null` |
| `Goals.ListedGoals` | backend/src/services/goals.service.js:62-86 | the listing holds exactly the household's goals (only active ones on request), each as often as the table holds it, latest start first |
| `Goals.CreatedGoalListed` | backend/src/services/goals.service.js:7-86 | a goal just created appears in its household's listing, with or without the active-only filter |
| `Goals.ViewOf` | backend/src/services/goals.service.js:89-99 | a listed goal shows its targets as numbers or `null` and its progress for its own period, ended when today is past its end |
| `Goals.GetGoals` | backend/src/services/goals.service.js:47-103 | 404 exactly when the household is not the user's; otherwise one view per listed goal, in listing order |
| `Devices.OrNull` | backend/src/services/devices.service.js:151-154 | an optional text is stored exactly when it is present and non-empty, and then unchanged; otherwise `NULL` |
| `Devices.NumberOrNull` | backend/src/services/devices.service.js:153 | an optional number is stored exactly when it is present and non-zero, and then unchanged; otherwise `NULL` |
| `Devices.CreateDevice` | backend/src/services/devices.service.js:103-168 | the three refusals are tried in order: 404 exactly when the household is not the user's, then 400 exactly when the room is not in it, then 400 exactly when the type is not one of the thirteen; only a call that passes all three appends one device under the next id, with the given room, name and type and the optional fields `NULL` when falsy, leaving the other tables alone |
| `Devices.CreateKeepsValid` | backend/src/services/devices.service.js:137-167 | a created device belongs to the user, and the registry's keys and counters stay valid |
| `Devices.AttachPlug` | backend/src/services/devices.service.js:266-320 | the refusals are tried in order: 404 exactly when the device is not the user's, then 400 for a missing serial, then 400 when the device already has a plug, then 400 when the serial is taken; a plug that passes is appended under the next id, active, with serial, maker and model from the input and no address |
| `Devices.AttachKeepsValid` | backend/src/services/devices.service.js:277-299 | attaching keeps at most one plug per device, unique serial numbers and the plug ids a key |
| `Devices.PlugOf` | backend/src/services/devices.service.js:244-255 | a plug is found exactly when one is attached to the device, and it is that device's plug from the table |
| `Devices.PlugOfUnique` | backend/src/services/devices.service.js:244-263 | with one plug per device, the lookup finds the device's only plug |
| `Devices.GetPlugForDevice` | backend/src/services/devices.service.js:240-264 | 404 exactly when the device is not the user's, then 404 exactly when it has no plug; otherwise the device's plug from the table |
| `Devices.AttachThenGet` | backend/src/services/devices.service.js:240-299 | after a successful attach the lookup returns the new plug, and a second attach with a serial is refused because the device has a plug |
| `Devices.RoomFor` | backend/src/services/devices.service.js:70-72 | a room is found exactly when the household has a room with the device's room id, and it is that room |
| `Devices.Joined` | backend/src/services/devices.service.js:70-74 | every joined row pairs a device of the table with its room in the household, and every device of the household's rooms appears |
| `Devices.ViewOf` | backend/src/services/devices.service.js:79-99 | a listed device shows its id and room, and its plug part is present exactly when a plug is attached whose id is truthy |
| `Devices.SortedRows` | backend/src/services/devices.service.js:75 | the joined rows reordered by ascending device id, none gained or lost |
| `Devices.Listing` | backend/src/services/devices.service.js:79-99 | one view per sorted row, in that order |
| `Devices.ListDevices` | backend/src/services/devices.service.js:51-100 | 404 exactly when the household is not the user's; otherwise the listing, ascending by id, every device in one of the household's rooms |
| `Devices.ListingShape` | backend/src/services/devices.service.js:70-75 | the listing runs by ascending id and shows only the household's rooms |
| `Devices.ListedIfInHousehold` | backend/src/services/devices.service.js:70-75 | every device of the household's rooms is listed |
| `Devices.ListedOnlyHousehold` | backend/src/services/devices.service.js:70-74 | every listed id is the id of a device of the table that lies in one of the household's rooms |
| `Devices.ListedExactly` | backend/src/services/devices.service.js:70-75 | with device ids a key, a device is listed exactly when it lies in one of the household's rooms |
| `Devices.ListedPlugNullIffNone` | backend/src/services/devices.service.js:92-98 | with plug ids counted from 1, a listed device's plug is `null` exactly when no plug is attached to it |
| `Notifications.Create` | backend/src/services/notification.service.js:39-74 | the new row is appended under the next id, which is the answer; it carries the caller's user, household, device, type, priority, title and message, unread, not archived, created now and never read |
| `Notifications.UnreadCount` | backend/src/services/notification.service.js:132-148 | the count is the number of the user's rows that are neither read nor archived, and is zero exactly when there are none |
| `Notifications.CreateAddsUnread` | backend/src/services/notification.service.js:39-148 | a new notification adds one to its user's unread count and leaves every other user's count alone |
| `Notifications.Newest` | backend/src/services/notification.service.js:104-116 | the selection holds exactly the user's non-archived rows (only the unread ones on request), newest first |
| `Notifications.ListNotifications` | backend/src/services/notification.service.js:79-127 | a page is the run of the user's visible rows, newest first, that starts at the offset: each row is the one at its position after the offset, and it holds `limit` rows or as many as follow the offset, whichever is fewer |
| `Notifications.PagesCompose` | backend/src/services/notification.service.js:116 | a page of `a` rows followed by the page of `b` rows after it is the page of `a + b` rows |
| `Notifications.FirstPageShowsAll` | backend/src/services/notification.service.js:79-83 | with at most fifty visible rows, the first page of the default size shows every one of them |
| `Notifications.MarkAsRead` | backend/src/services/notification.service.js:153-172 | only a row whose id and owner both match becomes read, stamped now, with nothing else changed; the answer is whether such a row exists |
| `Notifications.MarkAsReadUnread` | backend/src/services/notification.service.js:132-172 | marking as read lowers a user's unread count by exactly the unread rows it targets, and leaves every other user's count unchanged |
| `Notifications.MarkAllAsRead` | backend/src/services/notification.service.js:177-198 | every unread row of the user, archived ones included, becomes read and stamped now; every other row stays; the answer is how many rows that was |
| `Notifications.MarkAllClearsUnread` | backend/src/services/notification.service.js:177-198 | afterwards the user has no unread notification, and the answer is how many more of the user's rows are read |
| `Notifications.MarkAllKeepsOthers` | backend/src/services/notification.service.js:182-185 | marking all of one user's notifications leaves every other user's unread count as it was |
| `Notifications.Archive` | backend/src/services/notification.service.js:203-222 | only a row whose id and owner both match becomes archived, with its read flag and every other field unchanged; the answer is whether such a row exists |
| `Notifications.ArchivedNotListed` | backend/src/services/notification.service.js:107-211 | an archived notification no longer appears in any listing of its owner |
| `Notifications.Cleanup` | backend/src/services/notification.service.js:227-248 | exactly the read rows created before the cut-off are deleted, so unread rows survive whatever their age; the answer is how many were deleted |
| `Notifications.CleanupKeepsUnreadCount` | backend/src/services/notification.service.js:227-248 | cleanup changes no user's unread count |
| `Notifications.NotifyDeviceFailure` | backend/src/services/notification.service.js:253-268 | the earlier rows kept and one new unread row appended of type `device_failure` and priority `high` for the user, household and device, with the title and message naming the device, created now; it takes the next id, which is returned, and the counter moves on by one |
| `Notifications.NotifyHighConsumption` | backend/src/services/notification.service.js:273-289 | the earlier rows kept and one new unread row appended of type `high_consumption` and priority `medium` for the user, household and device, with the fixed title and the given message, created now; it takes the next id, which is returned, and the counter moves on by one |
| `Notifications.NotifyAnomaly` | backend/src/services/notification.service.js:294-308 | the earlier rows kept and one new unread row appended of type `anomaly` and priority `medium` for the household, tied to no device, with the fixed title and message, created now; it takes the next id, which is returned, and the counter moves on by one |
| `Notifications.NoticesAddUnread` | backend/src/services/notification.service.js:253-308 | each of the three notices adds one to its recipient's unread count |
| `Reports.ParseGroupBy` | backend/src/services/reports.service.js:23-47 | a known `groupBy` name selects its own granularity and any other value falls back to days |
| `Reports.ParseNameOf` | backend/src/services/reports.service.js:23-43 | each of hour, day, week, month and year is selected by its own name |
| `Reports.TimeSeries` | backend/src/services/reports.service.js:67-82 | one point per distinct period, each holding the cent-rounded sum of its devices' usages with a missing usage counted as 0 |
| `Reports.TimeSeriesPeriods` | backend/src/services/reports.service.js:67-82 | the series has a point for every period of the query rows and for no other |
| `Reports.TimeSeriesTotal` | backend/src/services/reports.service.js:67-82 | the rounded points add up to the query rows' total usage within half a cent per point |
| `Reports.TopDevices` | backend/src/services/reports.service.js:84-103 | the top list holds the ten largest devices, or all when there are fewer, by descending usage; each is the rounded form of the matching row of the stable descending selection, which takes no row more often than the query returned it |
| `Reports.TopDevicesDominate` | backend/src/services/reports.service.js:100-101 | a device left out of the top list used no more than any listed one |
| `Reports.RankedGroups` | backend/src/services/reports.service.js:138-139 | the groups reordered by descending unrounded sum, none gained or lost, each with its key's sum |
| `Reports.RoomInfoIsFirst` | backend/src/services/reports.service.js:126-134 | a room's accumulator keeps the name and type of the room's first row |
| `Reports.ByRoom` | backend/src/services/reports.service.js:124-143 | one entry per room of the query rows |
| `Reports.ByRoomCovers` | backend/src/services/reports.service.js:124-143 | every room of the query rows has its entry |
| `Reports.ByRoomTotals` | backend/src/services/reports.service.js:124-143 | each room entry holds its devices' summed usage rounded to the cent, and the name and type of the room's first row |
| `Reports.ByRoomOrdered` | backend/src/services/reports.service.js:138-143 | the room entries run from the largest unrounded sum down, and so do their rounded values |
| `Reports.RoomsPartition` | backend/src/services/reports.service.js:124-136 | the unrounded room sums add up to the usage of all rows |
| `Reports.DevicesOfKind` | backend/src/services/reports.service.js:173 | the set of a type holds exactly the device ids of that type's rows |
| `Reports.DeviceCount` | backend/src/services/reports.service.js:181 | a type's device count is at most the number of its rows and is positive exactly when the type has a row |
| `Reports.DeviceCountOfGroupedRows` | backend/src/services/reports.service.js:146-181 | with the query grouping by type and device, a type's device count is the number of its rows |
| `Reports.ByType` | backend/src/services/reports.service.js:162-183 | one entry per device type of the query rows |
| `Reports.ByTypeCovers` | backend/src/services/reports.service.js:162-183 | every type of the query rows has its entry |
| `Reports.ByTypeTotals` | backend/src/services/reports.service.js:162-183 | each type entry holds its devices' summed usage rounded to the cent and its positive number of distinct devices |
| `Reports.ByTypeOrdered` | backend/src/services/reports.service.js:177-183 | the type entries run from the largest unrounded sum down, and so do their rounded values |
| `Reports.SummaryOf` | backend/src/services/reports.service.js:185-200 | the number of periods is the number of points; the total is the points' sum rounded to the cent; the average is total over periods rounded to the cent; each is within half a cent of its exact value, and both are 0 without periods |
| `Reports.GenerateConsumptionReport` | backend/src/services/reports.service.js:4-224 | 404 exactly when the household is not the user's; otherwise the series for the selected granularity, the top devices, the room and type breakdowns and the summary of the series, whose device count is the top-list length and so at most ten |
| `Reports.CompareTotals` | backend/src/services/reports.service.js:235-257 | the difference is the first total minus the second rounded to the cent; the percentage is the difference over the second total, times 100, rounded to the cent when that total is positive and 0 otherwise; the trend is a rise, a fall or steady exactly as the first total is above, below or equal to the second |
| `Reports.SwappedTrend` | backend/src/services/reports.service.js:257 | swapping the two periods turns a rise into a fall and keeps a steady trend |
| `Reports.ComparePeriodsReport` | backend/src/services/reports.service.js:227-259 | 404 exactly when the household is not the user's; otherwise both summaries come from day-grouped reports, and the difference and trend compare their totals |
| `Insights.PrevValue` | backend/src/services/insights.service.js:57-66 | a device's last value exists exactly when the device was read before, and is the counter of its latest earlier reading |
| `Insights.DeltaSamples` | backend/src/services/insights.service.js:52-84 | there are never more deltas than readings, and every accepted delta is strictly between 0 and 10 kWh |
| `Insights.DeriveDeltas` | backend/src/services/insights.service.js:53-84 | the loop with a per-device map of the last counter value yields exactly the accepted deltas: a first reading only seeds the map, a later one yields a delta exactly when it is strictly between 0 and 10, and every reading advances the map |
| `Insights.FirstReadingOnlySeeds` | backend/src/services/insights.service.js:57-64 | readings of pairwise distinct devices yield no delta at all |
| `Insights.CounterResetExample` | backend/src/services/insights.service.js:66-82 | a jump and a counter reset are both dropped, and the next delta is measured from the post-reset value |
| `Insights.RowsKeepTotal` | backend/src/services/insights.service.js:97-144 | keying the deltas by hour, weekday or device keeps their amounts, so each keyed view sums to the total |
| `Insights.HourTotals` | backend/src/services/insights.service.js:96-104 | each hourly entry is an hour with deltas and holds the sum of that hour's deltas |
| `Insights.HourTotalsComplete` | backend/src/services/insights.service.js:96-104 | every hour with deltas has its total among the hourly entries |
| `Insights.PeakHours` | backend/src/services/insights.service.js:106-113 | three hours, or every hour with deltas when there are fewer, largest total first, each an hour with deltas holding its total, none listed twice |
| `Insights.PeakHoursDominate` | backend/src/services/insights.service.js:106-113 | an hour with deltas left out of the peak list used no more than any listed hour |
| `Insights.WeekdayPatterns` | backend/src/services/insights.service.js:115-130 | exactly seven entries, Sunday to Saturday, each holding that weekday's total and 0 for a day without deltas |
| `Insights.WeekdayPartition` | backend/src/services/insights.service.js:115-130 | the seven weekday totals add up to the total consumption |
| `Insights.TopConsumers` | backend/src/services/insights.service.js:132-152 | five device totals, or all of them when there are fewer, largest first, each one of the per-device totals, none listed twice |
| `Insights.TopConsumersDominate` | backend/src/services/insights.service.js:146-152 | a device left out of the top list used no more than any listed device |
| `Insights.UnusualSpikes` | backend/src/services/insights.service.js:154-163 | the first five deltas above three times the mean delta, in input order, or all of them when there are fewer: the exact length is the smaller of five and their number |
| `Insights.SpikesIff` | backend/src/services/insights.service.js:154-163 | there is a spike exactly when some delta exceeds three times the mean |
| `Insights.DailyAverage` | backend/src/services/insights.service.js:169 | the daily average exists exactly for a non-zero day count, and multiplied back by it gives the total |
| `Insights.SummaryOf` | backend/src/services/insights.service.js:165-172 | the summary holds the total of the deltas, its daily average, the number of deltas and the number of devices with deltas |
| `Insights.AnalyzeConsumptionPatterns` | backend/src/services/insights.service.js:6-181 | 404 exactly when the household is not the user's; no readings and readings without an accepted delta are the two empty outcomes; otherwise the peak hours, weekdays, top consumers, spikes and summary of the accepted deltas |
| `Insights.UnbalancedIff` | backend/src/services/insights.service.js:237-252 | comparing the first and last of the sorted weekday copy finds an imbalance exactly when some day used more than twice what some other day used |
| `Insights.PeakRule` | backend/src/services/insights.service.js:198-210 | a high-priority peak-hour tip for the top hour exactly when it used more than 1 kWh |
| `Insights.TopDeviceRule` | backend/src/services/insights.service.js:212-224 | a high-priority tip for the top device exactly when it used more than 10 kWh |
| `Insights.SpikeRule` | backend/src/services/insights.service.js:226-235 | a medium-priority tip counting the spikes exactly when there is one |
| `Insights.WeekdayRule` | backend/src/services/insights.service.js:237-252 | a medium-priority balancing tip exactly when the weekdays are unbalanced |
| `Insights.StandbyRule` | backend/src/services/insights.service.js:254-263 | a low-priority standby tip exactly when the total is above 50 kWh |
| `Insights.GenerateRecommendations` | backend/src/services/insights.service.js:186-270 | a failed analysis fails the same way; an analysis without patterns gives no tips; otherwise at most five tips, in the order of their rules (peak hour, top device, spikes, weekday balance, standby) with no rule repeated |
| `Insights.RecommendationIff` | backend/src/services/insights.service.js:196-263 | each kind of tip is in the list exactly when its rule's condition holds |
| `Insights.ChangeOf` | backend/src/services/insights.service.js:328-360 | the absolute change is current minus previous; against a previous total that is not positive the percentage is 0 and the trend flat; otherwise percentage times previous is the difference times 100, and the trend is up exactly above +5 % and down exactly below −5 % |
| `Insights.PercentScaled` | backend/src/services/insights.service.js:334-341 | for a positive previous total, "above +5 %" is "current times 100 above previous times 105", and "below −5 %" is "below previous times 95" |
| `Insights.CompareWithPreviousPeriod` | backend/src/services/insights.service.js:275-363 | 404 exactly when the household is not the user's; otherwise both totals, with a missing device usage counted as 0, and the change between them |
| `Insights.ComparisonExamples` | backend/src/services/insights.service.js:331-342 | 150 against 100 is +50 % and up, 75 against 100 is −25 % and down, anything against 0 is 0 % and flat, and +3 % is flat |
| `MlInsights.Values` | backend/src/services/ml-insights.service.js:18 | the value list has one entry per day, the day's consumption, in order |
| `MlInsights.Flag` | backend/src/services/ml-insights.service.js:27-37 | the flagged days are exactly the days passing the test, in input order, each with its distance from the mean and its percentage deviation |
| `MlInsights.DetectAnomalies` | backend/src/services/ml-insights.service.js:15-40 | nothing for fewer than three days or a standard deviation below 0.01; otherwise exactly the days whose z-score exceeds the threshold, in input order |
| `MlInsights.UniformHasNoAnomalies` | backend/src/services/ml-insights.service.js:22-25 | data of one constant value never yields an anomaly |
| `MlInsights.AnomalyDeviationDefined` | backend/src/services/ml-insights.service.js:34 | for non-negative consumption every anomaly's percentage deviation is defined, because a spread that passes the guard forces a positive mean |
| `MlInsights.FlagKeepsExactlyOutliers` | backend/src/services/ml-insights.service.js:28-37 | a day is flagged exactly when its z-score exceeds the threshold |
| `MlInsights.TrendOf` | backend/src/services/ml-insights.service.js:69-72 | increasing exactly above a slope of 0.1, decreasing exactly below −0.1, stable in between |
| `MlInsights.ConfidenceOf` | backend/src/services/ml-insights.service.js:85-98 | high exactly above an R² of 0.8, medium exactly in (0.6, 0.8], and low otherwise, including when R² is undefined |
| `MlInsights.Max0` | backend/src/services/ml-insights.service.js:64 | the clamped prediction is never negative and equals the line's value when that is not |
| `MlInsights.Predictions` | backend/src/services/ml-insights.service.js:58-66 | one prediction per day ahead, numbered from 1, each the fitted line just past the last observation, clamped at 0 |
| `MlInsights.PredictFutureConsumption` | backend/src/services/ml-insights.service.js:45-80 | no forecast for fewer than seven points; otherwise non-negative predictions on the least-squares line, the slope, its trend and the confidence of R² |
| `MlInsights.ExactLineForecast` | backend/src/services/ml-insights.service.js:51-72 | on an exact line the forecast's slope is the line's step and the predictions continue the line, clamped at 0 |
| `MlInsights.ExactLinePredictions` | backend/src/services/ml-insights.service.js:58-66 | on an exact line every prediction is the line's continuation, clamped at 0 |
| `MlInsights.FittedPredictions` | backend/src/services/ml-insights.service.js:55-66 | predictions from a fit with slope b and intercept a lie on a + b·x |
| `MlInsights.FittedPredictionAt` | backend/src/services/ml-insights.service.js:64 | one prediction from a fit with slope b and intercept a lies on a + b·x |
| `MlInsights.FittedLineAt` | backend/src/services/ml-insights.service.js:55 | the regression line evaluated anywhere is intercept plus slope times x |
| `MlInsights.ExactLineConfidence` | backend/src/services/ml-insights.service.js:85-92 | a non-constant exact line is forecast with high confidence |
| `MlInsights.TrendOfExampleSeries` | backend/src/services/ml-insights.service.js:45-80 | 10, 12, …, 22 trends upwards with three predictions starting at day 1, and the reversed series trends downwards |
| `MlInsights.CountFor` | backend/src/services/ml-insights.service.js:109-115 | an hour has a positive number of readings exactly when some reading falls in it |
| `MlInsights.HourAverages` | backend/src/services/ml-insights.service.js:107-121 | one entry per hour with readings, by ascending hour, each the mean of that hour's readings, and every reading's hour is covered |
| `MlInsights.AveragesOf` | backend/src/services/ml-insights.service.js:118-121 | for each listed hour, in order, the mean of its readings |
| `MlInsights.IdentifyOptimalUsageTimes` | backend/src/services/ml-insights.service.js:104-135 | nothing without readings; otherwise up to five hour averages lowest first and up to five highest first, each list drawn from the hourly means without repeating any of them |
| `MlInsights.LowestHoursAreLowest` | backend/src/services/ml-insights.service.js:124-132 | an hour left out of the lowest list averages at least as much as every hour in it |
| `MlInsights.HighestHoursAreHighest` | backend/src/services/ml-insights.service.js:124-133 | an hour left out of the highest list averages at most as much as every hour in it |
| `MlInsights.BandOf` | backend/src/services/ml-insights.service.js:157-164 | high exactly above the third quartile, low exactly below the first and not above the third, medium otherwise with both quartiles included |
| `MlInsights.Categorize` | backend/src/services/ml-insights.service.js:145-170 | each band list is exactly the devices in that band, in input order; the vampire list is exactly the devices with average power below 50 and uptime above 90 %; the frequency list stays empty |
| `MlInsights.ClusterDevicesByUsage` | backend/src/services/ml-insights.service.js:141-173 | nothing for no devices; otherwise the categories for the given quartiles |
| `MlInsights.ClustersPartition` | backend/src/services/ml-insights.service.js:157-165 | every device is in exactly one of the three bands, and the band sizes add up to the number of devices |
| `MlInsights.BandCounts` | backend/src/services/ml-insights.service.js:157-165 | the three band counts add up to the number of devices |
| `MlInsights.VampireIff` | backend/src/services/ml-insights.service.js:166-169 | a device is a vampire exactly when its average power is below 50 and its uptime above 90 %, whatever its band |
| `MlInsights.RouterIsVampire` | backend/src/services/ml-insights.service.js:166-169 | a 10 W router always on is the first vampire next to a 1500 W air conditioner |
| `MlInsights.AnomalyPart` | backend/src/services/ml-insights.service.js:251-270 | a high-priority anomaly alert counting the flagged days exactly when at least seven days are available and some day is flagged at threshold 2.5 |
| `MlInsights.PredictedValues` | backend/src/services/ml-insights.service.js:282 | the predicted amounts, one per prediction, in order |
| `MlInsights.ForecastPriority` | backend/src/services/ml-insights.service.js:286-300 | high exactly for a rising trend with more than 10 % growth, low exactly for a falling trend, medium otherwise |
| `MlInsights.ForecastPart` | backend/src/services/ml-insights.service.js:272-312 | a forecast entry exactly when at least fourteen days are available, carrying the trend and the priority for the predicted against the last seven days' average |
| `MlInsights.TimingPriority` | backend/src/services/ml-insights.service.js:321-359 | medium exactly when the busiest hour exceeds the quietest by more than 20 % of the busiest and at least three hours are ranked; low otherwise |
| `MlInsights.TimingPart` | backend/src/services/ml-insights.service.js:314-361 | a timing entry exactly when there are at least 24 hourly readings, with the priority of the ranked hours |
| `MlInsights.Names` | backend/src/services/ml-insights.service.js:401 | the device names, one per device, in order |
| `MlInsights.OptimizationPart` | backend/src/services/ml-insights.service.js:379-391 | a high-priority entry counting the high-band devices exactly when there is one |
| `MlInsights.VampirePart` | backend/src/services/ml-insights.service.js:393-404 | a medium-priority entry naming the vampires exactly when there is one |
| `MlInsights.ClusterPart` | backend/src/services/ml-insights.service.js:363-406 | at most two entries: high-priority device optimisation and medium-priority vampires naming exactly the vampire devices |
| `MlInsights.TwoPartKinds` | backend/src/services/ml-insights.service.js:378-405 | in the optimisation entries followed by the vampire entries, each kind is present exactly when its part is non-empty |
| `MlInsights.ClusterPartIff` | backend/src/services/ml-insights.service.js:363-406 | the optimisation entry appears exactly when some device is above the third quartile, and the vampire entry exactly when some device is a vampire |
| `MlInsights.ClusterKinds` | backend/src/services/ml-insights.service.js:378-405 | each device entry appears exactly when its category list is non-empty |
| `MlInsights.BandPresence` | backend/src/services/ml-insights.service.js:157-169 | a category list is non-empty exactly when some device belongs to it |
| `MlInsights.SeasonPart` | backend/src/services/ml-insights.service.js:408-428 | one low-priority tip exactly in summer or winter, the summer tip exactly for June to September and the winter tip exactly for December to March |
| `MlInsights.MlRecommendations` | backend/src/services/ml-insights.service.js:436-440 | the list is sorted by descending priority and is a permutation of the recommendations in the order they were pushed |
| `MlInsights.RecommendationsGroupedByPriority` | backend/src/services/ml-insights.service.js:436-440 | the sort is stable: the high entries, then the medium, then the low, each group in push order |
| `MlInsights.KeyClassIsPriority` | backend/src/services/ml-insights.service.js:437-439 | the entries of one sort weight are exactly the entries of that priority |
| `MlInsights.SeasonalTipIff` | backend/src/services/ml-insights.service.js:408-440 | the returned list holds the summer tip exactly in summer and the winter tip exactly in winter |
| `MlInsights.AnomalyAlertIff` | backend/src/services/ml-insights.service.js:251-440 | the returned list holds an anomaly alert exactly when at least seven days are available and some day is flagged at threshold 2.5 |
| `MlInsights.Metrics` | backend/src/services/ml-insights.service.js:443-450 | the anomaly count at threshold 2.5 for at least seven days and 0 otherwise, the forecast confidence exactly for at least fourteen days, and the number of devices |
| `MlInsights.GenerateMlRecommendations` | backend/src/services/ml-insights.service.js:178-457 | a household that is not the user's fails; otherwise the prioritised recommendations and the metrics |
| `Stats.ExceedsZMeansZScore` | backend/src/services/ml-insights.service.js:29-30 | the square-root-free test agrees with the z-score test for every positive standard deviation |
| `Stats.SmallDeviationMeansSmallVariance` | backend/src/services/ml-insights.service.js:23 | a standard deviation below 0.01 is exactly a variance below 0.0001 |
| `Stats.ConstantHasNoVariance` | backend/src/services/ml-insights.service.js:19-25 | constant data has its value as mean and no variance |
| `Stats.SpreadImpliesPositiveMean` | backend/src/services/ml-insights.service.js:23-34 | non-negative data with a spread that passes the guard has a positive mean |
| `Stats.DenominatorPositive` | backend/src/services/ml-insights.service.js:51-54 | with at least two points the least-squares denominator is positive, so the slope is defined |
| `Stats.ArithmeticSlope` | backend/src/services/ml-insights.service.js:51-55 | least squares recovers an exact line's step and start |
| `Stats.ArithmeticRSquared` | backend/src/services/ml-insights.service.js:85-92 | a non-constant exact line has an R² of 1 |
| `Grouping.GroupTotals` | backend/src/services/insights.service.js:133-144 | distinct keys, exactly the keys that occur, each holding the sum of its rows |
| `Grouping.GroupTotalsPartition` | backend/src/services/insights.service.js:133-144 | the grouped totals add up to the sum of all rows |
| `Grouping.IntKeyOrder` | backend/src/services/reports.service.js:125-138 | the room keys listed once each, every room of a row included and nothing else |
| `Grouping.FirstSeenOrder` | backend/src/services/reports.service.js:163-177 | the type keys listed once each, every type of a row included and nothing else |
| `Grouping.EntriesCover` | backend/src/services/reports.service.js:125-138 | entries over a covering list of distinct keys add up to the sum of all rows |
| `Common.SortDesc` | backend/src/services/reports.service.js:138-139 | the result is sorted by descending key and is a permutation of the input |
| `Common.SortDescThreeLevels` | backend/src/services/ml-insights.service.js:437-440 | sorting a list whose keys take three values yields the top group, then the middle, then the bottom, each in input order |
| `Common.TopK` | backend/src/services/insights.service.js:107-109 | the top k are a prefix of the stable descending sort: exactly k elements, or all when there are fewer, sorted descending, none taken more often than the input holds it |
| `Common.TopKDominates` | backend/src/services/insights.service.js:107-109 | an element cut off from the top k is dominated by every element kept |
| `Common.Cents` | backend/src/services/costs.service.js:94 | the whole number of cents nearest to a non-negative amount, a tie going up |
| `Common.Round2InCents` | backend/src/services/costs.service.js:94 | the rounded value is a whole number of cents |
| `Common.Round2Whole` | backend/src/services/reports.service.js:203 | rounding an amount already in whole cents changes nothing |
| `Common.OrZero` | backend/src/services/reports.service.js:135 | a missing amount counts as 0 and a present one as itself |
| `Common.RoundingDrift` | backend/src/services/costs.service.js:88-99 | summing values that are each within half a cent of a partner drifts from the partners' sum by at most half a cent per value |
| `Costs.ByDeviceHalfCent` | backend/src/services/costs.service.js:88-95 | every per-device cost is within half a cent of its exact cost |
| `Costs.RoundedTotalBound` | backend/src/services/costs.service.js:97-152 | the reported total cost is within half a cent per device, plus half a cent for the final rounding, of total usage times price |
| `Reports.RoomAmountsSum` | backend/src/services/reports.service.js:125-136 | the room rows, a missing usage counting as 0, keep the sum of the query rows |
| `Scheduler.FailedMeansLost` | backend/src/services/scheduler.service.js:72-79 | a selected plug whose request fails loses its connection in the cycle |
| `Scheduler.LostMeansFailed` | backend/src/services/scheduler.service.js:72-79 | with distinct plug ids, a plug marked lost was selected and its request failed |

The manual trigger of the scheduler runs one collection cycle outside the schedule. It is `Scheduler.CollectCycle` with no change to the job state.

## Left out

- `Goals.GetGoals`: a goal's period totals are the parameter `totalsFor`, not computed by `Costs.CalculateCosts`, so the model does not tie a goal's progress to the household's stored measurements.
- Network I/O in the Shelly service is not modelled: `fetch`, the abort timer, and the wrappers `getPowerMeterData`, `getSwitchStatus` and `setSwitchState`. The answer of a request is an input.
- SQL execution is not modelled. Each query is given as its result rows; the `MAX − MIN` spreads per device and group in the cost and report queries arrive precomputed.
- An `ORDER BY` is modelled as a stable sort of the selected rows. The order in which the database returns ties, and where it sorts `NULL`, are not modelled.
- An `UPDATE`'s `affectedRows` is taken as the number of matched rows.
- Primary keys are assumptions (`Records.DistinctPlugIds`, `Devices.Valid`), not something the model enforces on the tables.
- The device listing joins at most one plug per device; `Devices.Valid` states that assumption.
- The library quantiles are parameters, because the band rules hold for any two cut-offs.
- The library's mean, variance, regression and R² are defined here over exact reals, not taken from the library. A failing R² call is modelled as an undefined R², which gives low confidence.
- Clock values are parameters: the current time, the hour, weekday and month of a reading, and whether a goal has ended. Timezones and date arithmetic are not modelled.
- Timestamps are integer milliseconds, not `Date` objects.
- `node-cron` is not modelled. Cron validity is a predicate parameter, and overlapping asynchronous ticks are not modelled.
- The logger, controllers, routes, authentication, the household service and the frontend are not modelled.
- Human-readable text is not modelled: recommendation titles, descriptions and details, emoji, notification messages, and notification metadata JSON. The high-consumption message is a parameter.
- Floating point is replaced by exact reals, so there is no NaN, Infinity or binary rounding. `toFixed(2)` in the cost and report services is modelled as `Common.Round2`.
- `Goals.CalculateGoalProgress`: the percentages are not rounded to one decimal (`toFixed(1)`) as the source rounds them.
- `Insights.AnalyzeConsumptionPatterns`: the reported figures are exact sums, not rounded to the cent as in the source.
- `Insights.GenerateRecommendations`: the thresholds 1, 10 and 50 kWh and the weekday comparison use exact sums. The source compares the cent-rounded figures, so amounts within half a cent of a threshold can be decided differently.
- `Insights.TopConsumers`: devices with equal totals can be ordered differently. Here they are grouped in order of first appearance, while the source's object lists integer device ids ascending.
- `Insights.ChangeOf`: the percentage is not rounded to one decimal on output.
- `Insights.DailyAverage`: a day count of 0 gives no average, where the source divides by zero.
- `MlInsights.DetectAnomalies`: the z-score and deviation strings (`toFixed`) are kept as exact distances.
- `MlInsights.ForecastPart`: the predicted amounts are averaged unrounded, while the source averages the values rounded to the cent.
- `MlInsights.TimingPriority`: the hourly averages are compared unrounded, while the source compares them rounded to the cent.
- `MlInsights.Categorize`: the uptime percentage is an input field, not computed from the measurement count.
- The stored `DECIMAL` columns are modelled as numbers. The truthiness of a `"0.00"` string, which counts as set in the source, is not modelled.
- Shelly status fields other than `aenergy` are assumed present when their component is present.
- `getDeviceById` in the device service is not modelled.
- `getGoal`, `updateGoal` and `deleteGoal` in the goals service are not modelled.
- `getMeasurementsByHousehold` and `getConsumptionStats` in the measurements service are not modelled.
- `Costs.PairwiseUsage`: the as-written self-join pairs each reading with the readings of the 24 hours before it; here the window is the reading's own day, and the earlier readings are not filtered on `validno` as the source leaves them unfiltered.
- `Costs.GetDailyCosts`: computes the corrected daily usage (consecutive differences, that is last minus first per device) and not the source's pairwise self-join; the discrepancy is the finding below.
- `Costs.DeviceCostOf`: the source's per-device `troskovi` is the string `toFixed(2)` returns; here it is the number that string denotes.
- `MlInsights.Predictions`: `predicted_kwh` is the exact clamped line value; the source returns it as a `toFixed(2)` string.
- `MlInsights.PredictFutureConsumption`: the predictions are not turned into `toFixed(2)` strings and the slope is not turned into a `toFixed(4)` string.
- `MlInsights.IdentifyOptimalUsageTimes`: the returned hourly averages are exact. The source sorts the same unrounded averages, so the order agrees, but it rounds each returned value to the cent after sorting.
- `Insights.CompareWithPreviousPeriod`: the two totals and the absolute change are exact, not rounded to the cent, and the percentage is not rounded to one decimal, as the source rounds them on output.
- The MySQL driver returns `DECIMAL` columns and their `SUM`s as strings. In the source, `(x || 0).toFixed` on such a string would throw in `getDailyCosts`, and `+=` on one would concatenate text in the report groupings; the model treats every such value as the number it denotes.

## Findings

| source | as written | input that shows it | evidently intended | confidence | as-written member | corrected member |
|---|---|---|---|---|---|---|
| backend/src/services/costs.service.js:172-192 | the daily usage sums, for each reading, its difference to every earlier reading of the same device in the window (a pairwise self-join) | readings of 1, 2 and 3 kWh on one day give 1 + 2 + 1 = 4 kWh | consecutive differences, which telescope to last minus first: 2 kWh | not executed | `Costs.PairwiseOvercounts` | `Costs.ConsecutiveTelescopes` |

`Costs.GetDailyCosts` uses the corrected daily usage.

=== FILE: common.dfy ===
/** Shared vocabulary of the model: optional values, results, sums over
    sequences of records, stable sorting by a real-valued key, filtering and
    `slice(0, n)`. Every service module imports this one. */
module Common {

  /** A value that may be `null` in the source. */
  datatype Option<+T> = None | Some(value: T)

  /** A returned value or a thrown error. */
  datatype Result<+T, +E> = Ok(value: T) | Err(error: E)

  /** Left-to-right sum of `f` over `s`, the shape of `reduce((sum, x) => sum + f(x), 0)`. */
  function SumBy<T>(s: seq<T>, f: T -> real): real
  {
    if |s| == 0 then 0.0 else SumBy(s[..|s| - 1], f) + f(s[|s| - 1])
  }

  lemma {:induction false} SumByAppend<T>(a: seq<T>, b: seq<T>, f: T -> real)
    ensures SumBy(a + b, f) == SumBy(a, f) + SumBy(b, f)
    decreases |b|
  {
    if |b| == 0 {
      assert a + b == a;
    } else {
      assert (a + b)[..|a + b| - 1] == a + b[..|b| - 1];
      SumByAppend(a, b[..|b| - 1], f);
    }
  }

  /** A sum of non-negative terms is non-negative. */
  lemma {:induction false} SumByNonNegative<T>(s: seq<T>, f: T -> real)
    requires forall i :: 0 <= i < |s| ==> f(s[i]) >= 0.0
    ensures SumBy(s, f) >= 0.0
    decreases |s|
  {
    if |s| > 0 {
      SumByNonNegative(s[..|s| - 1], f);
    }
  }

  /** A sum of non-negative terms bounds each of its terms. */
  lemma {:induction false} SumByBoundsTerm<T>(s: seq<T>, f: T -> real, k: int)
    requires forall i :: 0 <= i < |s| ==> f(s[i]) >= 0.0
    requires 0 <= k < |s|
    ensures f(s[k]) <= SumBy(s, f)
    decreases |s|
  {
    var p := s[..|s| - 1];
    SumByNonNegative(p, f);
    if k < |s| - 1 {
      assert p[k] == s[k];
      SumByBoundsTerm(p, f, k);
    }
  }

  /** Number of elements of `s` satisfying `p`. */
  function CountWhere<T>(s: seq<T>, p: T -> bool): (n: nat)
    ensures n <= |s|
  {
    if |s| == 0 then 0 else CountWhere(s[..|s| - 1], p) + (if p(s[|s| - 1]) then 1 else 0)
  }

  /** No element satisfies `p`: the count is zero. */
  lemma {:induction false} CountWhereNone<T>(s: seq<T>, p: T -> bool)
    requires forall i :: 0 <= i < |s| ==> !p(s[i])
    ensures CountWhere(s, p) == 0
    decreases |s|
  {
    if |s| > 0 {
      CountWhereNone(s[..|s| - 1], p);
    }
  }

  /** When `q` holds at a position of `t` exactly when one of two exclusive
      predicates holds at that position of `s`, the counts add up. */
  lemma {:induction false} CountWhereSplit<S, T>(s: seq<S>, t: seq<T>, p1: S -> bool, p2: S -> bool, q: T -> bool)
    requires |s| == |t|
    requires forall i :: 0 <= i < |s| ==> !(p1(s[i]) && p2(s[i])) && (q(t[i]) <==> p1(s[i]) || p2(s[i]))
    ensures CountWhere(t, q) == CountWhere(s, p1) + CountWhere(s, p2)
    decreases |s|
  {
    if |s| > 0 {
      CountWhereSplit(s[..|s| - 1], t[..|t| - 1], p1, p2, q);
    }
  }

  /** Counting is pointwise: predicates that agree position by position
      count the same. */
  lemma {:induction false} CountWhereSame<S, T>(s: seq<S>, t: seq<T>, p: S -> bool, q: T -> bool)
    requires |s| == |t|
    requires forall i :: 0 <= i < |s| ==> (q(t[i]) <==> p(s[i]))
    ensures CountWhere(t, q) == CountWhere(s, p)
    decreases |s|
  {
    if |s| > 0 {
      CountWhereSame(s[..|s| - 1], t[..|t| - 1], p, q);
    }
  }

  /** An element satisfies exactly one of two complementary predicates. */
  lemma {:induction false} CountWhereComplement<T>(s: seq<T>, p: T -> bool, q: T -> bool)
    requires forall i :: 0 <= i < |s| ==> (q(s[i]) <==> !p(s[i]))
    ensures CountWhere(s, p) + CountWhere(s, q) == |s|
    decreases |s|
  {
    if |s| > 0 {
      CountWhereComplement(s[..|s| - 1], p, q);
    }
  }

  /** `Array.prototype.filter`: the elements satisfying `p`, in order. */
  function Filter<T>(s: seq<T>, p: T -> bool): (r: seq<T>)
    ensures |r| == CountWhere(s, p)
    ensures forall i :: 0 <= i < |r| ==> r[i] in s && p(r[i])
    ensures forall i :: 0 <= i < |s| && p(s[i]) ==> s[i] in r
  {
    if |s| == 0 then []
    else
      var last := s[|s| - 1];
      assert s == s[..|s| - 1] + [last];
      Filter(s[..|s| - 1], p) + (if p(last) then [last] else [])
  }

  /** Membership in a filter: exactly the elements of `s` satisfying `p`. */
  lemma FilterMembers<T>(s: seq<T>, p: T -> bool, x: T)
    ensures x in Filter(s, p) <==> x in s && p(x)
  {
    var r := Filter(s, p);
    if x in r {
      var i :| 0 <= i < |r| && r[i] == x;
    }
    if x in s && p(x) {
      var j :| 0 <= j < |s| && s[j] == x;
    }
  }

  lemma {:induction false} FilterAppend<T>(a: seq<T>, b: seq<T>, p: T -> bool)
    ensures Filter(a + b, p) == Filter(a, p) + Filter(b, p)
    decreases |b|
  {
    if |b| == 0 {
      assert a + b == a;
    } else {
      assert (a + b)[..|a + b| - 1] == a + b[..|b| - 1];
      FilterAppend(a, b[..|b| - 1], p);
    }
  }

  /** `slice(0, n)`: the first `n` elements, or all of them when fewer. */
  function Take<T>(s: seq<T>, n: nat): (r: seq<T>)
    ensures |r| == (if n < |s| then n else |s|)
    ensures r <= s
  {
    if n < |s| then s[..n] else s
  }

  /** A prefix takes no element more often than the whole holds it. */
  lemma TakeSubMultiset<T>(s: seq<T>, n: nat)
    ensures multiset(Take(s, n)) <= multiset(s)
  {
    var r := Take(s, n);
    assert s == r + s[|r|..];
  }

  /** `slice(offset)`: everything after the first `n` elements. */
  function Drop<T>(s: seq<T>, n: nat): (r: seq<T>)
    ensures |r| == (if n < |s| then |s| - n else 0)
    ensures forall i :: 0 <= i < |r| ==> r[i] == s[n + i]
  {
    if n < |s| then s[n..] else []
  }

  /** A page of `a` elements from `offset` followed by the page of `b`
      elements after it is the page of `a + b` elements from `offset`. */
  lemma TakeDropCompose<T>(s: seq<T>, offset: nat, a: nat, b: nat)
    ensures Take(Drop(s, offset), a) + Take(Drop(s, offset + a), b) == Take(Drop(s, offset), a + b)
  {
    if offset + a < |s| {
      assert Drop(s, offset + a) == Drop(s, offset)[a..];
    }
  }

  function Reverse<T>(s: seq<T>): (r: seq<T>)
    ensures |r| == |s|
    ensures forall i :: 0 <= i < |s| ==> r[i] == s[|s| - 1 - i]
  {
    if |s| == 0 then [] else [s[|s| - 1]] + Reverse(s[..|s| - 1])
  }

  /** `slice(-k).reverse()`: the last `k` elements, last first. */
  function LastReversed<T>(s: seq<T>, k: nat): (r: seq<T>)
    ensures |r| == (if k < |s| then k else |s|)
    ensures forall i :: 0 <= i < |r| ==> r[i] == s[|s| - 1 - i]
  {
    Reverse(Drop(s, if k < |s| then |s| - k else 0))
  }

  /** Reversal keeps every element as often as it was. */
  lemma {:induction false} ReverseMultiset<T>(s: seq<T>)
    ensures multiset(Reverse(s)) == multiset(s)
  {
    if |s| > 0 {
      ReverseMultiset(s[..|s| - 1]);
      assert s == s[..|s| - 1] + [s[|s| - 1]];
    }
  }

  /** The reversed tail takes no element more often than the whole holds
      it. */
  lemma LastReversedSubMultiset<T>(s: seq<T>, k: nat)
    ensures multiset(LastReversed(s, k)) <= multiset(s)
  {
    var j := if k < |s| then |s| - k else 0;
    ReverseMultiset(Drop(s, j));
    assert s == s[..j] + Drop(s, j);
  }

  predicate SortedDesc<T>(s: seq<T>, key: T -> real)
  {
    forall i, j :: 0 <= i < j < |s| ==> key(s[i]) >= key(s[j])
  }

  predicate SortedAsc<T>(s: seq<T>, key: T -> real)
  {
    forall i, j :: 0 <= i < j < |s| ==> key(s[i]) <= key(s[j])
  }

  /** Inserts `x` in front of the first element it is not smaller than, so
      that an element inserted earlier stays ahead of equal ones. */
  function InsertDesc<T>(x: T, s: seq<T>, key: T -> real): (r: seq<T>)
    ensures |r| == |s| + 1
  {
    if |s| == 0 then [x]
    else if key(x) >= key(s[0]) then [x] + s
    else [s[0]] + InsertDesc(x, s[1..], key)
  }

  /** Insertion adds exactly one copy of `x`. */
  lemma {:induction false} InsertDescMultiset<T>(x: T, s: seq<T>, key: T -> real)
    ensures multiset(InsertDesc(x, s, key)) == multiset(s) + multiset{x}
    decreases |s|
  {
    if |s| > 0 && !(key(x) >= key(s[0])) {
      InsertDescMultiset(x, s[1..], key);
      assert s == [s[0]] + s[1..];
    }
  }

  /** Insertion into a sorted sequence keeps it sorted. */
  lemma {:induction false} InsertDescSorted<T>(x: T, s: seq<T>, key: T -> real)
    requires SortedDesc(s, key)
    ensures SortedDesc(InsertDesc(x, s, key), key)
    decreases |s|
  {
    if |s| > 0 && !(key(x) >= key(s[0])) {
      var t := s[1..];
      var rest := InsertDesc(x, t, key);
      var r := InsertDesc(x, s, key);
      assert r == [s[0]] + rest;
      InsertDescSorted(x, t, key);
      InsertDescMultiset(x, t, key);
      forall i | 0 <= i < |rest| ensures key(rest[i]) <= key(s[0]) {
        assert rest[i] in multiset(rest);
        if rest[i] != x {
          assert rest[i] in multiset(t);
          var j :| 0 <= j < |t| && t[j] == rest[i];
          assert t[j] == s[j + 1];
        }
      }
      forall i, j | 0 <= i < j < |r| ensures key(r[i]) >= key(r[j]) {
        assert r[j] == rest[j - 1];
        if i > 0 {
          assert r[i] == rest[i - 1];
        }
      }
    }
  }

  /** A stable descending sort, `sort((a, b) => key(b) - key(a))`. */
  function SortDesc<T>(s: seq<T>, key: T -> real): (r: seq<T>)
    ensures SortedDesc(r, key)
    ensures multiset(r) == multiset(s)
    ensures |r| == |s|
  {
    if |s| == 0 then []
    else
      var sorted := SortDesc(s[1..], key);
      assert s == [s[0]] + s[1..];
      InsertDescSorted(s[0], sorted, key);
      InsertDescMultiset(s[0], sorted, key);
      InsertDesc(s[0], sorted, key)
  }

  /** Inserts `x` in front of the first element it is not larger than. */
  function InsertAsc<T>(x: T, s: seq<T>, key: T -> real): (r: seq<T>)
    ensures |r| == |s| + 1
  {
    if |s| == 0 then [x]
    else if key(x) <= key(s[0]) then [x] + s
    else [s[0]] + InsertAsc(x, s[1..], key)
  }

  /** Insertion adds exactly one copy of `x`. */
  lemma {:induction false} InsertAscMultiset<T>(x: T, s: seq<T>, key: T -> real)
    ensures multiset(InsertAsc(x, s, key)) == multiset(s) + multiset{x}
    decreases |s|
  {
    if |s| > 0 && !(key(x) <= key(s[0])) {
      InsertAscMultiset(x, s[1..], key);
      assert s == [s[0]] + s[1..];
    }
  }

  /** Insertion into a sorted sequence keeps it sorted. */
  lemma {:induction false} InsertAscSorted<T>(x: T, s: seq<T>, key: T -> real)
    requires SortedAsc(s, key)
    ensures SortedAsc(InsertAsc(x, s, key), key)
    decreases |s|
  {
    if |s| > 0 && !(key(x) <= key(s[0])) {
      var t := s[1..];
      var rest := InsertAsc(x, t, key);
      var r := InsertAsc(x, s, key);
      assert r == [s[0]] + rest;
      InsertAscSorted(x, t, key);
      InsertAscMultiset(x, t, key);
      forall i | 0 <= i < |rest| ensures key(rest[i]) >= key(s[0]) {
        assert rest[i] in multiset(rest);
        if rest[i] != x {
          assert rest[i] in multiset(t);
          var j :| 0 <= j < |t| && t[j] == rest[i];
          assert t[j] == s[j + 1];
        }
      }
      forall i, j | 0 <= i < j < |r| ensures key(r[i]) <= key(r[j]) {
        assert r[j] == rest[j - 1];
        if i > 0 {
          assert r[i] == rest[i - 1];
        }
      }
    }
  }

  /** A stable ascending sort, `sort((a, b) => key(a) - key(b))`. */
  function SortAsc<T>(s: seq<T>, key: T -> real): (r: seq<T>)
    ensures SortedAsc(r, key)
    ensures multiset(r) == multiset(s)
    ensures |r| == |s|
  {
    if |s| == 0 then []
    else
      var sorted := SortAsc(s[1..], key);
      assert s == [s[0]] + s[1..];
      InsertAscSorted(s[0], sorted, key);
      InsertAscMultiset(s[0], sorted, key);
      InsertAsc(s[0], sorted, key)
  }

  /** The first `k` elements of a descending sort dominate every element of
      the input that was cut off: this is what "top k" promises. */
  lemma TopKDominates<T>(s: seq<T>, key: T -> real, k: nat, y: T)
    requires y in s && y !in Take(SortDesc(s, key), k)
    ensures forall i :: 0 <= i < |Take(SortDesc(s, key), k)| ==> key(Take(SortDesc(s, key), k)[i]) >= key(y)
  {
    var r := SortDesc(s, key);
    assert y in multiset(r);
    var j :| 0 <= j < |r| && r[j] == y;
    assert forall i :: 0 <= i < |Take(r, k)| ==> Take(r, k)[i] == r[i];
  }

  /** The first `k` elements of an ascending sort are no larger than any
      element of the input that was cut off. */
  lemma BottomKDominated<T>(s: seq<T>, key: T -> real, k: nat, y: T)
    requires y in s && y !in Take(SortAsc(s, key), k)
    ensures forall i :: 0 <= i < |Take(SortAsc(s, key), k)| ==> key(Take(SortAsc(s, key), k)[i]) <= key(y)
  {
    var r := SortAsc(s, key);
    assert y in multiset(r);
    var j :| 0 <= j < |r| && r[j] == y;
    assert forall i :: 0 <= i < |Take(r, k)| ==> Take(r, k)[i] == r[i];
  }

  /** The head of a descending sort is a maximum of the input. */
  lemma SortDescHeadIsMax<T>(s: seq<T>, key: T -> real, y: T)
    requires y in s
    ensures |SortDesc(s, key)| > 0 && key(SortDesc(s, key)[0]) >= key(y)
  {
    var r := SortDesc(s, key);
    var j := PositionInSort(s, key, y);
    if j > 0 {
      assert key(r[0]) >= key(r[j]);
    }
  }

  /** Where an element of the input sits in its descending sort. */
  lemma PositionInSort<T>(s: seq<T>, key: T -> real, y: T) returns (j: nat)
    requires y in s
    ensures j < |SortDesc(s, key)| && SortDesc(s, key)[j] == y
  {
    var r := SortDesc(s, key);
    assert y in multiset(s);
    assert y in multiset(r);
    j := IndexOf(r, y);
  }

  /** A position at which a member of `s` sits. */
  ghost function IndexOf<T>(s: seq<T>, x: T): (i: nat)
    requires x in s
    ensures i < |s| && s[i] == x
  {
    if s[0] == x then 0 else 1 + IndexOf(s[1..], x)
  }

  /** The last element of a descending sort is a minimum of the input. */
  lemma SortDescLastIsMin<T>(s: seq<T>, key: T -> real, y: T)
    requires y in s
    ensures |SortDesc(s, key)| > 0 && key(SortDesc(s, key)[|s| - 1]) <= key(y)
  {
    var r := SortDesc(s, key);
    var j := PositionInSort(s, key, y);
    if j < |r| - 1 {
      assert key(r[j]) >= key(r[|r| - 1]);
    }
  }

  /** Elements of a sort come from the input. */
  lemma SortDescMembers<T>(s: seq<T>, key: T -> real)
    ensures forall y :: y in SortDesc(s, key) <==> y in s
  {
    var r := SortDesc(s, key);
    forall y ensures y in r <==> y in s {
      assert y in r <==> y in multiset(r);
      assert y in s <==> y in multiset(s);
    }
  }

  lemma SortAscMembers<T>(s: seq<T>, key: T -> real)
    ensures forall y :: y in SortAsc(s, key) <==> y in s
  {
    var r := SortAsc(s, key);
    forall y ensures y in r <==> y in multiset(r) {}
    forall y ensures y in s <==> y in multiset(s) {}
  }

  lemma LastReversedSorted<T>(s: seq<T>, key: T -> real, k: nat)
    requires SortedAsc(s, key)
    ensures SortedDesc(LastReversed(s, k), key)
    ensures forall i :: 0 <= i < |LastReversed(s, k)| ==> LastReversed(s, k)[i] in s
  {
    var r := LastReversed(s, k);
    forall i, j | 0 <= i < j < |r| ensures key(r[i]) >= key(r[j]) {
      assert r[i] == s[|s| - 1 - i] && r[j] == s[|s| - 1 - j];
    }
  }

  /** The last `k` elements of an ascending sequence, reversed, are at least
      as large as every element that was cut off. */
  lemma LastReversedDominates<T>(s: seq<T>, key: T -> real, k: nat, y: T)
    requires SortedAsc(s, key)
    requires y in s && y !in LastReversed(s, k)
    ensures forall i :: 0 <= i < |LastReversed(s, k)| ==> key(LastReversed(s, k)[i]) >= key(y)
  {
    var r := LastReversed(s, k);
    var j :| 0 <= j < |s| && s[j] == y;
    var cut := if k < |s| then |s| - k else 0;
    forall i | cut <= i < |s| ensures s[i] in r {
      assert r[|s| - 1 - i] == s[i];
    }
    forall i | 0 <= i < |r| ensures key(r[i]) >= key(y) {
      assert r[i] == s[|s| - 1 - i];
    }
  }

  /** The `k` smallest elements by `key`, smallest first, and the `k`
      largest, largest first: `sorted.slice(0, k)` and
      `sorted.slice(-k).reverse()` of one stable ascending sort. */
  function LowestAndHighest<T>(s: seq<T>, key: T -> real, k: nat): (r: (seq<T>, seq<T>))
    ensures |r.0| == (if k < |s| then k else |s|) && |r.1| == |r.0|
    ensures SortedAsc(r.0, key) && SortedDesc(r.1, key)
    ensures forall i :: 0 <= i < |r.0| ==> r.0[i] in s
    ensures forall i :: 0 <= i < |r.1| ==> r.1[i] in s
    ensures multiset(r.0) <= multiset(s) && multiset(r.1) <= multiset(s)
  {
    var sorted := SortAsc(s, key);
    var low := Take(sorted, k);
    var high := LastReversed(sorted, k);
    assert multiset(low) <= multiset(s) && multiset(high) <= multiset(s) by {
      TakeSubMultiset(sorted, k);
      LastReversedSubMultiset(sorted, k);
    }
    assert SortedAsc(low, key) && forall i :: 0 <= i < |low| ==> low[i] in s by {
      SortAscMembers(s, key);
      forall i | 0 <= i < |low| ensures low[i] == sorted[i] && low[i] in sorted {
        assert low[i] == sorted[..|low|][i];
      }
    }
    assert SortedDesc(high, key) && forall i :: 0 <= i < |high| ==> high[i] in s by {
      SortAscMembers(s, key);
      LastReversedSorted(sorted, key, k);
    }
    (low, high)
  }

  /** The elements whose key equals `c`. */
  function KeyIs<T>(key: T -> real, c: real): T -> bool
  {
    (y: T) => key(y) == c
  }

  /** Filtering with `keep` loses no element satisfying `p` when `p`
      implies `keep`. */
  lemma {:induction false} CountWhereFilter<T>(s: seq<T>, keep: T -> bool, p: T -> bool)
    requires forall i :: 0 <= i < |s| ==> p(s[i]) ==> keep(s[i])
    ensures CountWhere(Filter(s, keep), p) == CountWhere(s, p)
    decreases |s|
  {
    if |s| > 0 {
      var init := s[..|s| - 1];
      var last := s[|s| - 1];
      CountWhereFilter(init, keep, p);
      var f := Filter(init, keep);
      if keep(last) {
        assert (f + [last])[..|f|] == f;
      } else {
        assert f + [] == f;
      }
    }
  }

  /** Filtering a sequence built by prepending. */
  lemma FilterCons<T>(x: T, t: seq<T>, p: T -> bool)
    ensures Filter([x] + t, p) == (if p(x) then [x] else []) + Filter(t, p)
  {
    FilterAppend([x], t, p);
    FilterSingle(x, p);
  }

  lemma FilterSingle<T>(x: T, p: T -> bool)
    ensures Filter([x], p) == if p(x) then [x] else []
  {
    assert [x][..0] == [];
    assert Filter([x], p) == Filter([], p) + (if p(x) then [x] else []);
  }

  /** Inserting behind a prefix of strictly larger keys and in front of the
      first key that is not larger. */
  lemma {:induction false} InsertDescAfter<T>(x: T, a: seq<T>, b: seq<T>, key: T -> real)
    requires forall i :: 0 <= i < |a| ==> key(a[i]) > key(x)
    requires |b| == 0 || key(b[0]) <= key(x)
    ensures InsertDesc(x, a + b, key) == a + [x] + b
    decreases |a|
  {
    if |a| == 0 {
      assert a + b == b;
    } else {
      var ab, a' := a + b, a[1..];
      assert ab[1..] == a' + b;
      assert ab[0] == a[0];
      forall i | 0 <= i < |a'| ensures key(a'[i]) > key(x) {
        assert a'[i] == a[i + 1];
      }
      InsertDescAfter(x, a', b, key);
      assert [a[0]] + (a' + [x] + b) == a + [x] + b;
    }
  }

  /** With only three key values, the stable descending sort is the
      concatenation of the three key classes, each in input order. */
  lemma {:induction false} SortDescThreeLevels<T>(s: seq<T>, key: T -> real, hi: real, mid: real, lo: real)
    requires hi > mid > lo
    requires forall i :: 0 <= i < |s| ==> key(s[i]) == hi || key(s[i]) == mid || key(s[i]) == lo
    ensures SortDesc(s, key) == Filter(s, KeyIs(key, hi)) + Filter(s, KeyIs(key, mid)) + Filter(s, KeyIs(key, lo))
    decreases |s|
  {
    if |s| > 0 {
      SortDescThreeLevels(s[1..], key, hi, mid, lo);
      ThreeLevelsStep(s, key, hi, mid, lo);
    }
  }

  lemma ThreeLevelsStep<T>(s: seq<T>, key: T -> real, hi: real, mid: real, lo: real)
    requires hi > mid > lo && |s| > 0
    requires key(s[0]) == hi || key(s[0]) == mid || key(s[0]) == lo
    requires SortDesc(s[1..], key)
             == Filter(s[1..], KeyIs(key, hi)) + Filter(s[1..], KeyIs(key, mid)) + Filter(s[1..], KeyIs(key, lo))
    ensures SortDesc(s, key) == Filter(s, KeyIs(key, hi)) + Filter(s, KeyIs(key, mid)) + Filter(s, KeyIs(key, lo))
  {
    var x, t := s[0], s[1..];
    var h, m, l := Filter(t, KeyIs(key, hi)), Filter(t, KeyIs(key, mid)), Filter(t, KeyIs(key, lo));
    assert SortDesc(s, key) == InsertDesc(x, h + m + l, key);
    InsertThreeLevels(x, h, m, l, key, hi, mid, lo);
    FilterHead(s, KeyIs(key, hi));
    FilterHead(s, KeyIs(key, mid));
    FilterHead(s, KeyIs(key, lo));
  }

  /** Counting over a non-empty sequence, split at its head. */
  lemma CountWhereHead<T>(s: seq<T>, p: T -> bool)
    requires |s| > 0
    ensures CountWhere(s, p) == (if p(s[0]) then 1 else 0) + CountWhere(s[1..], p)
  {
    FilterHead(s, p);
  }

  /** Filtering a non-empty sequence, split at its head. */
  lemma FilterHead<T>(s: seq<T>, p: T -> bool)
    requires |s| > 0
    ensures Filter(s, p) == (if p(s[0]) then [s[0]] + Filter(s[1..], p) else Filter(s[1..], p))
  {
    var t := s[1..];
    assert s == [s[0]] + t;
    FilterCons(s[0], t, p);
    if !p(s[0]) {
      assert [] + Filter(t, p) == Filter(t, p);
    }
  }

  /** Regrouping of the concatenations the three-level insertion produces. */
  lemma ConcatRegroup<T>(x: T, h: seq<T>, m: seq<T>, l: seq<T>)
    ensures [] + (h + m + l) == h + m + l
    ensures h + (m + l) == h + m + l
    ensures [] + [x] + (h + m + l) == [x] + h + m + l
    ensures h + [x] + (m + l) == h + ([x] + m) + l
    ensures h + m + [x] + l == h + m + ([x] + l)
  {
  }

  /** Inserting into three key classes lands the new element at the end of
      its own class. */
  lemma InsertThreeLevels<T>(x: T, h: seq<T>, m: seq<T>, l: seq<T>, key: T -> real, hi: real, mid: real, lo: real)
    requires hi > mid > lo
    requires key(x) == hi || key(x) == mid || key(x) == lo
    requires forall i :: 0 <= i < |h| ==> KeyIs(key, hi)(h[i])
    requires forall i :: 0 <= i < |m| ==> KeyIs(key, mid)(m[i])
    requires forall i :: 0 <= i < |l| ==> KeyIs(key, lo)(l[i])
    ensures key(x) == hi ==> InsertDesc(x, h + m + l, key) == [x] + h + m + l
    ensures key(x) == mid ==> InsertDesc(x, h + m + l, key) == h + ([x] + m) + l
    ensures key(x) == lo ==> InsertDesc(x, h + m + l, key) == h + m + ([x] + l)
  {
    ConcatRegroup(x, h, m, l);
    if key(x) == hi {
      InsertDescAfter(x, [], h + m + l, key);
    } else if key(x) == mid {
      assert |m + l| == 0 || key((m + l)[0]) <= mid by {
        if |m| > 0 { assert (m + l)[0] == m[0]; }
        else if |l| > 0 { assert (m + l)[0] == l[0]; }
      }
      InsertDescAfter(x, h, m + l, key);
    } else {
      forall i | 0 <= i < |h + m| ensures key((h + m)[i]) > lo {
        if i < |h| { assert (h + m)[i] == h[i]; } else { assert (h + m)[i] == m[i - |h|]; }
      }
      InsertDescAfter(x, h + m, l, key);
    }
  }

  /** `sort((a, b) => key(b) - key(a)).slice(0, k)`: the first `k` of a
      stable descending sort. */
  function TopK<T>(s: seq<T>, key: T -> real, k: nat): (r: seq<T>)
    ensures r == Take(SortDesc(s, key), k)
    ensures |r| == (if k < |s| then k else |s|)
    ensures SortedDesc(r, key)
    ensures forall i :: 0 <= i < |r| ==> r[i] in s
    ensures multiset(r) <= multiset(s)
  {
    var sorted := SortDesc(s, key);
    SortDescMembers(s, key);
    var r := Take(sorted, k);
    assert forall i :: 0 <= i < |r| ==> r[i] == sorted[i];
    TakeSubMultiset(sorted, k);
    r
  }

  /** The nearest whole number of cents to a non-negative amount, a tie
      going up. */
  function Cents(y: real): (n: int)
    requires y >= 0.0
    ensures n >= 0
    ensures (n as real) - 0.5 <= y * 100.0 < (n as real) + 0.5
  {
    var n := (y * 100.0 + 0.5).Floor;
    assert (n as real) <= y * 100.0 + 0.5 < (n as real) + 1.0;
    n
  }

  /** `x || 0`: a missing amount counts as zero. */
  function OrZero(v: Option<real>): (r: real)
    ensures v.Some? ==> r == v.value
    ensures v.None? ==> r == 0.0
  {
    if v.Some? then v.value else 0.0
  }

  /** `a` lies within half a cent of `b`. */
  predicate HalfCent(a: real, b: real)
  {
    -0.005 <= a - b <= 0.005
  }

  /** `a` lies within `n` half cents of `b`. */
  predicate HalfCents(a: real, b: real, n: nat)
  {
    -0.005 * (n as real) <= a - b <= 0.005 * (n as real)
  }

  /** Summing values each within half a cent of its partner drifts from the
      partners' sum by at most half a cent per value. */
  lemma {:induction false} RoundingDrift<A, B>(a: seq<A>, f: A -> real, b: seq<B>, g: B -> real)
    requires |a| == |b|
    requires forall i :: 0 <= i < |a| ==> HalfCent(f(a[i]), g(b[i]))
    ensures HalfCents(SumBy(a, f), SumBy(b, g), |a|)
    decreases |a|
  {
    if |a| > 0 {
      RoundingDrift(a[..|a| - 1], f, b[..|b| - 1], g);
      assert HalfCent(f(a[|a| - 1]), g(b[|b| - 1]));
    }
  }

  /** `parseFloat(x.toFixed(2))` on an exact real: the nearest multiple of
      0.01, a tie going away from zero. */
  function Round2(x: real): (r: real)
    ensures x >= 0.0 ==> -0.005 < r - x <= 0.005 && r >= 0.0
    ensures x < 0.0 ==> -0.005 <= r - x < 0.005 && r <= 0.0
  {
    var n := if x >= 0.0 then Cents(x) else -Cents(-x);
    n as real / 100.0
  }

  /** Rounding moves a value by at most half a cent. */
  lemma Round2Close(x: real)
    ensures HalfCent(Round2(x), x)
  {
  }

  /** The rounded value is a whole number of cents. */
  lemma Round2InCents(x: real)
    ensures Round2(x) * 100.0 == (Round2(x) * 100.0).Floor as real
  {
    var n := if x >= 0.0 then Cents(x) else -Cents(-x);
    assert (n as real / 100.0) * 100.0 == n as real;
    assert (n as real).Floor == n;
  }

  /** Rounding a value already in whole cents changes nothing. */
  lemma Round2Whole(n: int)
    ensures Round2(n as real / 100.0) == n as real / 100.0
  {
    var x := n as real / 100.0;
    if n >= 0 {
      assert x * 100.0 == n as real;
      assert Cents(x) == n;
    } else {
      assert (-x) * 100.0 == (-n) as real;
      assert Cents(-x) == -n;
    }
  }

  /** Rounding twice is rounding once. */
  lemma Round2Idempotent(x: real)
    ensures Round2(Round2(x)) == Round2(x)
  {
    Round2InCents(x);
    var n := (Round2(x) * 100.0).Floor;
    assert Round2(x) == n as real / 100.0;
    Round2Whole(n);
  }

  lemma CentsMonotone(a: real, b: real)
    requires 0.0 <= a <= b
    ensures Cents(a) <= Cents(b)
  {
    var m, n := (a * 100.0 + 0.5).Floor, (b * 100.0 + 0.5).Floor;
    assert (m as real) <= a * 100.0 + 0.5 <= b * 100.0 + 0.5 < (n as real) + 1.0;
  }

  /** Rounding keeps order: a larger amount never rounds below a smaller
      one. */
  lemma Round2Monotone(x: real, y: real)
    requires x <= y
    ensures Round2(x) <= Round2(y)
  {
    if 0.0 <= x {
      CentsMonotone(x, y);
    } else if y < 0.0 {
      CentsMonotone(-y, -x);
    }
  }
}

=== FILE: costs.dfy ===
/** Electricity price settings and the cost breakdown of a period: per
    device, per room and per device type, and per day. */
module Costs {
  import opened Common
  import opened Grouping

  /** A household's price per kWh and its currency. */
  datatype Price = Price(perKwh: real, currency: string)

  const DefaultCurrency: string := "EUR"

  /** `getElectricityPrice`: the household's stored price, 404 unless the
      household is the user's. */
  function GetElectricityPrice(owned: bool, stored: Price): (r: Result<Price, int>)
    ensures r.Err? <==> !owned
    ensures r.Err? ==> r.error == 404
    ensures r.Ok? ==> r.value == stored
  {
    if owned then Ok(stored) else Err(404)
  }

  /** `setElectricityPrice`: stores the new price and currency (EUR when
      none is given) and answers with them; the first component is the
      stored setting. */
  function SetElectricityPrice(owned: bool, stored: Price, perKwh: real, currency: Option<string>)
    : (r: Result<(Price, Price), int>)
    ensures r.Err? <==> !owned
    ensures r.Err? ==> r.error == 404
    ensures r.Ok? ==> r.value.0 == r.value.1 && r.value.1.perKwh == perKwh
    ensures r.Ok? ==> r.value.1.currency == (if currency.Some? then currency.value else DefaultCurrency)
  {
    if !owned then Err(404)
    else
      var p := Price(perKwh, if currency.Some? then currency.value else DefaultCurrency);
      Ok((p, p))
  }

  /** Reading the price back after setting it gives what the setter
      answered; a set is refused exactly when a read by the same user is,
      and then yields no new setting, so the stored one stays in force. */
  lemma SetThenGet(owned: bool, stored: Price, perKwh: real, currency: Option<string>)
    ensures var r := SetElectricityPrice(owned, stored, perKwh, currency);
            r.Ok? ==> GetElectricityPrice(true, r.value.0) == Ok(r.value.1)
    ensures var r := SetElectricityPrice(owned, stored, perKwh, currency);
            r.Err? <==> GetElectricityPrice(owned, stored) == Err(404)
  {
  }

  /** One row of the per-device query: the device's `MAX − MIN` counter
      spread over the period, `NULL` when the database had none. */
  datatype UsageRow = UsageRow(device: int, name: string, kind: string, room: string, kwh: Option<real>)

  datatype DeviceCost = DeviceCost(device: int, name: string, kind: string, room: string, kwh: real, cost: real)

  function KwhOf(d: DeviceCost): real { d.kwh }
  function CostOf(d: DeviceCost): real { d.cost }
  function RoomOf(d: DeviceCost): string { d.room }
  function KindOf(d: DeviceCost): string { d.kind }

  /** A device's usage (missing counted as 0) and its cost rounded to the
      cent. */
  function DeviceCostOf(row: UsageRow, price: real): (d: DeviceCost)
    ensures d.device == row.device && d.room == row.room && d.kind == row.kind
    ensures d.kwh == OrZero(row.kwh)
    ensures HalfCent(d.cost, d.kwh * price)
    ensures d.cost == Round2(OrZero(row.kwh) * price)
  {
    Round2Close(OrZero(row.kwh) * price);
    DeviceCost(row.device, row.name, row.kind, row.room, OrZero(row.kwh), Round2(OrZero(row.kwh) * price))
  }

  function ByDevice(rows: seq<UsageRow>, price: real): (ds: seq<DeviceCost>)
    ensures |ds| == |rows|
    ensures forall i :: 0 <= i < |rows| ==> ds[i] == DeviceCostOf(rows[i], price)
  {
    seq(|rows|, i requires 0 <= i < |rows| => DeviceCostOf(rows[i], price))
  }

  /** The devices as rows to group: key and usage, or key and cost. */
  function UsageRows(ds: seq<DeviceCost>, keyOf: DeviceCost -> string): (rs: seq<Row<string>>)
    ensures |rs| == |ds|
    ensures forall i :: 0 <= i < |ds| ==> rs[i] == Row(keyOf(ds[i]), ds[i].kwh)
  {
    seq(|ds|, i requires 0 <= i < |ds| => Row(keyOf(ds[i]), ds[i].kwh))
  }

  function CostRows(ds: seq<DeviceCost>, keyOf: DeviceCost -> string): (rs: seq<Row<string>>)
    ensures |rs| == |ds|
    ensures forall i :: 0 <= i < |ds| ==> rs[i] == Row(keyOf(ds[i]), ds[i].cost)
  {
    seq(|ds|, i requires 0 <= i < |ds| => Row(keyOf(ds[i]), ds[i].cost))
  }

  /** One group of the breakdown, both sums rounded to the cent. */
  datatype GroupCost = GroupCost(key: string, kwh: real, cost: real)

  /** The group keys, in order of first appearance. */
  function GroupKeys(ds: seq<DeviceCost>, keyOf: DeviceCost -> string): (ks: seq<string>)
    ensures forall i, j :: 0 <= i < j < |ks| ==> ks[i] != ks[j]
    ensures forall i :: 0 <= i < |ds| ==> keyOf(ds[i]) in ks
    ensures forall i :: 0 <= i < |ks| ==> exists j :: 0 <= j < |ds| && keyOf(ds[j]) == ks[i]
  {
    var rs := UsageRows(ds, keyOf);
    var ks := Dedup(KeysOf(rs));
    assert forall i :: 0 <= i < |ds| ==> KeysOf(rs)[i] == keyOf(ds[i]);
    forall i | 0 <= i < |ks| ensures exists j :: 0 <= j < |ds| && keyOf(ds[j]) == ks[i] {
      var j :| 0 <= j < |KeysOf(rs)| && KeysOf(rs)[j] == ks[i];
      assert keyOf(ds[j]) == ks[i];
    }
    ks
  }

  /** The `costsPerRoom` / `costsPerType` accumulation: per key, the
      device usages and the device costs summed, then each sum rounded. */
  function GroupCosts(ds: seq<DeviceCost>, keyOf: DeviceCost -> string): (gs: seq<GroupCost>)
    ensures |gs| == |GroupKeys(ds, keyOf)|
    ensures forall i :: 0 <= i < |gs| ==>
              gs[i] == GroupCost(GroupKeys(ds, keyOf)[i],
                                 Round2(SumFor(UsageRows(ds, keyOf), GroupKeys(ds, keyOf)[i])),
                                 Round2(SumFor(CostRows(ds, keyOf), GroupKeys(ds, keyOf)[i])))
  {
    var ks := GroupKeys(ds, keyOf);
    seq(|ks|, i requires 0 <= i < |ks| =>
      GroupCost(ks[i], Round2(SumFor(UsageRows(ds, keyOf), ks[i])), Round2(SumFor(CostRows(ds, keyOf), ks[i]))))
  }

  /** Every device falls in exactly one group. */
  lemma EachDeviceInOneGroup(ds: seq<DeviceCost>, keyOf: DeviceCost -> string, j: int)
    requires 0 <= j < |ds|
    ensures exists i :: 0 <= i < |GroupCosts(ds, keyOf)| && GroupCosts(ds, keyOf)[i].key == keyOf(ds[j])
    ensures forall i, i' :: (0 <= i < |GroupCosts(ds, keyOf)| && 0 <= i' < |GroupCosts(ds, keyOf)|
              && GroupCosts(ds, keyOf)[i].key == keyOf(ds[j]) && GroupCosts(ds, keyOf)[i'].key == keyOf(ds[j])) ==> i == i'
  {
    var ks := GroupKeys(ds, keyOf);
    var gs := GroupCosts(ds, keyOf);
    var i :| 0 <= i < |ks| && ks[i] == keyOf(ds[j]);
    assert gs[i].key == keyOf(ds[j]);
  }

  /** The unrounded group sums add up to the unrounded device sums, for
      usage and for cost. */
  lemma GroupSumsPartition(ds: seq<DeviceCost>, keyOf: DeviceCost -> string)
    ensures SumBy(Entries(GroupKeys(ds, keyOf), UsageRows(ds, keyOf)), AmountOf) == SumBy(ds, KwhOf)
    ensures SumBy(Entries(GroupKeys(ds, keyOf), CostRows(ds, keyOf)), AmountOf) == SumBy(ds, CostOf)
  {
    var ks := GroupKeys(ds, keyOf);
    var us, cs := UsageRows(ds, keyOf), CostRows(ds, keyOf);
    RowKeysGrouped(ds, keyOf);
    EntriesCover(ks, us);
    EntriesCover(ks, cs);
    SumByRows(ds, keyOf);
  }

  lemma RowKeysGrouped(ds: seq<DeviceCost>, keyOf: DeviceCost -> string)
    ensures forall j :: 0 <= j < |UsageRows(ds, keyOf)| ==> UsageRows(ds, keyOf)[j].key in GroupKeys(ds, keyOf)
    ensures forall j :: 0 <= j < |CostRows(ds, keyOf)| ==> CostRows(ds, keyOf)[j].key in GroupKeys(ds, keyOf)
  {
  }

  /** The rows carry the devices' amounts. */
  lemma {:induction false} SumByRows(ds: seq<DeviceCost>, keyOf: DeviceCost -> string)
    ensures SumBy(UsageRows(ds, keyOf), AmountOf) == SumBy(ds, KwhOf)
    ensures SumBy(CostRows(ds, keyOf), AmountOf) == SumBy(ds, CostOf)
    decreases |ds|
  {
    if |ds| > 0 {
      var init := ds[..|ds| - 1];
      SumByRows(init, keyOf);
      assert UsageRows(ds, keyOf)[..|ds| - 1] == UsageRows(init, keyOf);
      assert CostRows(ds, keyOf)[..|ds| - 1] == CostRows(init, keyOf);
    }
  }

  datatype CostReport = CostReport(
    price: Price, totalKwh: real, totalCost: real,
    byDevice: seq<DeviceCost>, byRoom: seq<GroupCost>, byType: seq<GroupCost>)

  /** `calculateCosts` over the per-device rows of the period. */
  function CalculateCosts(owned: bool, stored: Price, rows: seq<UsageRow>): (r: Result<CostReport, int>)
    ensures r.Err? <==> !owned
    ensures r.Err? ==> r.error == 404
    ensures r.Ok? ==>
              var c := r.value;
              c.price == stored
              && c.byDevice == ByDevice(rows, stored.perKwh)
              && c.totalKwh == Round2(SumBy(c.byDevice, KwhOf))
              && c.totalCost == Round2(SumBy(c.byDevice, CostOf))
              && c.byRoom == GroupCosts(c.byDevice, RoomOf)
              && c.byType == GroupCosts(c.byDevice, KindOf)
  {
    match GetElectricityPrice(owned, stored)
    case Err(e) => Err(e)
    case Ok(p) =>
      var ds := ByDevice(rows, p.perKwh);
      Ok(CostReport(p, Round2(SumBy(ds, KwhOf)), Round2(SumBy(ds, CostOf)), ds,
                    GroupCosts(ds, RoomOf), GroupCosts(ds, KindOf)))
  }

  /** A device's usage priced exactly, before rounding. */
  function ExactCost(price: real): DeviceCost -> real
  {
    (d: DeviceCost) => d.kwh * price
  }

  /** Pricing each device exactly and summing is pricing the summed usage. */
  lemma {:induction false} SumScales(ds: seq<DeviceCost>, price: real)
    ensures SumBy(ds, ExactCost(price)) == SumBy(ds, KwhOf) * price
    decreases |ds|
  {
    if |ds| > 0 {
      var init := ds[..|ds| - 1];
      SumScales(init, price);
      Distributes(SumBy(init, KwhOf), ds[|ds| - 1].kwh, price);
    }
  }

  lemma Distributes(a: real, b: real, p: real)
    ensures (a + b) * p == a * p + b * p
  {
  }

  /** Summing cent-rounded costs drifts from the summed exact costs by at
      most half a cent per device. */
  lemma {:induction false} CostDrift(ds: seq<DeviceCost>, price: real)
    requires forall i :: 0 <= i < |ds| ==> HalfCent(ds[i].cost, ds[i].kwh * price)
    ensures HalfCents(SumBy(ds, CostOf), SumBy(ds, ExactCost(price)), |ds|)
    decreases |ds|
  {
    if |ds| > 0 {
      var init := ds[..|ds| - 1];
      var d := ds[|ds| - 1];
      CostDrift(init, price);
      assert HalfCent(d.cost, d.kwh * price);
      assert ExactCost(price)(d) == d.kwh * price;
    }
  }

  /** The reported total cost, `Round2` of the summed device costs (see
      `CalculateCosts`), is within half a cent per device, plus the final
      rounding, of the exact cost of the total usage. */
  lemma TotalCostBound(rows: seq<UsageRow>, price: real)
    ensures var ds := ByDevice(rows, price);
            HalfCents(Round2(SumBy(ds, CostOf)), SumBy(ds, KwhOf) * price, |ds| + 1)
  {
    ByDeviceHalfCent(rows, price);
    RoundedTotalBound(ByDevice(rows, price), price);
  }

  lemma ByDeviceHalfCent(rows: seq<UsageRow>, price: real)
    ensures var ds := ByDevice(rows, price);
            forall i :: 0 <= i < |ds| ==> HalfCent(ds[i].cost, ds[i].kwh * price)
  {
  }

  lemma RoundedTotalBound(ds: seq<DeviceCost>, price: real)
    requires forall i :: 0 <= i < |ds| ==> HalfCent(ds[i].cost, ds[i].kwh * price)
    ensures HalfCents(Round2(SumBy(ds, CostOf)), SumBy(ds, KwhOf) * price, |ds| + 1)
  {
    CostDrift(ds, price);
    SumScales(ds, price);
    Round2Close(SumBy(ds, CostOf));
  }

  /** The counter readings of one device on one day, oldest first. */
  type DayReadings = seq<real>

  /** The day's usage of one device as the daily query computes it: every
      reading minus EVERY earlier reading of the device from the last 24
      hours (here: every earlier reading of the day). */
  function PairwiseUsage(vs: DayReadings): (r: real)
    ensures (forall i :: 0 <= i < |vs| ==> vs[i] == vs[0]) ==> r == 0.0
    ensures |vs| > 0 && (forall i, j :: 0 <= i < j < |vs| ==> vs[i] <= vs[j]) ==> r >= vs[|vs| - 1] - vs[0]
  {
    if |vs| == 0 then 0.0
    else
      var init := vs[..|vs| - 1];
      assert forall i :: 0 <= i < |init| ==> init[i] == vs[i];
      PairwiseUsage(init) + DiffsBefore(init, vs[|vs| - 1])
  }

  /** `x` minus each of `vs`, summed: never negative when no earlier
      reading exceeds `x`, and then at least `x` minus the last of them. */
  function DiffsBefore(vs: seq<real>, x: real): (r: real)
    ensures (forall i :: 0 <= i < |vs| ==> vs[i] == x) ==> r == 0.0
    ensures (forall i :: 0 <= i < |vs| ==> vs[i] <= x) ==> r >= 0.0
    ensures |vs| > 0 && (forall i :: 0 <= i < |vs| ==> vs[i] <= x) ==> r >= x - vs[|vs| - 1]
  {
    if |vs| == 0 then 0.0
    else
      var init := vs[..|vs| - 1];
      assert forall i :: 0 <= i < |init| ==> init[i] == vs[i];
      DiffsBefore(init, x) + (x - vs[|vs| - 1])
  }

  /** Three readings an hour apart, 1, 2 and 3 kWh, used 2 kWh; the query
      reports 4. */
  lemma PairwiseOvercounts()
    ensures PairwiseUsage([1.0, 2.0, 3.0]) == 4.0
    ensures ConsecutiveUsage([1.0, 2.0, 3.0]) == 2.0
  {
    assert [1.0, 2.0, 3.0][..2] == [1.0, 2.0];
    assert [1.0, 2.0][..1] == [1.0];
    assert [1.0][..0] == [];
  }

  /** The day's usage of one device as each reading minus the reading just
      before it. */
  function ConsecutiveUsage(vs: DayReadings): real
  {
    if |vs| < 2 then 0.0
    else ConsecutiveUsage(vs[..|vs| - 1]) + (vs[|vs| - 1] - vs[|vs| - 2])
  }

  /** The consecutive differences telescope to the day's counter spread. */
  lemma {:induction false} ConsecutiveTelescopes(vs: DayReadings)
    requires |vs| > 0
    ensures ConsecutiveUsage(vs) == vs[|vs| - 1] - vs[0]
    decreases |vs|
  {
    if |vs| >= 2 {
      var init := vs[..|vs| - 1];
      ConsecutiveTelescopes(init);
      assert init[|init| - 1] == vs[|vs| - 2] && init[0] == vs[0];
    }
  }

  /** One day of the daily chart: the day and, per device, its readings. */
  datatype Day = Day(date: string, devices: seq<DayReadings>)

  datatype DailyCost = DailyCost(date: string, kwh: real, cost: real)

  function DayUsage(devices: seq<DayReadings>): real
  {
    if |devices| == 0 then 0.0 else DayUsage(devices[..|devices| - 1]) + ConsecutiveUsage(devices[|devices| - 1])
  }

  /** A day's usage is the sum of each device's first-to-last spread. */
  lemma {:induction false} DayUsageIsSpread(devices: seq<DayReadings>)
    requires forall k :: 0 <= k < |devices| ==> |devices[k]| > 0
    ensures DayUsage(devices) == SumBy(devices, Spread)
    decreases |devices|
  {
    if |devices| > 0 {
      DayUsageIsSpread(devices[..|devices| - 1]);
      ConsecutiveTelescopes(devices[|devices| - 1]);
    }
  }

  function Spread(vs: DayReadings): real
  {
    if |vs| == 0 then 0.0 else vs[|vs| - 1] - vs[0]
  }

  /** The unrounded cost of `kwh` at `price` per kWh. */
  function Priced(kwh: real, price: real): real
  {
    kwh * price
  }

  /** A day's usage and cost, each rounded to the cent. */
  function DailyCostOf(d: Day, price: real): (c: DailyCost)
    ensures c.date == d.date
    ensures HalfCent(c.cost, DayUsage(d.devices) * price)
    ensures HalfCent(c.kwh, DayUsage(d.devices))
    ensures c.kwh == Round2(DayUsage(d.devices))
    ensures c.cost == Round2(Priced(DayUsage(d.devices), price))
  {
    Round2Close(DayUsage(d.devices));
    Round2Close(Priced(DayUsage(d.devices), price));
    DailyCost(d.date, Round2(DayUsage(d.devices)), Round2(Priced(DayUsage(d.devices), price)))
  }

  datatype DailyCosts = DailyCosts(perKwh: real, currency: string, data: seq<DailyCost>)

  /** `getDailyCosts` over the days of the window, oldest first, with the
      per-day usage computed from consecutive readings. */
  function GetDailyCosts(owned: bool, stored: Price, days: seq<Day>): (r: Result<DailyCosts, int>)
    ensures r.Err? <==> !owned
    ensures r.Err? ==> r.error == 404
    ensures r.Ok? ==> r.value.perKwh == stored.perKwh && r.value.currency == stored.currency
    ensures r.Ok? ==> |r.value.data| == |days|
                      && forall i :: 0 <= i < |days| ==> r.value.data[i] == DailyCostOf(days[i], stored.perKwh)
  {
    match GetElectricityPrice(owned, stored)
    case Err(e) => Err(e)
    case Ok(p) => Ok(DailyCosts(p.perKwh, p.currency,
                                seq(|days|, i requires 0 <= i < |days| => DailyCostOf(days[i], p.perKwh))))
  }
}

=== FILE: devices.dfy ===
/** The device registry: devices created in the rooms of a household, smart
    plugs attached to devices, and the household's device listing. Tables
    are sequences of rows; each service call is a function from the tables
    to a result and the new tables. */
module Devices {
  import opened Common
  import opened Records

  /** The thirteen device types a device may have. */
  const DeviceTypes: seq<string> := [
    "hladnjak", "zamrzivac", "pecnica", "mikrovalna", "perilica_rublja", "perilica_posudja",
    "klima", "grijanje", "tv", "racunalo", "rasvjeta", "bojler", "ostalo"]

  datatype Household = Household(id: int, owner: int)

  datatype Room = Room(id: int, household: int, name: string, kind: string)

  /** A device; the optional fields are `NULL` when absent. */
  datatype Device = Device(
    id: int, room: int, name: string, kind: string,
    maker: Option<string>, model: Option<string>, power: Option<real>, bought: Option<string>)

  /** The four tables the service touches, with the two auto-increment
      counters it draws ids from. */
  datatype Registry = Registry(
    households: seq<Household>, rooms: seq<Room>, devices: seq<Device>, plugs: seq<Plug>,
    nextDevice: int, nextPlug: int)

  /** Why a call failed; `Status` is the HTTP status it carries. */
  datatype Failure =
    | HouseholdNotFound
    | RoomNotInHousehold
    | InvalidType
    | DeviceNotFound
    | SerialRequired
    | DeviceHasPlug
    | SerialTaken
    | NoPlug

  function Status(f: Failure): int
  {
    match f
    case HouseholdNotFound => 404
    case DeviceNotFound => 404
    case NoPlug => 404
    case _ => 400
  }

  /** `v || null` for an optional string: the empty string is falsy. */
  function OrNull(v: Option<string>): (r: Option<string>)
    ensures r.Some? <==> v.Some? && v.value != ""
    ensures r.Some? ==> r == v
  {
    if v.Some? && v.value != "" then v else None
  }

  /** `v || null` for an optional number: zero is falsy. */
  function NumberOrNull(v: Option<real>): (r: Option<real>)
    ensures r.Some? <==> v.Some? && v.value != 0.0
    ensures r.Some? ==> r == v
  {
    if v.Some? && v.value != 0.0 then v else None
  }

  /** `assertHouseholdOwnership`: the household exists and is the user's. */
  predicate OwnsHousehold(reg: Registry, user: int, h: int)
  {
    exists k :: 0 <= k < |reg.households| && reg.households[k].id == h && reg.households[k].owner == user
  }

  /** The room exists and belongs to the household. */
  predicate RoomInHousehold(reg: Registry, room: int, h: int)
  {
    exists j :: 0 <= j < |reg.rooms| && reg.rooms[j].id == room && reg.rooms[j].household == h
  }

  /** The room exists and lies in one of the user's households. */
  predicate RoomOfUser(reg: Registry, user: int, room: int)
  {
    exists j :: 0 <= j < |reg.rooms| && reg.rooms[j].id == room && OwnsHousehold(reg, user, reg.rooms[j].household)
  }

  /** `assertDeviceOwnership`: the device exists and its room lies in one of
      the user's households. */
  predicate OwnsDevice(reg: Registry, user: int, device: int)
  {
    exists i :: 0 <= i < |reg.devices| && reg.devices[i].id == device && RoomOfUser(reg, user, reg.devices[i].room)
  }

  /** Some plug is attached to the device. */
  predicate HasPlug(plugs: seq<Plug>, device: int)
  {
    exists i :: 0 <= i < |plugs| && plugs[i].device == device
  }

  /** Some plug carries the serial number. */
  predicate SerialUsed(plugs: seq<Plug>, serial: string)
  {
    exists i :: 0 <= i < |plugs| && plugs[i].serial == serial
  }

  /** At most one plug per device. */
  predicate OnePlugPerDevice(plugs: seq<Plug>)
  {
    forall i, j :: 0 <= i < j < |plugs| ==> plugs[i].device != plugs[j].device
  }

  /** Serial numbers are unique. */
  predicate UniqueSerials(plugs: seq<Plug>)
  {
    forall i, j :: 0 <= i < j < |plugs| ==> plugs[i].serial != plugs[j].serial
  }

  /** Device ids are a primary key below their counter. */
  predicate DeviceIdsBelowCounter(reg: Registry)
  {
    (forall i :: 0 <= i < |reg.devices| ==> reg.devices[i].id < reg.nextDevice)
    && forall i, j :: 0 <= i < j < |reg.devices| ==> reg.devices[i].id != reg.devices[j].id
  }

  /** Plug ids are a primary key drawn from a counter that starts at 1. */
  predicate PlugIdsBelowCounter(reg: Registry)
  {
    1 <= reg.nextPlug
    && (forall i :: 0 <= i < |reg.plugs| ==> 1 <= reg.plugs[i].id < reg.nextPlug)
    && DistinctPlugIds(reg.plugs)
  }

  /** What the tables guarantee between calls. */
  predicate Valid(reg: Registry)
  {
    DeviceIdsBelowCounter(reg) && PlugIdsBelowCounter(reg)
    && OnePlugPerDevice(reg.plugs) && UniqueSerials(reg.plugs)
  }

  /** The fields of a new device. */
  datatype DeviceInput = DeviceInput(
    room: int, name: string, kind: string,
    maker: Option<string>, model: Option<string>, power: Option<real>, bought: Option<string>)

  /** `createDeviceForHousehold`: 404 unless the household is the user's,
      then 400 unless the room belongs to it, then 400 unless the type is
      one of the thirteen; only then is the row inserted, its optional
      fields `NULL` when falsy. */
  function CreateDevice(reg: Registry, user: int, h: int, input: DeviceInput): (r: Result<(Registry, Device), Failure>)
    ensures r == Err(HouseholdNotFound) <==> !OwnsHousehold(reg, user, h)
    ensures r == Err(RoomNotInHousehold) <==> OwnsHousehold(reg, user, h) && !RoomInHousehold(reg, input.room, h)
    ensures r == Err(InvalidType) <==>
              OwnsHousehold(reg, user, h) && RoomInHousehold(reg, input.room, h) && input.kind !in DeviceTypes
    ensures r.Ok? ==>
              var (reg', d) := r.value;
              reg'.devices == reg.devices + [d] && reg'.nextDevice == reg.nextDevice + 1
              && reg'.households == reg.households && reg'.rooms == reg.rooms && reg'.plugs == reg.plugs
              && reg'.nextPlug == reg.nextPlug
              && d.id == reg.nextDevice && d.room == input.room && RoomInHousehold(reg, d.room, h)
              && d.name == input.name && d.kind == input.kind && d.kind in DeviceTypes
              && d.maker == OrNull(input.maker) && d.model == OrNull(input.model)
              && d.power == NumberOrNull(input.power) && d.bought == OrNull(input.bought)
  {
    if !OwnsHousehold(reg, user, h) then Err(HouseholdNotFound)
    else if !RoomInHousehold(reg, input.room, h) then Err(RoomNotInHousehold)
    else if input.kind !in DeviceTypes then Err(InvalidType)
    else
      var d := Device(reg.nextDevice, input.room, input.name, input.kind,
                      OrNull(input.maker), OrNull(input.model), NumberOrNull(input.power), OrNull(input.bought));
      Ok((reg.(devices := reg.devices + [d], nextDevice := reg.nextDevice + 1), d))
  }

  /** A created device is owned by the user, and the tables stay valid. */
  lemma CreateKeepsValid(reg: Registry, user: int, h: int, input: DeviceInput)
    requires Valid(reg)
    requires CreateDevice(reg, user, h, input).Ok?
    ensures var (reg', d) := CreateDevice(reg, user, h, input).value;
            Valid(reg') && OwnsDevice(reg', user, d.id)
  {
    var (reg', d) := CreateDevice(reg, user, h, input).value;
    var j :| 0 <= j < |reg.rooms| && reg.rooms[j].id == d.room && reg.rooms[j].household == h;
    var k :| 0 <= k < |reg.households| && reg.households[k].id == h && reg.households[k].owner == user;
    assert OwnsHousehold(reg', user, reg'.rooms[j].household);
    assert reg'.devices[|reg.devices|] == d;
  }

  /** The fields of a plug to attach; the input's IP address is never
      stored. */
  datatype PlugInput = PlugInput(serial: Option<string>, maker: Option<string>, model: Option<string>)

  /** `attachPlugToDevice`: 404 unless the device is the user's, then 400
      for a missing serial, then 400 when the device already has a plug,
      then 400 when the serial is taken; otherwise an active plug without
      an address is inserted. */
  function AttachPlug(reg: Registry, user: int, device: int, input: PlugInput): (r: Result<(Registry, Plug), Failure>)
    ensures r == Err(DeviceNotFound) <==> !OwnsDevice(reg, user, device)
    ensures r == Err(SerialRequired) <==> OwnsDevice(reg, user, device) && OrNull(input.serial).None?
    ensures r == Err(DeviceHasPlug) <==>
              OwnsDevice(reg, user, device) && OrNull(input.serial).Some? && HasPlug(reg.plugs, device)
    ensures r == Err(SerialTaken) <==>
              OwnsDevice(reg, user, device) && OrNull(input.serial).Some? && !HasPlug(reg.plugs, device)
              && SerialUsed(reg.plugs, input.serial.value)
    ensures r.Ok? ==>
              var (reg', p) := r.value;
              reg'.plugs == reg.plugs + [p] && reg'.nextPlug == reg.nextPlug + 1
              && reg'.households == reg.households && reg'.rooms == reg.rooms && reg'.devices == reg.devices
              && reg'.nextDevice == reg.nextDevice
              && p.id == reg.nextPlug && p.device == device && Some(p.serial) == input.serial
              && p.maker == OrNull(input.maker) && p.model == OrNull(input.model)
              && p.status == Active && p.ip.None?
  {
    if !OwnsDevice(reg, user, device) then Err(DeviceNotFound)
    else if OrNull(input.serial).None? then Err(SerialRequired)
    else if HasPlug(reg.plugs, device) then Err(DeviceHasPlug)
    else if SerialUsed(reg.plugs, input.serial.value) then Err(SerialTaken)
    else
      var p := Plug(reg.nextPlug, device, input.serial.value, OrNull(input.maker), OrNull(input.model), None, Active);
      Ok((reg.(plugs := reg.plugs + [p], nextPlug := reg.nextPlug + 1), p))
  }

  /** Attaching keeps at most one plug per device, unique serials, and the
      plug ids a key. */
  lemma AttachKeepsValid(reg: Registry, user: int, device: int, input: PlugInput)
    requires Valid(reg)
    requires AttachPlug(reg, user, device, input).Ok?
    ensures Valid(AttachPlug(reg, user, device, input).value.0)
  {
    var (reg', p) := AttachPlug(reg, user, device, input).value;
    var n := |reg.plugs|;
    assert reg'.plugs[n] == p;
    forall i | 0 <= i < n
      ensures reg'.plugs[i] == reg.plugs[i]
      ensures reg'.plugs[i].device != p.device && reg'.plugs[i].serial != p.serial && reg'.plugs[i].id < p.id
    {
      assert reg'.plugs[i] == reg.plugs[i];
    }
  }

  /** `SELECT … FROM pametni_utikac WHERE uredjaj_id = ?`, first row. */
  function PlugOf(plugs: seq<Plug>, device: int): (r: Option<Plug>)
    ensures r.Some? <==> HasPlug(plugs, device)
    ensures r.Some? ==> r.value in plugs && r.value.device == device
  {
    if |plugs| == 0 then None
    else if plugs[0].device == device then Some(plugs[0])
    else
      var rest := PlugOf(plugs[1..], device);
      assert forall i :: 0 < i < |plugs| ==> plugs[i] == plugs[1..][i - 1];
      assert HasPlug(plugs[1..], device) ==> HasPlug(plugs, device);
      rest
  }

  /** With one plug per device, the plug found is the device's only one. */
  lemma PlugOfUnique(plugs: seq<Plug>, device: int, i: int)
    requires OnePlugPerDevice(plugs)
    requires 0 <= i < |plugs| && plugs[i].device == device
    ensures PlugOf(plugs, device) == Some(plugs[i])
  {
    var p := PlugOf(plugs, device).value;
    var j :| 0 <= j < |plugs| && plugs[j] == p;
    assert j == i;
  }

  /** `getPlugForDevice`: 404 unless the device is the user's, then 404
      when it has no plug. */
  function GetPlugForDevice(reg: Registry, user: int, device: int): (r: Result<Plug, Failure>)
    ensures r == Err(DeviceNotFound) <==> !OwnsDevice(reg, user, device)
    ensures r == Err(NoPlug) <==> OwnsDevice(reg, user, device) && !HasPlug(reg.plugs, device)
    ensures r.Ok? ==> r.value in reg.plugs && r.value.device == device
  {
    if !OwnsDevice(reg, user, device) then Err(DeviceNotFound)
    else
      match PlugOf(reg.plugs, device)
      case None => Err(NoPlug)
      case Some(p) => Ok(p)
  }

  /** A successful attach is what a later lookup returns, and a second
      attach to the same device is refused. */
  lemma AttachThenGet(reg: Registry, user: int, device: int, input: PlugInput, again: PlugInput)
    requires Valid(reg)
    requires AttachPlug(reg, user, device, input).Ok?
    ensures var (reg', p) := AttachPlug(reg, user, device, input).value;
            GetPlugForDevice(reg', user, device) == Ok(p)
            && (OrNull(again.serial).Some? ==> AttachPlug(reg', user, device, again) == Err(DeviceHasPlug))
  {
    var (reg', p) := AttachPlug(reg, user, device, input).value;
    AttachKeepsValid(reg, user, device, input);
    assert reg'.plugs[|reg.plugs|] == p;
    PlugOfUnique(reg'.plugs, device, |reg.plugs|);
  }

  /** The device has a room in the household. */
  predicate HasRoomIn(rooms: seq<Room>, d: Device, h: int)
  {
    exists j :: 0 <= j < |rooms| && rooms[j].id == d.room && rooms[j].household == h
  }

  /** The first room of the household with the device's room id. */
  function RoomFor(rooms: seq<Room>, d: Device, h: int): (r: Option<Room>)
    ensures r.Some? <==> HasRoomIn(rooms, d, h)
    ensures r.Some? ==> r.value in rooms && r.value.id == d.room && r.value.household == h
  {
    if |rooms| == 0 then None
    else if rooms[0].id == d.room && rooms[0].household == h then Some(rooms[0])
    else
      var rest := RoomFor(rooms[1..], d, h);
      assert forall j :: 0 < j < |rooms| ==> rooms[j] == rooms[1..][j - 1];
      assert HasRoomIn(rooms[1..], d, h) ==> HasRoomIn(rooms, d, h);
      rest
  }

  /** The devices of joined rows. */
  function DevicesOf(rows: seq<(Device, Room)>): (ds: seq<Device>)
    ensures |ds| == |rows|
    ensures forall k :: 0 <= k < |rows| ==> ds[k] == rows[k].0
  {
    seq(|rows|, k requires 0 <= k < |rows| => rows[k].0)
  }

  /** `kucanstvo JOIN prostorija JOIN uredjaj` for one household: each
      device of its rooms with its room, in table order. */
  function Joined(devices: seq<Device>, rooms: seq<Room>, h: int): (r: seq<(Device, Room)>)
    ensures forall k :: 0 <= k < |r| ==>
              r[k].0 in devices && r[k].1 in rooms && r[k].1.id == r[k].0.room && r[k].1.household == h
    ensures forall i :: 0 <= i < |devices| && HasRoomIn(rooms, devices[i], h) ==> devices[i] in DevicesOf(r)
  {
    if |devices| == 0 then []
    else
      var init := devices[..|devices| - 1];
      var last := devices[|devices| - 1];
      var p := Joined(init, rooms, h);
      match RoomFor(rooms, last, h)
      case None =>
        forall i | 0 <= i < |devices| && HasRoomIn(rooms, devices[i], h) ensures devices[i] in DevicesOf(p) {
          assert devices[i] == init[i];
        }
        p
      case Some(room) =>
        var r := p + [(last, room)];
        assert DevicesOf(r) == DevicesOf(p) + [last];
        forall i | 0 <= i < |devices| && HasRoomIn(rooms, devices[i], h) ensures devices[i] in DevicesOf(r) {
          if i < |init| {
            assert devices[i] == init[i];
          }
        }
        r
  }

  /** The plug part of a listed device. */
  datatype PlugView = PlugView(id: int, serial: string, status: PlugStatus)

  /** One device of the listing with its room and its plug or `null`. */
  datatype DeviceView = DeviceView(
    id: int, name: string, kind: string,
    maker: Option<string>, model: Option<string>, power: Option<real>, bought: Option<string>,
    room: Room, plug: Option<PlugView>)

  /** `r.utikac_id ? {…} : null`: a plug id of 0 would read as none. */
  function ViewOf(row: (Device, Room), plugs: seq<Plug>): (v: DeviceView)
    ensures v.id == row.0.id && v.room == row.1
    ensures v.plug.Some? <==> HasPlug(plugs, row.0.id) && PlugOf(plugs, row.0.id).value.id != 0
  {
    var d := row.0;
    var p := PlugOf(plugs, d.id);
    DeviceView(d.id, d.name, d.kind, d.maker, d.model, d.power, d.bought, row.1,
               if p.Some? && p.value.id != 0 then Some(PlugView(p.value.id, p.value.serial, p.value.status)) else None)
  }

  function IdKey(row: (Device, Room)): real { row.0.id as real }

  /** The joined rows of the household, `ORDER BY u.uredjaj_id ASC`. */
  function SortedRows(reg: Registry, h: int): (rows: seq<(Device, Room)>)
    ensures SortedAsc(rows, IdKey)
    ensures multiset(rows) == multiset(Joined(reg.devices, reg.rooms, h))
  {
    SortAsc(Joined(reg.devices, reg.rooms, h), IdKey)
  }

  /** The household's listing, one view per sorted row. */
  function Listing(reg: Registry, h: int): (vs: seq<DeviceView>)
    ensures |vs| == |SortedRows(reg, h)|
    ensures forall i :: 0 <= i < |vs| ==> vs[i] == ViewOf(SortedRows(reg, h)[i], reg.plugs)
  {
    Views(SortedRows(reg, h), reg.plugs)
  }

  function Views(rows: seq<(Device, Room)>, plugs: seq<Plug>): (vs: seq<DeviceView>)
    ensures |vs| == |rows|
    ensures forall i :: 0 <= i < |vs| ==> vs[i] == ViewOf(rows[i], plugs)
  {
    if |rows| == 0 then []
    else Views(rows[..|rows| - 1], plugs) + [ViewOf(rows[|rows| - 1], plugs)]
  }

  /** `listDevicesForHousehold`: 404 unless the household is the user's;
      otherwise its devices ordered by id. */
  function ListDevices(reg: Registry, user: int, h: int): (r: Result<seq<DeviceView>, Failure>)
    ensures r.Err? <==> !OwnsHousehold(reg, user, h)
    ensures r.Err? ==> r.error == HouseholdNotFound
    ensures r.Ok? ==> r.value == Listing(reg, h)
    ensures r.Ok? ==> forall i, j :: 0 <= i < j < |r.value| ==> r.value[i].id <= r.value[j].id
    ensures r.Ok? ==> forall i :: 0 <= i < |r.value| ==> r.value[i].room.household == h
  {
    if !OwnsHousehold(reg, user, h) then Err(HouseholdNotFound)
    else
      ListingShape(reg, h);
      Ok(Listing(reg, h))
  }

  /** The listing runs by ascending id and shows only the household's rooms. */
  lemma ListingShape(reg: Registry, h: int)
    ensures forall i, j :: 0 <= i < j < |Listing(reg, h)| ==> Listing(reg, h)[i].id <= Listing(reg, h)[j].id
    ensures forall i :: 0 <= i < |Listing(reg, h)| ==> Listing(reg, h)[i].room.household == h
  {
    var sorted := SortedRows(reg, h);
    var vs := Listing(reg, h);
    forall i, j | 0 <= i < j < |vs| ensures vs[i].id <= vs[j].id {
      assert IdKey(sorted[i]) <= IdKey(sorted[j]);
    }
    forall i | 0 <= i < |vs| ensures vs[i].room.household == h {
      assert sorted[i] in multiset(sorted);
    }
  }

  /** Every device of the household's rooms is listed. */
  lemma ListedIfInHousehold(reg: Registry, h: int, d: Device)
    requires d in reg.devices && HasRoomIn(reg.rooms, d, h)
    ensures exists i :: 0 <= i < |Listing(reg, h)| && Listing(reg, h)[i].id == d.id
  {
    var joined := Joined(reg.devices, reg.rooms, h);
    var sorted := SortedRows(reg, h);
    var n :| 0 <= n < |reg.devices| && reg.devices[n] == d;
    assert d in DevicesOf(joined);
    var k :| 0 <= k < |joined| && DevicesOf(joined)[k] == d;
    assert joined[k] in multiset(sorted);
    var i :| 0 <= i < |sorted| && sorted[i] == joined[k];
    assert Listing(reg, h)[i].id == d.id;
  }

  /** Only devices of the household's rooms are listed. */
  lemma ListedOnlyHousehold(reg: Registry, h: int, i: int)
    requires 0 <= i < |Listing(reg, h)|
    ensures exists n :: 0 <= n < |reg.devices| && reg.devices[n].id == Listing(reg, h)[i].id
                        && HasRoomIn(reg.rooms, reg.devices[n], h)
  {
    var joined := Joined(reg.devices, reg.rooms, h);
    var sorted := SortedRows(reg, h);
    assert sorted[i] in multiset(sorted);
    assert sorted[i] in joined;
    var n :| 0 <= n < |reg.devices| && reg.devices[n] == sorted[i].0;
    assert Listing(reg, h)[i] == ViewOf(sorted[i], reg.plugs);
    assert sorted[i].1.id == reg.devices[n].room && sorted[i].1.household == h;
  }

  /** With device ids a key, the listing holds exactly the devices that
      lie in one of the household's rooms. */
  lemma ListedExactly(reg: Registry, h: int, d: Device)
    requires Valid(reg)
    requires d in reg.devices
    ensures (exists i :: 0 <= i < |Listing(reg, h)| && Listing(reg, h)[i].id == d.id) <==> HasRoomIn(reg.rooms, d, h)
  {
    var vs := Listing(reg, h);
    if HasRoomIn(reg.rooms, d, h) {
      ListedIfInHousehold(reg, h, d);
    }
    if exists i :: 0 <= i < |vs| && vs[i].id == d.id {
      var i :| 0 <= i < |vs| && vs[i].id == d.id;
      ListedOnlyHousehold(reg, h, i);
      var n :| 0 <= n < |reg.devices| && reg.devices[n] == d;
      var m :| 0 <= m < |reg.devices| && reg.devices[m].id == vs[i].id && HasRoomIn(reg.rooms, reg.devices[m], h);
      assert m == n;
    }
  }

  /** With plug ids counted from 1, a listed device's plug is `null`
      exactly when no plug is attached to it. */
  lemma ListedPlugNullIffNone(reg: Registry, h: int, i: int)
    requires Valid(reg)
    requires 0 <= i < |Listing(reg, h)|
    ensures Listing(reg, h)[i].plug.None? <==> !HasPlug(reg.plugs, Listing(reg, h)[i].id)
  {
    var v := Listing(reg, h)[i];
    assert v == ViewOf(SortedRows(reg, h)[i], reg.plugs);
    var p := PlugOf(reg.plugs, v.id);
    if p.Some? {
      var j :| 0 <= j < |reg.plugs| && reg.plugs[j] == p.value;
      assert p.value.id >= 1;
    }
  }
}

=== FILE: goals.dfy ===
/** Savings goals: creation, listing, and the progress classifier that
    compares a period's usage and cost with the goal's targets. */
module Goals {
  import opened Common

  /** `u_toku`, `postignuto`, `prekoraceno`, `upozorenje`. */
  datatype GoalStatus = OnTrack | Achieved | Exceeded | Warning

  /** A stored goal. Targets are as stored; `start` and `end` are times. */
  datatype Goal = Goal(
    id: int, household: int, name: string, kind: string,
    kwhTarget: Option<real>, costTarget: Option<real>, start: int, end: int, active: bool)

  datatype GoalTable = GoalTable(rows: seq<Goal>, nextId: int)

  /** A target counts when it is truthy: present and not zero. */
  predicate IsSet(t: Option<real>)
  {
    t.Some? && t.value != 0.0
  }

  /** `t ? parseFloat(t) : null`. */
  function Normalized(t: Option<real>): (r: Option<real>)
    ensures r.Some? <==> IsSet(t)
    ensures r.Some? ==> r.value == t.value
  {
    if IsSet(t) then t else None
  }

  /** `current / target * 100` for a set target. */
  function Percent(current: real, t: Option<real>): (p: Option<real>)
    ensures p.Some? <==> IsSet(t)
    ensures p.Some? ==> p.value * t.value == current * 100.0
  {
    if IsSet(t) then Some(current / t.value * 100.0) else None
  }

  /** A set target the current value has passed. */
  predicate Over(t: Option<real>, current: real)
  {
    IsSet(t) && current > t.value
  }

  /** A set target met by the current value. */
  predicate Met(t: Option<real>, current: real)
  {
    IsSet(t) && current <= t.value
  }

  /** A set target whose percentage is above 80. */
  predicate Near(t: Option<real>, current: real)
  {
    IsSet(t) && current / t.value * 100.0 > 80.0
  }

  /** The status rules: an ended goal is achieved when either set target
      was met and exceeded otherwise; an ongoing goal is exceeded when a
      set target is passed, a warning when a set target is above 80 %,
      and on track otherwise. */
  function Classify(kwhTarget: Option<real>, costTarget: Option<real>, usage: real, cost: real, ended: bool)
    : (s: GoalStatus)
    ensures ended ==> (s == Achieved <==> Met(kwhTarget, usage) || Met(costTarget, cost))
    ensures ended ==> (s == Exceeded <==> !Met(kwhTarget, usage) && !Met(costTarget, cost))
    ensures !ended ==> (s == Exceeded <==> Over(kwhTarget, usage) || Over(costTarget, cost))
    ensures !ended ==> (s == Warning <==> !Over(kwhTarget, usage) && !Over(costTarget, cost)
                                          && (Near(kwhTarget, usage) || Near(costTarget, cost)))
    ensures !ended ==> s != Achieved
  {
    if ended then
      if Met(kwhTarget, usage) then Achieved
      else if Met(costTarget, cost) then Achieved
      else Exceeded
    else
      if Over(kwhTarget, usage) then Exceeded
      else if Over(costTarget, cost) then Exceeded
      else if Near(kwhTarget, usage) || Near(costTarget, cost) then Warning
      else OnTrack
  }

  /** For a positive target, "above 80 %" is "more than four fifths of the
      target". */
  lemma NearMeansFourFifths(t: real, current: real)
    requires t > 0.0
    ensures Near(Some(t), current) <==> current * 5.0 > t * 4.0
  {
    var p := current / t * 100.0;
    assert p * t == current * 100.0;
    if p > 80.0 {
      assert (p - 80.0) * t > 0.0;
    } else {
      assert (80.0 - p) * t >= 0.0;
    }
  }

  /** With a positive kWh target only, an ongoing goal warns exactly when
      usage lies above four fifths of the target and not above it. */
  lemma WarningBand(t: real, usage: real, cost: real)
    requires t > 0.0
    ensures Classify(Some(t), None, usage, cost, false) == Warning <==> t * 4.0 < usage * 5.0 && usage <= t
  {
    NearMeansFourFifths(t, usage);
  }

  /** `max(0, target - current)` for a set target. */
  function Remaining(t: Option<real>, current: real): (r: Option<real>)
    ensures r.Some? <==> IsSet(t)
    ensures r.Some? ==> r.value >= 0.0
    ensures r.Some? ==> (r.value == 0.0 <==> current >= t.value)
    ensures r.Some? && r.value > 0.0 ==> r.value + current == t.value
  {
    if IsSet(t) then Some(if t.value - current > 0.0 then t.value - current else 0.0) else None
  }

  /** A computed percentage of exactly 0 is reported as `null`. */
  function Reported(p: Option<real>): (r: Option<real>)
    ensures r.Some? <==> p.Some? && p.value != 0.0
    ensures r.Some? ==> r.value == p.value
  {
    if p.Some? && p.value != 0.0 then p else None
  }

  datatype Progress = Progress(
    usage: real, cost: real, kwhPercent: Option<real>, costPercent: Option<real>,
    status: GoalStatus, kwhRemaining: Option<real>, costRemaining: Option<real>)

  /** `calculateGoalProgress`. `totals` is the cost calculation for the
      goal's period (total kWh and total cost) or its failure; `ended` is
      "today is past the end date". A failure falls back to zero usage, an
      on-track status, and the raw targets as what remains. */
  function CalculateGoalProgress(g: Goal, totals: Result<(real, real), int>, ended: bool): (p: Progress)
    ensures totals.Err? ==> p == Progress(0.0, 0.0, Some(0.0), Some(0.0), OnTrack, g.kwhTarget, g.costTarget)
    ensures totals.Ok? ==>
              p.usage == totals.value.0 && p.cost == totals.value.1
              && p.status == Classify(g.kwhTarget, g.costTarget, p.usage, p.cost, ended)
              && p.kwhPercent == Reported(Percent(p.usage, g.kwhTarget))
              && p.costPercent == Reported(Percent(p.cost, g.costTarget))
              && p.kwhRemaining == Remaining(g.kwhTarget, p.usage)
              && p.costRemaining == Remaining(g.costTarget, p.cost)
  {
    match totals
    case Err(_) => Progress(0.0, 0.0, Some(0.0), Some(0.0), OnTrack, g.kwhTarget, g.costTarget)
    case Ok((usage, cost)) =>
      Progress(usage, cost,
               Reported(Percent(usage, g.kwhTarget)), Reported(Percent(cost, g.costTarget)),
               Classify(g.kwhTarget, g.costTarget, usage, cost, ended),
               Remaining(g.kwhTarget, usage), Remaining(g.costTarget, cost))
  }

  /** The status is one of the four, and an unset pair of targets never
      yields anything but on track or exceeded. */
  lemma NoTargetsNoAchievement(usage: real, cost: real, ended: bool)
    ensures Classify(None, None, usage, cost, ended) == (if ended then Exceeded else OnTrack)
  {
  }

  /** The fields of a new goal. */
  datatype GoalInput = GoalInput(
    name: string, kind: string, kwhTarget: Option<real>, costTarget: Option<real>, start: int, end: int)

  /** `createGoal`: 404 unless the household is the user's; the row is
      stored active and the answer carries the targets as numbers or
      `null`. */
  function CreateGoal(owned: bool, t: GoalTable, household: int, input: GoalInput): (r: Result<(GoalTable, Goal), int>)
    ensures r.Err? <==> !owned
    ensures r.Err? ==> r.error == 404
    ensures r.Ok? ==>
              var (t', g) := r.value;
              g.active && g.household == household && g.id == t.nextId
              && g.kwhTarget == Normalized(input.kwhTarget) && g.costTarget == Normalized(input.costTarget)
              && g.name == input.name && g.kind == input.kind && g.start == input.start && g.end == input.end
              && |t'.rows| == |t.rows| + 1 && t'.rows[..|t.rows|] == t.rows && t'.nextId == t.nextId + 1
              && t'.rows[|t.rows|] == g.(kwhTarget := input.kwhTarget, costTarget := input.costTarget)
  {
    if !owned then Err(404)
    else
      var stored := Goal(t.nextId, household, input.name, input.kind, input.kwhTarget, input.costTarget,
                         input.start, input.end, true);
      Ok((GoalTable(t.rows + [stored], t.nextId + 1),
          stored.(kwhTarget := Normalized(input.kwhTarget), costTarget := Normalized(input.costTarget))))
  }

  /** A goal in a listing, with its progress. */
  datatype GoalView = GoalView(goal: Goal, progress: Progress)

  function Listed(household: int, onlyActive: bool): Goal -> bool
  {
    (g: Goal) => g.household == household && (!onlyActive || g.active)
  }

  function StartOf(g: Goal): real
  {
    g.start as real
  }

  /** The view of one listed goal; `totalsFor` is the cost calculation of a
      goal's period and `today` the current time. */
  function ViewOf(g: Goal, totalsFor: Goal -> Result<(real, real), int>, today: int): (v: GoalView)
    ensures v.goal == g.(kwhTarget := Normalized(g.kwhTarget), costTarget := Normalized(g.costTarget))
    ensures v.progress == CalculateGoalProgress(g, totalsFor(g), today > g.end)
  {
    GoalView(g.(kwhTarget := Normalized(g.kwhTarget), costTarget := Normalized(g.costTarget)),
             CalculateGoalProgress(g, totalsFor(g), today > g.end))
  }

  /** The household's goals, only the active ones on request, latest start
      first. */
  function ListedGoals(t: GoalTable, household: int, onlyActive: bool): (r: seq<Goal>)
    ensures |r| == CountWhere(t.rows, Listed(household, onlyActive))
    ensures forall i :: 0 <= i < |r| ==> r[i] in t.rows && r[i].household == household && (onlyActive ==> r[i].active)
    ensures forall i, j :: 0 <= i < j < |r| ==> r[i].start >= r[j].start
    ensures multiset(r) == multiset(Filter(t.rows, Listed(household, onlyActive)))
  {
    var sel := Filter(t.rows, Listed(household, onlyActive));
    var sorted := SortDesc(sel, StartOf);
    SortDescMembers(sel, StartOf);
    forall i | 0 <= i < |sorted|
      ensures sorted[i] in t.rows && sorted[i].household == household && (onlyActive ==> sorted[i].active)
    {
      FilterMembers(t.rows, Listed(household, onlyActive), sorted[i]);
    }
    forall i, j | 0 <= i < j < |sorted| ensures sorted[i].start >= sorted[j].start {
      assert StartOf(sorted[i]) >= StartOf(sorted[j]);
    }
    sorted
  }

  /** `getGoals`: the listed goals, each with its progress. */
  function GetGoals(owned: bool, t: GoalTable, household: int, onlyActive: bool,
                    totalsFor: Goal -> Result<(real, real), int>, today: int): (r: Result<seq<GoalView>, int>)
    ensures r.Err? <==> !owned
    ensures r.Err? ==> r.error == 404
    ensures r.Ok? ==>
              |r.value| == |ListedGoals(t, household, onlyActive)|
              && forall i :: 0 <= i < |r.value| ==> r.value[i] == ViewOf(ListedGoals(t, household, onlyActive)[i], totalsFor, today)
  {
    if !owned then Err(404)
    else
      var gs := ListedGoals(t, household, onlyActive);
      Ok(seq(|gs|, i requires 0 <= i < |gs| => ViewOf(gs[i], totalsFor, today)))
  }

  /** A goal just created shows up in its household's listing, whether or
      not the listing is limited to active goals. */
  lemma CreatedGoalListed(t: GoalTable, household: int, input: GoalInput, onlyActive: bool)
    ensures var r := CreateGoal(true, t, household, input);
            r.Ok? && r.value.0.rows[|t.rows|] in ListedGoals(r.value.0, household, onlyActive)
  {
    var (t', g) := CreateGoal(true, t, household, input).value;
    var stored := t'.rows[|t.rows|];
    assert Listed(household, onlyActive)(stored);
    FilterMembers(t'.rows, Listed(household, onlyActive), stored);
    assert stored in multiset(Filter(t'.rows, Listed(household, onlyActive)));
    assert stored in multiset(ListedGoals(t', household, onlyActive));
  }
}

=== FILE: grouping.dfy ===
/** Group-and-sum, the pattern every service writes as
      `rows.forEach(r => { if (!acc[r.key]) acc[r.key] = 0; acc[r.key] += r.amount })`
    followed by `Object.values(acc)`: one entry per distinct key, in order of
    first appearance, holding the sum of that key's amounts. */
module Grouping {
  import opened Common

  datatype Row<K> = Row(key: K, amount: real)

  function AmountOf<K>(r: Row<K>): real { r.amount }

  function KeysOf<K>(rows: seq<Row<K>>): (ks: seq<K>)
    ensures |ks| == |rows|
    ensures forall i :: 0 <= i < |rows| ==> ks[i] == rows[i].key
  {
    if |rows| == 0 then [] else KeysOf(rows[..|rows| - 1]) + [rows[|rows| - 1].key]
  }

  /** Keys in order of first appearance, each kept once. */
  function Dedup<K(==)>(ks: seq<K>): (r: seq<K>)
    ensures forall i, j :: 0 <= i < j < |r| ==> r[i] != r[j]
    ensures forall i :: 0 <= i < |r| ==> r[i] in ks
    ensures forall i :: 0 <= i < |ks| ==> ks[i] in r
    ensures |r| <= |ks|
  {
    if |ks| == 0 then []
    else
      var p := Dedup(ks[..|ks| - 1]);
      var k := ks[|ks| - 1];
      assert forall i :: 0 <= i < |ks| - 1 ==> ks[i] == ks[..|ks| - 1][i];
      if k in p then p else p + [k]
  }

  /** Sum of the amounts of the rows whose key is `k`. */
  function SumFor<K(==)>(rows: seq<Row<K>>, k: K): real
  {
    if |rows| == 0 then 0.0
    else SumFor(rows[..|rows| - 1], k) + (if rows[|rows| - 1].key == k then rows[|rows| - 1].amount else 0.0)
  }

  /** One entry per key of `ks`, holding that key's sum over `rows`. */
  function Entries<K(==)>(ks: seq<K>, rows: seq<Row<K>>): (r: seq<Row<K>>)
    ensures |r| == |ks|
    ensures forall i :: 0 <= i < |ks| ==> r[i] == Row(ks[i], SumFor(rows, ks[i]))
  {
    if |ks| == 0 then []
    else Entries(ks[..|ks| - 1], rows) + [Row(ks[|ks| - 1], SumFor(rows, ks[|ks| - 1]))]
  }

  /** The grouped totals: distinct keys, exactly the keys that occur, each
      carrying the sum of its rows. */
  function GroupTotals<K(==)>(rows: seq<Row<K>>): (r: seq<Row<K>>)
    ensures forall i, j :: 0 <= i < j < |r| ==> r[i].key != r[j].key
    ensures forall i :: 0 <= i < |r| ==> r[i].amount == SumFor(rows, r[i].key)
    ensures forall i :: 0 <= i < |r| ==> r[i].key in KeysOf(rows)
    ensures forall j :: 0 <= j < |rows| ==> rows[j].key in KeysOf(r)
    ensures |r| <= |rows|
  {
    var d := Dedup(KeysOf(rows));
    var r := Entries(d, rows);
    assert KeysOf(r) == d;
    r
  }

  /** A key that occurs in no row sums to zero. */
  lemma {:induction false} SumForAbsent<K>(rows: seq<Row<K>>, k: K)
    requires forall j :: 0 <= j < |rows| ==> rows[j].key != k
    ensures SumFor(rows, k) == 0.0
    decreases |rows|
  {
    if |rows| > 0 {
      SumForAbsent(rows[..|rows| - 1], k);
    }
  }

  /** Sums of non-negative amounts are non-negative. */
  lemma {:induction false} SumForNonNegative<K>(rows: seq<Row<K>>, k: K)
    requires forall j :: 0 <= j < |rows| ==> rows[j].amount >= 0.0
    ensures SumFor(rows, k) >= 0.0
    decreases |rows|
  {
    if |rows| > 0 {
      SumForNonNegative(rows[..|rows| - 1], k);
    }
  }

  /** Appending one row to the input adds its amount to the total of a set
      of distinct keys exactly when its key is among them. */
  lemma {:induction false} EntriesAppendRow<K>(ks: seq<K>, rows: seq<Row<K>>)
    requires forall i, j :: 0 <= i < j < |ks| ==> ks[i] != ks[j]
    requires |rows| > 0
    ensures SumBy(Entries(ks, rows), AmountOf)
         == SumBy(Entries(ks, rows[..|rows| - 1]), AmountOf)
            + (if rows[|rows| - 1].key in ks then rows[|rows| - 1].amount else 0.0)
    decreases |ks|
  {
    if |ks| > 0 {
      var row := rows[|rows| - 1];
      var p := ks[..|ks| - 1];
      var k := ks[|ks| - 1];
      EntriesAppendRow(p, rows);
      if row.key == k {
        forall i | 0 <= i < |p| ensures p[i] != row.key {
          assert p[i] == ks[i];
        }
      }
    }
  }

  /** Partition invariant: the grouped totals add up to the sum of all rows. */
  lemma GroupTotalsPartition<K>(rows: seq<Row<K>>)
    ensures SumBy(GroupTotals(rows), AmountOf) == SumBy(rows, AmountOf)
  {
    EntriesPartition(rows);
  }

  lemma {:induction false} EntriesPartition<K>(rows: seq<Row<K>>)
    ensures SumBy(Entries(Dedup(KeysOf(rows)), rows), AmountOf) == SumBy(rows, AmountOf)
    decreases |rows|
  {
    if |rows| > 0 {
      var prev := rows[..|rows| - 1];
      EntriesPartition(prev);
      PartitionStep(rows);
    } else {
      assert KeysOf(rows) == [];
    }
  }

  /** One step of the partition induction: the last row's amount lands in
      the entry of its key, whether that key is old or new. */
  lemma PartitionStep<K>(rows: seq<Row<K>>)
    requires |rows| > 0
    ensures SumBy(Entries(Dedup(KeysOf(rows)), rows), AmountOf)
         == SumBy(Entries(Dedup(KeysOf(rows[..|rows| - 1])), rows[..|rows| - 1]), AmountOf)
            + rows[|rows| - 1].amount
  {
    var row := rows[|rows| - 1];
    var d := Dedup(KeysOf(rows[..|rows| - 1]));
    DedupStep(rows);
    EntriesAppendRow(d, rows);
    if row.key !in d {
      EntriesNewKey(d, rows);
    }
  }

  lemma DedupStep<K>(rows: seq<Row<K>>)
    requires |rows| > 0
    ensures var d := Dedup(KeysOf(rows[..|rows| - 1]));
            Dedup(KeysOf(rows)) == if rows[|rows| - 1].key in d then d else d + [rows[|rows| - 1].key]
  {
    assert KeysOf(rows)[..|rows| - 1] == KeysOf(rows[..|rows| - 1]);
  }

  /** A key seen for the first time in the last row contributes exactly
      that row's amount. */
  lemma EntriesNewKey<K>(d: seq<K>, rows: seq<Row<K>>)
    requires |rows| > 0
    requires d == Dedup(KeysOf(rows[..|rows| - 1]))
    requires rows[|rows| - 1].key !in d
    ensures SumBy(Entries(d + [rows[|rows| - 1].key], rows), AmountOf)
         == SumBy(Entries(d, rows), AmountOf) + rows[|rows| - 1].amount
  {
    var prev := rows[..|rows| - 1];
    var k := rows[|rows| - 1].key;
    var d' := d + [k];
    assert d'[..|d'| - 1] == d;
    forall j | 0 <= j < |prev| ensures prev[j].key != k {
      assert KeysOf(prev)[j] in d;
    }
    SumForAbsent(prev, k);
  }

  /** The integer keys below `n` that occur, ascending: the order in which
      `Object.keys` lists the integer keys of an accumulator object. */
  function KeysBelow(rows: seq<Row<int>>, n: nat): (ks: seq<int>)
    ensures forall i, j :: 0 <= i < j < |ks| ==> ks[i] < ks[j]
    ensures forall i :: 0 <= i < |ks| ==> 0 <= ks[i] < n && ks[i] in KeysOf(rows)
    ensures forall k :: 0 <= k < n && k in KeysOf(rows) ==> k in ks
  {
    if n == 0 then []
    else KeysBelow(rows, n - 1) + (if n - 1 in KeysOf(rows) then [n - 1] else [])
  }

  /** Entries over a fixed list of distinct keys that covers every row
      account for the whole input, even when some keys have no rows. */
  lemma {:induction false} EntriesCover<K>(ks: seq<K>, rows: seq<Row<K>>)
    requires forall i, j :: 0 <= i < j < |ks| ==> ks[i] != ks[j]
    requires forall j :: 0 <= j < |rows| ==> rows[j].key in ks
    ensures SumBy(Entries(ks, rows), AmountOf) == SumBy(rows, AmountOf)
    decreases |rows|
  {
    if |rows| == 0 {
      EntriesOfNothing(ks, rows);
    } else {
      EntriesCover(ks, rows[..|rows| - 1]);
      EntriesAppendRow(ks, rows);
    }
  }

  lemma {:induction false} EntriesOfNothing<K>(ks: seq<K>, rows: seq<Row<K>>)
    requires |rows| == 0
    ensures SumBy(Entries(ks, rows), AmountOf) == 0.0
    decreases |ks|
  {
    if |ks| > 0 {
      EntriesOfNothing(ks[..|ks| - 1], rows);
    }
  }

  /** A strict upper bound of the keys. */
  function KeyBound(rows: seq<Row<int>>): (n: nat)
    ensures forall j :: 0 <= j < |rows| ==> rows[j].key < n
  {
    if |rows| == 0 then 0
    else
      var p := KeyBound(rows[..|rows| - 1]);
      var k := rows[|rows| - 1].key;
      if k >= p then k + 1 else p
  }

  function IsNegative(k: int): bool { k < 0 }

  /** The order in which `Object.values` lists an accumulator keyed by
      integers: the array-index keys ascending, then any other keys in
      order of first appearance. */
  function IntKeyOrder(rows: seq<Row<int>>): (ks: seq<int>)
    ensures forall i, j :: 0 <= i < j < |ks| ==> ks[i] != ks[j]
    ensures forall j :: 0 <= j < |rows| ==> rows[j].key in ks
    ensures forall i :: 0 <= i < |ks| ==> ks[i] in KeysOf(rows)
  {
    var below := KeysBelow(rows, KeyBound(rows));
    var negative := Dedup(Filter(KeysOf(rows), IsNegative));
    forall j | 0 <= j < |rows| ensures rows[j].key in below + negative {
      if rows[j].key >= 0 {
        assert KeysOf(rows)[j] == rows[j].key;
      } else {
        assert KeysOf(rows)[j] == rows[j].key;
        assert rows[j].key in Filter(KeysOf(rows), IsNegative);
      }
    }
    below + negative
  }

  /** The order in which `Object.values` lists an accumulator keyed by
      non-numeric strings: order of first appearance. */
  function FirstSeenOrder<K(==)>(rows: seq<Row<K>>): (ks: seq<K>)
    ensures forall i, j :: 0 <= i < j < |ks| ==> ks[i] != ks[j]
    ensures forall j :: 0 <= j < |rows| ==> rows[j].key in ks
    ensures forall i :: 0 <= i < |ks| ==> ks[i] in KeysOf(rows)
  {
    var ks := Dedup(KeysOf(rows));
    assert forall j :: 0 <= j < |rows| ==> KeysOf(rows)[j] == rows[j].key;
    ks
  }

  /** Dedup keeps a list that already has no repeats. */
  lemma {:induction false} DedupOfDistinct<K>(ks: seq<K>)
    requires forall i, j :: 0 <= i < j < |ks| ==> ks[i] != ks[j]
    ensures Dedup(ks) == ks
    decreases |ks|
  {
    if |ks| > 0 {
      var init := ks[..|ks| - 1];
      DedupOfDistinct(init);
      assert ks[|ks| - 1] !in init;
      assert ks == init + [ks[|ks| - 1]];
    }
  }
}

=== FILE: insights.dfy ===
/** Consumption pattern analysis over cumulative meter readings: the
    per-device conversion of counter readings into interval deltas, the
    peak-hour, weekday and top-device aggregates, the spike filter, the
    threshold recommendations built on them, and the comparison of two
    periods. */
module Insights {
  import opened Common
  import opened Grouping

  // ---- counter readings to interval deltas ----

  /** One valid reading of a device's cumulative energy counter, ordered
      by device and then time; `hour` and `weekday` are the reading's local
      `getHours()` and `getDay()`. */
  datatype Reading = Reading(device: int, kwh: real, hour: int, weekday: int)

  /** The energy used by a device between two consecutive readings. */
  datatype Usage = Usage(device: int, kwh: real, hour: int, weekday: int)

  /** The upper bound that keeps implausible jumps out. */
  const MaxDelta: real := 10.0

  /** A delta counts only when the counter went forward by less than the
      plausibility bound. */
  predicate Plausible(delta: real)
  {
    0.0 < delta < MaxDelta
  }

  /** The counter value of the latest reading of device `d` in `rs`. */
  function PrevValue(rs: seq<Reading>, d: int): (r: Option<real>)
    ensures r.Some? <==> exists j :: 0 <= j < |rs| && rs[j].device == d
    ensures r.Some? ==>
              exists j :: 0 <= j < |rs| && rs[j].device == d && rs[j].kwh == r.value
                          && forall k :: j < k < |rs| ==> rs[k].device != d
  {
    if |rs| == 0 then None
    else if rs[|rs| - 1].device == d then Some(rs[|rs| - 1].kwh)
    else
      var p := PrevValue(rs[..|rs| - 1], d);
      assert forall j :: 0 <= j < |rs| - 1 ==> rs[..|rs| - 1][j] == rs[j];
      p
  }

  /** The accepted deltas: a reading yields one exactly when its device was
      read before and its counter moved forward plausibly since the
      device's latest earlier reading, accepted or not. */
  function DeltaSamples(rs: seq<Reading>): (out: seq<Usage>)
    ensures |out| <= |rs|
    ensures forall i :: 0 <= i < |out| ==> Plausible(out[i].kwh)
  {
    if |rs| == 0 then []
    else
      var r := rs[|rs| - 1];
      DeltaSamples(rs[..|rs| - 1])
      + match PrevValue(rs[..|rs| - 1], r.device)
        case None => []
        case Some(v) => if Plausible(r.kwh - v) then [Usage(r.device, r.kwh - v, r.hour, r.weekday)] else []
  }

  /** The `forEach` over the readings with a per-device map of the last
      counter value: the first reading only seeds the map, and every later
      reading advances it whether or not its delta is kept. */
  method DeriveDeltas(rs: seq<Reading>) returns (out: seq<Usage>)
    ensures out == DeltaSamples(rs)
  {
    var last: map<int, real> := map[];
    out := [];
    var i := 0;
    while i < |rs|
      invariant 0 <= i <= |rs|
      invariant out == DeltaSamples(rs[..i])
      invariant forall d :: PrevValue(rs[..i], d) == (if d in last then Some(last[d]) else None)
    {
      var r := rs[i];
      assert rs[..i + 1][..i] == rs[..i];
      assert rs[..i + 1][i] == r;
      if r.device in last {
        var delta := r.kwh - last[r.device];
        if 0.0 < delta && delta < MaxDelta {
          out := out + [Usage(r.device, delta, r.hour, r.weekday)];
        }
      }
      last := last[r.device := r.kwh];
      i := i + 1;
    }
    assert rs[..i] == rs;
  }

  /** A device read only once contributes nothing: readings of pairwise
      distinct devices yield no delta at all. */
  lemma {:induction false} FirstReadingOnlySeeds(rs: seq<Reading>)
    requires forall i, j :: 0 <= i < j < |rs| ==> rs[i].device != rs[j].device
    ensures DeltaSamples(rs) == []
    decreases |rs|
  {
    if |rs| > 0 {
      var p := rs[..|rs| - 1];
      FirstReadingOnlySeeds(p);
      assert PrevValue(p, rs[|rs| - 1].device).None?;
    }
  }

  /** A counter that jumps, then resets, then moves by 1 kWh: the jump and
      the reset are both dropped, and the next delta is taken from the
      post-reset value. */
  lemma CounterResetExample()
    ensures DeltaSamples([Reading(1, 5.0, 8, 1), Reading(1, 100.0, 9, 1), Reading(1, 0.5, 10, 1), Reading(1, 1.5, 11, 1)])
            == [Usage(1, 1.0, 11, 1)]
  {
    var r0 := [Reading(1, 5.0, 8, 1)];
    var r1 := r0 + [Reading(1, 100.0, 9, 1)];
    var r2 := r1 + [Reading(1, 0.5, 10, 1)];
    var rs := r2 + [Reading(1, 1.5, 11, 1)];
    assert rs == [Reading(1, 5.0, 8, 1), Reading(1, 100.0, 9, 1), Reading(1, 0.5, 10, 1), Reading(1, 1.5, 11, 1)];
    assert rs[..3] == r2 && r2[..2] == r1 && r1[..1] == r0 && r0[..0] == [];
    assert DeltaSamples(r0) == [];
    assert DeltaSamples(r1) == [];
    assert DeltaSamples(r2) == [];
    assert PrevValue(r2, 1) == Some(0.5);
  }

  // ---- aggregates ----

  /** `getHours()` and `getDay()` ranges. */
  predicate ValidClock(samples: seq<Usage>)
  {
    forall i :: 0 <= i < |samples| ==> 0 <= samples[i].hour < 24 && 0 <= samples[i].weekday < 7
  }

  function KwhOf(u: Usage): real { u.kwh }

  function HourRows(samples: seq<Usage>): (rows: seq<Row<int>>)
    ensures |rows| == |samples|
    ensures forall i :: 0 <= i < |samples| ==> rows[i] == Row(samples[i].hour, samples[i].kwh)
  {
    if |samples| == 0 then []
    else HourRows(samples[..|samples| - 1]) + [Row(samples[|samples| - 1].hour, samples[|samples| - 1].kwh)]
  }

  function WeekdayRows(samples: seq<Usage>): (rows: seq<Row<int>>)
    ensures |rows| == |samples|
    ensures forall i :: 0 <= i < |samples| ==> rows[i] == Row(samples[i].weekday, samples[i].kwh)
  {
    if |samples| == 0 then []
    else WeekdayRows(samples[..|samples| - 1]) + [Row(samples[|samples| - 1].weekday, samples[|samples| - 1].kwh)]
  }

  function DeviceRows(samples: seq<Usage>): (rows: seq<Row<int>>)
    ensures |rows| == |samples|
    ensures forall i :: 0 <= i < |samples| ==> rows[i] == Row(samples[i].device, samples[i].kwh)
  {
    if |samples| == 0 then []
    else DeviceRows(samples[..|samples| - 1]) + [Row(samples[|samples| - 1].device, samples[|samples| - 1].kwh)]
  }

  /** Re-keying the samples keeps their amounts, so every keyed view sums to
      the total consumption. */
  lemma {:induction false} RowsKeepTotal(samples: seq<Usage>)
    ensures SumBy(HourRows(samples), AmountOf) == SumBy(samples, KwhOf)
    ensures SumBy(WeekdayRows(samples), AmountOf) == SumBy(samples, KwhOf)
    ensures SumBy(DeviceRows(samples), AmountOf) == SumBy(samples, KwhOf)
    decreases |samples|
  {
    if |samples| > 0 {
      var p := samples[..|samples| - 1];
      RowsKeepTotal(p);
      assert HourRows(samples)[..|samples| - 1] == HourRows(p);
      assert WeekdayRows(samples)[..|samples| - 1] == WeekdayRows(p);
      assert DeviceRows(samples)[..|samples| - 1] == DeviceRows(p);
    }
  }

  const PeakHourCount: nat := 3
  const TopConsumerCount: nat := 5
  const SpikeCount: nat := 5

  /** Per-hour totals by ascending hour. */
  function HourTotals(samples: seq<Usage>): (r: seq<Row<int>>)
    ensures forall i :: 0 <= i < |r| ==>
              r[i].key in KeysOf(HourRows(samples)) && r[i].amount == SumFor(HourRows(samples), r[i].key)
  {
    var rows := HourRows(samples);
    Entries(KeysBelow(rows, 24), rows)
  }

  /** Every hour with readings has its total among the hourly totals. */
  lemma HourTotalsComplete(samples: seq<Usage>, h: int)
    requires ValidClock(samples)
    requires h in KeysOf(HourRows(samples))
    ensures Row(h, SumFor(HourRows(samples), h)) in HourTotals(samples)
  {
    var rows := HourRows(samples);
    var ks := KeysBelow(rows, 24);
    var r := Entries(ks, rows);
    var j :| 0 <= j < |rows| && KeysOf(rows)[j] == h;
    assert rows[j] == Row(samples[j].hour, samples[j].kwh);
    var k :| 0 <= k < |ks| && ks[k] == h;
    assert r[k] == Row(h, SumFor(rows, h));
  }

  /** The three largest hourly totals, largest first (ties keep ascending
      hour order). */
  function PeakHours(samples: seq<Usage>): (r: seq<Row<int>>)
    ensures |r| == if |HourTotals(samples)| < PeakHourCount then |HourTotals(samples)| else PeakHourCount
    ensures SortedDesc(r, AmountOf)
    ensures multiset(r) <= multiset(HourTotals(samples))
    ensures forall i :: 0 <= i < |r| ==>
              r[i].key in KeysOf(HourRows(samples)) && r[i].amount == SumFor(HourRows(samples), r[i].key)
  {
    TopK(HourTotals(samples), AmountOf, PeakHourCount)
  }

  /** An hour with readings that is left out of the peak list used no more
      energy than any listed hour. */
  lemma PeakHoursDominate(samples: seq<Usage>, h: int)
    requires ValidClock(samples)
    requires h in KeysOf(HourRows(samples)) && h !in KeysOf(PeakHours(samples))
    ensures forall i :: 0 <= i < |PeakHours(samples)| ==>
              PeakHours(samples)[i].amount >= SumFor(HourRows(samples), h)
  {
    var e := Row(h, SumFor(HourRows(samples), h));
    var p := PeakHours(samples);
    forall i | 0 <= i < |p| ensures p[i] != e {
      assert KeysOf(p)[i] == p[i].key;
    }
    HourTotalsComplete(samples, h);
    TopKDominates(HourTotals(samples), AmountOf, PeakHourCount, e);
  }

  /** Sunday to Saturday, each with its total, zero for a day without
      samples. */
  function WeekdayPatterns(samples: seq<Usage>): (r: seq<Row<int>>)
    ensures |r| == 7
    ensures forall i :: 0 <= i < 7 ==> r[i] == Row(i, SumFor(WeekdayRows(samples), i))
  {
    Entries([0, 1, 2, 3, 4, 5, 6], WeekdayRows(samples))
  }

  /** The seven weekday totals add up to the total consumption. */
  lemma WeekdayPartition(samples: seq<Usage>)
    requires ValidClock(samples)
    ensures SumBy(WeekdayPatterns(samples), AmountOf) == SumBy(samples, KwhOf)
  {
    var rows := WeekdayRows(samples);
    var days := [0, 1, 2, 3, 4, 5, 6];
    forall j | 0 <= j < |rows| ensures rows[j].key in days {
      assert rows[j] == Row(samples[j].weekday, samples[j].kwh);
    }
    EntriesCover(days, rows);
    RowsKeepTotal(samples);
  }

  /** Per-device totals, then the five largest, largest first. Devices
      enter the accumulator in ascending id order because the readings are
      ordered by device. */
  function TopConsumers(samples: seq<Usage>): (r: seq<Row<int>>)
    ensures |r| == if |GroupTotals(DeviceRows(samples))| < TopConsumerCount then |GroupTotals(DeviceRows(samples))|
                   else TopConsumerCount
    ensures SortedDesc(r, AmountOf)
    ensures multiset(r) <= multiset(GroupTotals(DeviceRows(samples)))
    ensures forall i :: 0 <= i < |r| ==> r[i] in GroupTotals(DeviceRows(samples))
  {
    TopK(GroupTotals(DeviceRows(samples)), AmountOf, TopConsumerCount)
  }

  /** A device left out of the top list used no more energy than any
      listed device. */
  lemma TopConsumersDominate(samples: seq<Usage>, e: Row<int>)
    requires e in GroupTotals(DeviceRows(samples)) && e !in TopConsumers(samples)
    ensures forall i :: 0 <= i < |TopConsumers(samples)| ==> TopConsumers(samples)[i].amount >= e.amount
  {
    TopKDominates(GroupTotals(DeviceRows(samples)), AmountOf, TopConsumerCount, e);
  }

  /** Mean delta over the samples; the source divides by their count. */
  function MeanDelta(samples: seq<Usage>): real
    requires |samples| > 0
  {
    SumBy(samples, KwhOf) / |samples| as real
  }

  function SpikeTest(mean: real): Usage -> bool
  {
    (u: Usage) => u.kwh > mean * 3.0
  }

  /** The samples above three times the mean, in input order, at most five. */
  function UnusualSpikes(samples: seq<Usage>): (r: seq<Usage>)
    requires |samples| > 0
    ensures |r| <= SpikeCount
    ensures |r| == if |Filter(samples, SpikeTest(MeanDelta(samples)))| < SpikeCount
                   then |Filter(samples, SpikeTest(MeanDelta(samples)))| else SpikeCount
    ensures forall i :: 0 <= i < |r| ==> r[i] in samples && r[i].kwh > 3.0 * MeanDelta(samples)
    ensures r <= Filter(samples, SpikeTest(MeanDelta(samples)))
  {
    Take(Filter(samples, SpikeTest(MeanDelta(samples))), SpikeCount)
  }

  /** There is a spike exactly when some sample exceeds three times the
      mean. */
  lemma SpikesIff(samples: seq<Usage>)
    requires |samples| > 0
    ensures |UnusualSpikes(samples)| > 0 <==> exists i :: 0 <= i < |samples| && samples[i].kwh > 3.0 * MeanDelta(samples)
  {
    var f := Filter(samples, SpikeTest(MeanDelta(samples)));
    if i :| 0 <= i < |samples| && samples[i].kwh > 3.0 * MeanDelta(samples) {
      assert SpikeTest(MeanDelta(samples))(samples[i]);
      assert samples[i] in f;
    }
    if |UnusualSpikes(samples)| > 0 {
      assert f[0] in samples;
      var j :| 0 <= j < |samples| && samples[j] == f[0];
    }
  }

  /** `totalConsumption / danaUnazad`: the average that multiplied back by
      the day count gives the total; a zero day count gives a non-finite
      number, `None` here. */
  function DailyAverage(total: real, days: int): (a: Option<real>)
    ensures a.Some? <==> days != 0
    ensures a.Some? ==> a.value * days as real == total
  {
    if days == 0 then None
    else
      DivideBack(total, days as real);
      Some(total / days as real)
  }

  datatype Summary = Summary(total: real, averageDaily: Option<real>, measurementCount: nat, deviceCount: nat)

  datatype Patterns = Patterns(peakHours: seq<Row<int>>, weekdays: seq<Row<int>>, topConsumers: seq<Row<int>>,
                               spikes: seq<Usage>, summary: Summary)

  /** No readings, readings without an accepted delta (both return `null`
      pattern fields), or the full analysis. */
  datatype Analysis = NoReadings | NoPatterns | Analyzed(patterns: Patterns)

  const NotFound: int := 404

  function SummaryOf(samples: seq<Usage>, days: int): (s: Summary)
    ensures s.total == SumBy(samples, KwhOf)
    ensures s.averageDaily == DailyAverage(s.total, days)
    ensures s.measurementCount == |samples|
    ensures s.deviceCount == |GroupTotals(DeviceRows(samples))|
  {
    var total := SumBy(samples, KwhOf);
    Summary(total, DailyAverage(total, days), |samples|, |GroupTotals(DeviceRows(samples))|)
  }

  lemma DivideBack(x: real, d: real)
    requires d != 0.0
    ensures x / d * d == x
  {
  }

  /** `analyzeConsumptionPatterns`: 404 unless the household belongs to the
      user; then the analysis of the readings of the period. */
  function AnalyzeConsumptionPatterns(owned: bool, readings: seq<Reading>, days: int): (r: Result<Analysis, int>)
    ensures r.Err? <==> !owned
    ensures r.Err? ==> r.error == NotFound
    ensures r.Ok? && r.value == NoReadings <==> owned && |readings| == 0
    ensures r.Ok? && r.value == NoPatterns <==> owned && |readings| > 0 && |DeltaSamples(readings)| == 0
    ensures r.Ok? && r.value.Analyzed? ==>
              var s := DeltaSamples(readings);
              var p := r.value.patterns;
              |s| > 0
              && p.peakHours == PeakHours(s) && p.weekdays == WeekdayPatterns(s)
              && p.topConsumers == TopConsumers(s) && p.spikes == UnusualSpikes(s)
              && p.summary == SummaryOf(s, days)
  {
    if !owned then Err(NotFound)
    else if |readings| == 0 then Ok(NoReadings)
    else
      var s := DeltaSamples(readings);
      if |s| == 0 then Ok(NoPatterns)
      else Ok(Analyzed(Patterns(PeakHours(s), WeekdayPatterns(s), TopConsumers(s), UnusualSpikes(s), SummaryOf(s, days))))
  }

  // ---- threshold recommendations ----

  datatype Priority = HighPriority | MediumPriority | LowPriority

  datatype Tip =
    | PeakHourTip(hour: int)
    | TopDeviceTip(device: int)
    | SpikeTip(count: nat)
    | WeekdayBalanceTip
    | StandbyTip

  datatype Recommendation = Recommendation(tip: Tip, priority: Priority)

  /** The position of a tip's rule in `generateRecommendations`: peak hour,
      top device, spikes, weekday balance, standby. */
  function RuleRank(t: Tip): nat
  {
    match t
    case PeakHourTip(_) => 0
    case TopDeviceTip(_) => 1
    case SpikeTip(_) => 2
    case WeekdayBalanceTip => 3
    case StandbyTip => 4
  }

  /** Each tip comes from a later rule than the tips before it. */
  predicate InRuleOrder(r: seq<Recommendation>)
  {
    forall i, j :: 0 <= i < j < |r| ==> RuleRank(r[i].tip) < RuleRank(r[j].tip)
  }

  const PeakHourLimit: real := 1.0
  const TopDeviceLimit: real := 10.0
  const TotalLimit: real := 50.0

  /** The busiest weekday used more than twice the quietest, compared on
      the stably sorted copy's first and last entries. */
  predicate Unbalanced(weekdays: seq<Row<int>>)
  {
    |weekdays| > 0
    && SortDesc(weekdays, AmountOf)[0].amount > SortDesc(weekdays, AmountOf)[|weekdays| - 1].amount * 2.0
  }

  /** The imbalance test holds exactly when some day used more than twice
      what some other day used. */
  lemma UnbalancedIff(weekdays: seq<Row<int>>)
    requires |weekdays| > 0
    ensures Unbalanced(weekdays) <==>
              exists i, j :: 0 <= i < |weekdays| && 0 <= j < |weekdays| && weekdays[i].amount > weekdays[j].amount * 2.0
  {
    var sorted := SortDesc(weekdays, AmountOf);
    SortDescMembers(weekdays, AmountOf);
    assert sorted[0] in weekdays;
    assert sorted[|weekdays| - 1] in weekdays;
    if i, j :| 0 <= i < |weekdays| && 0 <= j < |weekdays| && weekdays[i].amount > weekdays[j].amount * 2.0 {
      SortDescHeadIsMax(weekdays, AmountOf, weekdays[i]);
      SortDescLastIsMin(weekdays, AmountOf, weekdays[j]);
    }
  }

  function PeakRule(p: Patterns): (r: seq<Recommendation>)
    ensures |r| <= 1
    ensures |r| == 1 <==> |p.peakHours| > 0 && p.peakHours[0].amount > PeakHourLimit
    ensures |r| == 1 ==> r[0] == Recommendation(PeakHourTip(p.peakHours[0].key), HighPriority)
  {
    if |p.peakHours| > 0 && p.peakHours[0].amount > PeakHourLimit
    then [Recommendation(PeakHourTip(p.peakHours[0].key), HighPriority)] else []
  }

  function TopDeviceRule(p: Patterns): (r: seq<Recommendation>)
    ensures |r| <= 1
    ensures |r| == 1 <==> |p.topConsumers| > 0 && p.topConsumers[0].amount > TopDeviceLimit
    ensures |r| == 1 ==> r[0] == Recommendation(TopDeviceTip(p.topConsumers[0].key), HighPriority)
  {
    if |p.topConsumers| > 0 && p.topConsumers[0].amount > TopDeviceLimit
    then [Recommendation(TopDeviceTip(p.topConsumers[0].key), HighPriority)] else []
  }

  function SpikeRule(p: Patterns): (r: seq<Recommendation>)
    ensures |r| <= 1
    ensures |r| == 1 <==> |p.spikes| > 0
    ensures |r| == 1 ==> r[0] == Recommendation(SpikeTip(|p.spikes|), MediumPriority)
  {
    if |p.spikes| > 0 then [Recommendation(SpikeTip(|p.spikes|), MediumPriority)] else []
  }

  function WeekdayRule(p: Patterns): (r: seq<Recommendation>)
    ensures |r| <= 1
    ensures |r| == 1 <==> Unbalanced(p.weekdays)
    ensures |r| == 1 ==> r[0] == Recommendation(WeekdayBalanceTip, MediumPriority)
  {
    if Unbalanced(p.weekdays) then [Recommendation(WeekdayBalanceTip, MediumPriority)] else []
  }

  function StandbyRule(p: Patterns): (r: seq<Recommendation>)
    ensures |r| <= 1
    ensures |r| == 1 <==> p.summary.total > TotalLimit
    ensures |r| == 1 ==> r[0] == Recommendation(StandbyTip, LowPriority)
  {
    if p.summary.total > TotalLimit then [Recommendation(StandbyTip, LowPriority)] else []
  }

  /** `generateRecommendations`: nothing without patterns; otherwise the
      five rules in their fixed order, each present only when its condition
      holds. */
  function GenerateRecommendations(a: Result<Analysis, int>): (r: Result<seq<Recommendation>, int>)
    ensures r.Err? <==> a.Err?
    ensures r.Err? ==> r.error == a.error
    ensures a.Ok? && !a.value.Analyzed? ==> r == Ok([])
    ensures r.Ok? ==> |r.value| <= 5
    ensures r.Ok? ==> forall i, j :: 0 <= i < j < |r.value| ==> RuleRank(r.value[i].tip) < RuleRank(r.value[j].tip)
  {
    if a.Err? then Err(a.error)
    else if !a.value.Analyzed? then Ok([])
    else
      var p := a.value.patterns;
      RanksInOrder(PeakRule(p), TopDeviceRule(p), SpikeRule(p), WeekdayRule(p), StandbyRule(p));
      Ok(PeakRule(p) + TopDeviceRule(p) + SpikeRule(p) + WeekdayRule(p) + StandbyRule(p))
  }

  /** At most one tip per rule, the rules taken in order, gives tips in
      rule order. */
  lemma RanksInOrder(a1: seq<Recommendation>, a2: seq<Recommendation>, a3: seq<Recommendation>,
                     a4: seq<Recommendation>, a5: seq<Recommendation>)
    requires |a1| <= 1 && (|a1| == 1 ==> RuleRank(a1[0].tip) == 0)
    requires |a2| <= 1 && (|a2| == 1 ==> RuleRank(a2[0].tip) == 1)
    requires |a3| <= 1 && (|a3| == 1 ==> RuleRank(a3[0].tip) == 2)
    requires |a4| <= 1 && (|a4| == 1 ==> RuleRank(a4[0].tip) == 3)
    requires |a5| <= 1 && (|a5| == 1 ==> RuleRank(a5[0].tip) == 4)
    ensures InRuleOrder(a1 + a2 + a3 + a4 + a5)
  {
    AppendLaterRule([], a1, 0);
    assert [] + a1 == a1;
    AppendLaterRule(a1, a2, 1);
    AppendLaterRule(a1 + a2, a3, 2);
    AppendLaterRule(a1 + a2 + a3, a4, 3);
    AppendLaterRule(a1 + a2 + a3 + a4, a5, 4);
  }

  /** Appending at most one tip of rule `k` after tips of earlier rules
      keeps the rule order. */
  lemma AppendLaterRule(r: seq<Recommendation>, a: seq<Recommendation>, k: nat)
    requires InRuleOrder(r) && forall i :: 0 <= i < |r| ==> RuleRank(r[i].tip) < k
    requires |a| <= 1 && (|a| == 1 ==> RuleRank(a[0].tip) == k)
    ensures InRuleOrder(r + a)
    ensures forall i :: 0 <= i < |r + a| ==> RuleRank((r + a)[i].tip) <= k
  {
  }

  /** A tip appears exactly when its rule fires. */
  lemma RecommendationIff(a: Result<Analysis, int>, p: Patterns)
    requires a == Ok(Analyzed(p))
    ensures var r := GenerateRecommendations(a).value;
            Recommendation(WeekdayBalanceTip, MediumPriority) in r <==> Unbalanced(p.weekdays)
    ensures var r := GenerateRecommendations(a).value;
            Recommendation(StandbyTip, LowPriority) in r <==> p.summary.total > TotalLimit
    ensures var r := GenerateRecommendations(a).value;
            (exists i :: 0 <= i < |r| && r[i].tip.SpikeTip?) <==> |p.spikes| > 0
    ensures var r := GenerateRecommendations(a).value;
            (exists i :: 0 <= i < |r| && r[i].tip.PeakHourTip?) <==> |p.peakHours| > 0 && p.peakHours[0].amount > PeakHourLimit
    ensures var r := GenerateRecommendations(a).value;
            (exists i :: 0 <= i < |r| && r[i].tip.TopDeviceTip?) <==> |p.topConsumers| > 0 && p.topConsumers[0].amount > TopDeviceLimit
  {
    var a1, a2, a3, a4, a5 := PeakRule(p), TopDeviceRule(p), SpikeRule(p), WeekdayRule(p), StandbyRule(p);
    assert GenerateRecommendations(a).value == a1 + a2 + a3 + a4 + a5;
    RulesConcat(a1, a2, a3, a4, a5);
  }

  lemma RulesConcat(a1: seq<Recommendation>, a2: seq<Recommendation>, a3: seq<Recommendation>,
                    a4: seq<Recommendation>, a5: seq<Recommendation>)
    requires forall i :: 0 <= i < |a1| ==> a1[i].tip.PeakHourTip?
    requires forall i :: 0 <= i < |a2| ==> a2[i].tip.TopDeviceTip?
    requires forall i :: 0 <= i < |a3| ==> a3[i].tip.SpikeTip?
    requires forall i :: 0 <= i < |a4| ==> a4[i] == Recommendation(WeekdayBalanceTip, MediumPriority)
    requires forall i :: 0 <= i < |a5| ==> a5[i] == Recommendation(StandbyTip, LowPriority)
    ensures var r := a1 + a2 + a3 + a4 + a5;
            (Recommendation(WeekdayBalanceTip, MediumPriority) in r <==> |a4| > 0)
            && (Recommendation(StandbyTip, LowPriority) in r <==> |a5| > 0)
            && ((exists i :: 0 <= i < |r| && r[i].tip.SpikeTip?) <==> |a3| > 0)
            && ((exists i :: 0 <= i < |r| && r[i].tip.PeakHourTip?) <==> |a1| > 0)
            && ((exists i :: 0 <= i < |r| && r[i].tip.TopDeviceTip?) <==> |a2| > 0)
  {
    var r := a1 + a2 + a3 + a4 + a5;
    if |a1| > 0 { assert r[0] == a1[0]; }
    if |a2| > 0 { assert r[|a1|] == a2[0]; }
    if |a3| > 0 { assert r[|a1| + |a2|] == a3[0]; }
    if |a4| > 0 { assert r[|a1| + |a2| + |a3|] == a4[0]; }
    if |a5| > 0 { assert r[|a1| + |a2| + |a3| + |a4|] == a5[0]; }
    forall i | 0 <= i < |r|
      ensures r[i] in a1 || r[i] in a2 || r[i] in a3 || r[i] in a4 || r[i] in a5
    {
    }
  }

  // ---- period comparison ----

  datatype Direction = Up | Down | Flat

  datatype Change = Change(percentage: real, trend: Direction, absolute: real)

  datatype Comparison = Comparison(currentTotal: real, previousTotal: real, change: Change)

  const DeadZone: real := 5.0

  function PeriodTotal(rows: seq<Option<real>>): real
  {
    SumBy(rows, OrZero)
  }

  /** The percentage is taken only against a positive previous total, and
      the trend leaves a ±5 % dead zone. */
  function ChangeOf(current: real, previous: real): (c: Change)
    ensures c.absolute == current - previous
    ensures previous <= 0.0 ==> c.percentage == 0.0 && c.trend == Flat
    ensures previous > 0.0 ==> c.percentage * previous == (current - previous) * 100.0
    ensures c.trend == Up <==> previous > 0.0 && current * 100.0 > previous * 105.0
    ensures c.trend == Down <==> previous > 0.0 && current * 100.0 < previous * 95.0
  {
    if previous > 0.0 then
      var pct := (current - previous) / previous * 100.0;
      PercentScaled(current, previous);
      Change(pct, if pct > DeadZone then Up else if pct < -DeadZone then Down else Flat, current - previous)
    else Change(0.0, Flat, current - previous)
  }

  lemma PercentScaled(current: real, previous: real)
    requires previous > 0.0
    ensures (current - previous) / previous * 100.0 * previous == (current - previous) * 100.0
    ensures (current - previous) / previous * 100.0 > DeadZone <==> current * 100.0 > previous * 105.0
    ensures (current - previous) / previous * 100.0 < -DeadZone <==> current * 100.0 < previous * 95.0
  {
    var q := (current - previous) / previous;
    assert q * previous == current - previous;
  }

  /** `compareWithPreviousPeriod`: 404 unless the household belongs to the
      user; otherwise both totals and the change between them. */
  function CompareWithPreviousPeriod(owned: bool, current: seq<Option<real>>, previous: seq<Option<real>>): (r: Result<Comparison, int>)
    ensures r.Err? <==> !owned
    ensures r.Err? ==> r.error == NotFound
    ensures r.Ok? ==> r.value.currentTotal == PeriodTotal(current)
                      && r.value.previousTotal == PeriodTotal(previous)
                      && r.value.change == ChangeOf(PeriodTotal(current), PeriodTotal(previous))
  {
    if !owned then Err(NotFound)
    else
      var cur := PeriodTotal(current);
      var prev := PeriodTotal(previous);
      Ok(Comparison(cur, prev, ChangeOf(cur, prev)))
  }

  /** 150 against 100 is +50 % and rising, 75 against 100 is −25 % and
      falling, and anything against 0 is 0 % and flat. */
  lemma ComparisonExamples()
    ensures ChangeOf(150.0, 100.0) == Change(50.0, Up, 50.0)
    ensures ChangeOf(75.0, 100.0) == Change(-25.0, Down, -25.0)
    ensures ChangeOf(150.0, 0.0) == Change(0.0, Flat, 150.0)
    ensures ChangeOf(103.0, 100.0).trend == Flat
  {
  }
}

=== FILE: measurements.dfy ===
/** Storing and querying counter readings, and collecting a reading from
    a device's plug or from every plug of a household. */
module Measurements {
  import opened Common
  import opened Records
  import opened Shelly

  /** The default measurement kind. */
  const Automatic: string := "automatsko"

  /** The default row limit of the per-device listing. */
  const DefaultLimit: nat := 100

  /** `saveMeasurement`: inserts a valid row under the next id and echoes
      it back. */
  function SaveMeasurement(t: MeasurementTable, device: int, plug: int, kwh: real, time: int, kind: string)
    : (r: (MeasurementTable, Measurement))
    ensures r.1.valid
    ensures r.1.device == device && r.1.plug == plug && r.1.kwh == kwh && r.1.time == time && r.1.kind == kind
    ensures r.0.rows == t.rows + [r.1]
    ensures IdsBelowCounter(t) ==> IdsBelowCounter(r.0) && forall i :: 0 <= i < |t.rows| ==> t.rows[i].id != r.1.id
  {
    var m := Measurement(t.nextId, device, plug, kwh, time, kind, true);
    (MeasurementTable(t.rows + [m], t.nextId + 1), m)
  }

  /** The row filter of `getMeasurementsByDevice`: the device's valid rows
      inside the optional inclusive bounds. */
  function Listed(device: int, from: Option<int>, to: Option<int>): Measurement -> bool
  {
    (m: Measurement) =>
      m.device == device && m.valid
      && (from.None? || from.value <= m.time)
      && (to.None? || m.time <= to.value)
  }

  function TimeOf(m: Measurement): real
  {
    m.time as real
  }

  /** `getMeasurementsByDevice`: newest first, at most `limit` rows. */
  function GetMeasurementsByDevice(rows: seq<Measurement>, device: int, from: Option<int>, to: Option<int>, limit: nat)
    : (r: seq<Measurement>)
    ensures |r| == (if limit < CountWhere(rows, Listed(device, from, to)) then limit
                    else CountWhere(rows, Listed(device, from, to)))
    ensures forall i :: 0 <= i < |r| ==> r[i] in rows && Listed(device, from, to)(r[i])
    ensures forall i, j :: 0 <= i < j < |r| ==> r[i].time >= r[j].time
    ensures multiset(r) <= multiset(Filter(rows, Listed(device, from, to)))
  {
    var sel := Filter(rows, Listed(device, from, to));
    var r := TopK(sel, TimeOf, limit);
    assert SortedDesc(r, TimeOf);
    assert forall i, j :: 0 <= i < j < |r| ==> TimeOf(r[i]) >= TimeOf(r[j]);
    r
  }

  /** A listed row left out by the limit is no newer than any row returned. */
  lemma ListingKeepsNewest(rows: seq<Measurement>, device: int, from: Option<int>, to: Option<int>, limit: nat, m: Measurement)
    requires m in rows && Listed(device, from, to)(m)
    requires m !in GetMeasurementsByDevice(rows, device, from, to, limit)
    ensures forall i :: 0 <= i < |GetMeasurementsByDevice(rows, device, from, to, limit)| ==>
              GetMeasurementsByDevice(rows, device, from, to, limit)[i].time >= m.time
  {
    var sel := Filter(rows, Listed(device, from, to));
    FilterMembers(rows, Listed(device, from, to), m);
    TopKDominates(sel, TimeOf, limit, m);
  }

  /** A saved row is listed for its device: the unbounded listing count
      grows by one for that device and stays put for every other. */
  lemma SavedIsListed(t: MeasurementTable, device: int, plug: int, kwh: real, time: int, kind: string, other: int)
    ensures var after := SaveMeasurement(t, device, plug, kwh, time, kind).0;
            CountWhere(after.rows, Listed(other, None, None))
            == CountWhere(t.rows, Listed(other, None, None)) + (if other == device then 1 else 0)
  {
    var r := SaveMeasurement(t, device, plug, kwh, time, kind);
    FilterAppend(t.rows, [r.1], Listed(other, None, None));
  }

  /** The reasons `collectDataFromDevice` fails. */
  datatype CollectError =
    | NoActivePlug          // 404
    | NoAddress             // 400
    | DeviceFailed(f: Failure)

  /** The HTTP status a failure carries; a device failure carries none. */
  function StatusOf(e: CollectError): (code: Option<int>)
    ensures code.Some? <==> !e.DeviceFailed?
    ensures code == Some(404) <==> e.NoActivePlug?
    ensures code == Some(400) <==> e.NoAddress?
  {
    match e
    case NoActivePlug => Some(404)
    case NoAddress => Some(400)
    case DeviceFailed(_) => None
  }

  function ActivePlugOf(device: int): Plug -> bool
  {
    (p: Plug) => p.device == device && p.status == Active
  }

  /** A missing or empty address is falsy. */
  predicate HasAddress(p: Plug)
  {
    p.ip.Some? && p.ip.value != ""
  }

  /** The guards and the fetch of `collectDataFromDevice`: the first active
      plug of the device must exist and have an address; the plug at that
      address answers with `net(address)`. */
  function Attempt(plugs: seq<Plug>, device: int, net: string -> Transport): (r: Result<(Plug, EnergyReading), CollectError>)
    ensures r == Err(NoActivePlug) <==> CountWhere(plugs, ActivePlugOf(device)) == 0
    ensures r == Err(NoAddress) <==>
              CountWhere(plugs, ActivePlugOf(device)) > 0 && !HasAddress(Filter(plugs, ActivePlugOf(device))[0])
    ensures r.Ok? ==> r.value.0 == Filter(plugs, ActivePlugOf(device))[0]
                      && HasAddress(r.value.0)
                      && GetCurrentEnergyConsumption(r.value.0.ip.value, net(r.value.0.ip.value)) == Ok(r.value.1)
    ensures r.Err? && r.error.DeviceFailed? ==> r.error.f.Consumption?
  {
    var rows := Filter(plugs, ActivePlugOf(device));
    if |rows| == 0 then Err(NoActivePlug)
    else
      var p := rows[0];
      if !HasAddress(p) then Err(NoAddress)
      else
        match GetCurrentEnergyConsumption(p.ip.value, net(p.ip.value))
        case Err(f) => Err(DeviceFailed(f))
        case Ok(e) => Ok((p, e))
  }

  /** The guards are decided before the plug is contacted: whatever the
      network does, a 404 or 400 stays the same. */
  lemma GuardsPrecedeNetwork(plugs: seq<Plug>, device: int, net1: string -> Transport, net2: string -> Transport)
    requires Attempt(plugs, device, net1).Err? && !Attempt(plugs, device, net1).error.DeviceFailed?
    ensures Attempt(plugs, device, net2) == Attempt(plugs, device, net1)
  {
  }

  /** The result of collecting one device: the stored row and the live
      reading. */
  datatype Collected = Collected(measurement: Measurement, reading: EnergyReading)

  /** `collectDataFromDevice`: on success exactly one automatic row with
      the reading's kWh and timestamp is stored. */
  function CollectDataFromDevice(plugs: seq<Plug>, t: MeasurementTable, device: int, net: string -> Transport)
    : (r: Result<(MeasurementTable, Collected), CollectError>)
    ensures r.Err? <==> Attempt(plugs, device, net).Err?
    ensures r.Err? ==> r.error == Attempt(plugs, device, net).error
    ensures r.Ok? ==>
              var (p, e) := Attempt(plugs, device, net).value;
              var m := r.value.1.measurement;
              r.value.0.rows == t.rows + [m]
              && m.device == device && m.plug == p.id && m.kwh == e.energyKwh && m.time == e.timestampMs
              && m.kind == Automatic && m.valid && r.value.1.reading == e
  {
    match Attempt(plugs, device, net)
    case Err(e) => Err(e)
    case Ok((p, e)) =>
      var (t', m) := SaveMeasurement(t, device, p.id, e.energyKwh, e.timestampMs, Automatic);
      Ok((t', Collected(m, e)))
  }

  /** An entry of the error list. */
  datatype ErrorEntry = ErrorEntry(device: int, error: CollectError)

  function DeviceOfError(e: ErrorEntry): int
  {
    e.device
  }

  function Fails(plugs: seq<Plug>, net: string -> Transport): int -> bool
  {
    (d: int) => Attempt(plugs, d, net).Err?
  }

  function Collects(plugs: seq<Plug>, net: string -> Transport): int -> bool
  {
    (d: int) => Attempt(plugs, d, net).Ok?
  }

  /** `e` is the error entry of device `d`: its id and the error its
      collection fails with. */
  predicate ErrorOf(plugs: seq<Plug>, net: string -> Transport, d: int, e: ErrorEntry)
  {
    Attempt(plugs, d, net).Err? && e.device == d && e.error == Attempt(plugs, d, net).error
  }

  /** `c` is what collecting device `d` returns: the stored automatic row
      of the plug's reading, and the reading itself. */
  predicate CollectedOf(plugs: seq<Plug>, net: string -> Transport, d: int, c: Collected)
  {
    Attempt(plugs, d, net).Ok?
    && var (p, e) := Attempt(plugs, d, net).value;
       c.measurement.device == d && c.measurement.plug == p.id && c.measurement.kwh == e.energyKwh
       && c.measurement.time == e.timestampMs && c.measurement.kind == Automatic && c.measurement.valid
       && c.reading == e
  }

  /** The loop of `collectDataFromAllDevices`: each device is tried in
      turn, a failure is recorded and the loop goes on. */
  function CollectEach(plugs: seq<Plug>, t: MeasurementTable, devices: seq<int>, net: string -> Transport)
    : (r: (MeasurementTable, seq<Collected>, seq<ErrorEntry>))
    ensures |r.1| + |r.2| == |devices|
    ensures |r.0.rows| == |t.rows| + |r.1|
    ensures |r.2| == CountWhere(devices, Fails(plugs, net))
    ensures forall i :: 0 <= i < |r.2| ==> r.2[i].device in devices && Fails(plugs, net)(r.2[i].device)
    ensures forall i :: 0 <= i < |r.1| ==> r.1[i].measurement.device in devices && r.1[i].measurement.valid
    ensures r.0.rows[..|t.rows|] == t.rows
    decreases |devices|
  {
    if |devices| == 0 then (t, [], [])
    else
      var rest := devices[..|devices| - 1];
      var d := devices[|devices| - 1];
      var (t1, ok, errs) := CollectEach(plugs, t, rest, net);
      assert forall i :: 0 <= i < |rest| ==> rest[i] in devices;
      match CollectDataFromDevice(plugs, t1, d, net)
      case Ok((t2, c)) => (t2, ok + [c], errs)
      case Err(e) => (t1, ok, errs + [ErrorEntry(d, e)])
  }

  /** The errors `CollectEach` records are the failing devices in device
      order, each with the error its collection fails with. */
  lemma {:induction false} CollectErrorsInOrder(plugs: seq<Plug>, t: MeasurementTable, devices: seq<int>, net: string -> Transport)
    ensures var errs := CollectEach(plugs, t, devices, net).2;
            |errs| == |Filter(devices, Fails(plugs, net))|
            && forall i :: 0 <= i < |errs| ==> ErrorOf(plugs, net, Filter(devices, Fails(plugs, net))[i], errs[i])
    decreases |devices|
  {
    if |devices| > 0 {
      var rest := devices[..|devices| - 1];
      var d := devices[|devices| - 1];
      CollectErrorsInOrder(plugs, t, rest, net);
      var r1 := CollectEach(plugs, t, rest, net);
      if Attempt(plugs, d, net).Ok? {
        assert CollectEach(plugs, t, devices, net).2 == r1.2;
        assert Filter(devices, Fails(plugs, net)) == Filter(rest, Fails(plugs, net));
      } else {
        var e := ErrorEntry(d, Attempt(plugs, d, net).error);
        assert CollectEach(plugs, t, devices, net).2 == r1.2 + [e];
        assert Filter(devices, Fails(plugs, net)) == Filter(rest, Fails(plugs, net)) + [d];
        ExtendErrors(plugs, net, Filter(rest, Fails(plugs, net)), r1.2, d, e);
      }
    }
  }

  /** The successes `CollectEach` records are the other devices in device
      order, each with its stored row and reading. */
  lemma {:induction false} CollectSuccessesInOrder(plugs: seq<Plug>, t: MeasurementTable, devices: seq<int>, net: string -> Transport)
    ensures var ok := CollectEach(plugs, t, devices, net).1;
            |ok| == |Filter(devices, Collects(plugs, net))|
            && forall i :: 0 <= i < |ok| ==> CollectedOf(plugs, net, Filter(devices, Collects(plugs, net))[i], ok[i])
    decreases |devices|
  {
    if |devices| > 0 {
      var rest := devices[..|devices| - 1];
      var d := devices[|devices| - 1];
      CollectSuccessesInOrder(plugs, t, rest, net);
      var r1 := CollectEach(plugs, t, rest, net);
      if Attempt(plugs, d, net).Ok? {
        var c := CollectDataFromDevice(plugs, r1.0, d, net).value.1;
        assert CollectEach(plugs, t, devices, net).1 == r1.1 + [c];
        assert Filter(devices, Collects(plugs, net)) == Filter(rest, Collects(plugs, net)) + [d];
        ExtendCollected(plugs, net, Filter(rest, Collects(plugs, net)), r1.1, d, c);
      } else {
        assert CollectEach(plugs, t, devices, net).1 == r1.1;
        assert Filter(devices, Collects(plugs, net)) == Filter(rest, Collects(plugs, net));
      }
    }
  }

  /** The stored rows of a list of successes, in order. */
  function RowsOf(cs: seq<Collected>): (rows: seq<Measurement>)
    ensures |rows| == |cs|
  {
    if |cs| == 0 then [] else RowsOf(cs[..|cs| - 1]) + [cs[|cs| - 1].measurement]
  }

  /** The rows `CollectEach` stores follow the earlier ones, one per
      success, in the order of the successes. */
  lemma {:induction false} CollectRowsInOrder(plugs: seq<Plug>, t: MeasurementTable, devices: seq<int>, net: string -> Transport)
    ensures var r := CollectEach(plugs, t, devices, net);
            r.0.rows == t.rows + RowsOf(r.1)
    decreases |devices|
  {
    if |devices| > 0 {
      var rest := devices[..|devices| - 1];
      CollectRowsInOrder(plugs, t, rest, net);
      CollectEachStep(plugs, t, devices, net);
      var r1 := CollectEach(plugs, t, rest, net);
      var step := CollectDataFromDevice(plugs, r1.0, devices[|devices| - 1], net);
      if step.Ok? {
        var c := step.value.1;
        assert (r1.1 + [c])[..|r1.1|] == r1.1;
        assert RowsOf(r1.1 + [c]) == RowsOf(r1.1) + [c.measurement];
      }
    }
  }

  /** One step of `CollectEach`, by components: the last device's outcome
      extends either the successes and the table or the errors. */
  lemma CollectEachStep(plugs: seq<Plug>, t: MeasurementTable, devices: seq<int>, net: string -> Transport)
    requires |devices| > 0
    ensures var r1 := CollectEach(plugs, t, devices[..|devices| - 1], net);
            var step := CollectDataFromDevice(plugs, r1.0, devices[|devices| - 1], net);
            var r := CollectEach(plugs, t, devices, net);
            |r1.0.rows| == |t.rows| + |r1.1|
            && (step.Ok? ==> r.0 == step.value.0 && r.1 == r1.1 + [step.value.1] && r.2 == r1.2
                             && step.value.0.rows == r1.0.rows + [step.value.1.measurement])
            && (step.Err? ==> r.0 == r1.0 && r.1 == r1.1 && r.2 == r1.2 + [ErrorEntry(devices[|devices| - 1], step.error)])
  {
  }

  /** One more failing device extends the error list by its entry. */
  lemma ExtendErrors(plugs: seq<Plug>, net: string -> Transport, ds: seq<int>, es: seq<ErrorEntry>, d: int, e: ErrorEntry)
    requires |es| == |ds| && forall i :: 0 <= i < |es| ==> ErrorOf(plugs, net, ds[i], es[i])
    requires ErrorOf(plugs, net, d, e)
    ensures forall i :: 0 <= i < |es| + 1 ==> ErrorOf(plugs, net, (ds + [d])[i], (es + [e])[i])
  {
  }

  /** One more collected device extends the success list by its entry. */
  lemma ExtendCollected(plugs: seq<Plug>, net: string -> Transport, ds: seq<int>, cs: seq<Collected>, d: int, c: Collected)
    requires |cs| == |ds| && forall i :: 0 <= i < |cs| ==> CollectedOf(plugs, net, ds[i], cs[i])
    requires CollectedOf(plugs, net, d, c)
    ensures forall i :: 0 <= i < |cs| + 1 ==> CollectedOf(plugs, net, (ds + [d])[i], (cs + [c])[i])
  {
  }

  /** The result of `collectDataFromAllDevices`. */
  datatype Summary = Summary(success: seq<Collected>, errors: seq<ErrorEntry>, total: nat, collected: nat, failed: nat)

  /** `collectDataFromAllDevices` over the household's pollable devices, as
      selected by the database: 404 unless the household is the user's. */
  function CollectDataFromAllDevices(owned: bool, plugs: seq<Plug>, t: MeasurementTable, devices: seq<int>, net: string -> Transport)
    : (r: Result<(MeasurementTable, Summary), int>)
    ensures r.Err? <==> !owned
    ensures r.Err? ==> r.error == 404
    ensures r.Ok? ==>
              var s := r.value.1;
              s.total == |devices| && s.collected + s.failed == s.total
              && s.collected == |s.success| && s.failed == |s.errors|
              && s.failed == CountWhere(devices, Fails(plugs, net))
              && |r.value.0.rows| == |t.rows| + s.collected
    ensures r.Ok? ==>
              var (t', s) := r.value;
              t'.rows[..|t.rows|] == t.rows
              && |s.errors| == |Filter(devices, Fails(plugs, net))|
              && (forall i :: 0 <= i < |s.errors| ==> ErrorOf(plugs, net, Filter(devices, Fails(plugs, net))[i], s.errors[i]))
              && |s.success| == |Filter(devices, Collects(plugs, net))|
              && (forall i :: 0 <= i < |s.success| ==> CollectedOf(plugs, net, Filter(devices, Collects(plugs, net))[i], s.success[i]))
              && t'.rows == t.rows + RowsOf(s.success)
  {
    if !owned then Err(404)
    else
      CollectErrorsInOrder(plugs, t, devices, net);
      CollectSuccessesInOrder(plugs, t, devices, net);
      CollectRowsInOrder(plugs, t, devices, net);
      var (t', ok, errs) := CollectEach(plugs, t, devices, net);
      Ok((t', Summary(ok, errs, |devices|, |ok|, |errs|)))
  }

  /** One millisecond short of a day, in milliseconds: 23:59:59.999. */
  const DayEndOffset: int := 86_399_999

  function InDay(device: int, dayStart: int): Measurement -> bool
  {
    (m: Measurement) => m.device == device && dayStart <= m.time <= dayStart + DayEndOffset && m.valid
  }

  function KwhOf(m: Measurement): real
  {
    m.kwh
  }

  /** Largest reading of a non-empty selection. */
  function MaxKwh(s: seq<Measurement>): (x: real)
    requires |s| > 0
    ensures forall i :: 0 <= i < |s| ==> s[i].kwh <= x
    ensures exists i :: 0 <= i < |s| && s[i].kwh == x
  {
    if |s| == 1 then s[0].kwh
    else
      var m := MaxKwh(s[..|s| - 1]);
      assert forall i :: 0 <= i < |s| - 1 ==> s[..|s| - 1][i] == s[i];
      if s[|s| - 1].kwh > m then s[|s| - 1].kwh else m
  }

  /** Smallest reading of a non-empty selection. */
  function MinKwh(s: seq<Measurement>): (x: real)
    requires |s| > 0
    ensures forall i :: 0 <= i < |s| ==> x <= s[i].kwh
    ensures exists i :: 0 <= i < |s| && s[i].kwh == x
  {
    if |s| == 1 then s[0].kwh
    else
      var m := MinKwh(s[..|s| - 1]);
      assert forall i :: 0 <= i < |s| - 1 ==> s[..|s| - 1][i] == s[i];
      if s[|s| - 1].kwh < m then s[|s| - 1].kwh else m
  }

  /** The aggregate row of `getDailyConsumption`; the SQL aggregates are
      `NULL` over no rows. */
  datatype Daily = Daily(first: Option<real>, last: Option<real>, usage: Option<real>, count: nat)

  /** The SQL aggregate over the selected readings: `MIN`, `MAX`, their
      difference and `COUNT`. */
  function Spread(sel: seq<Measurement>): (d: Daily)
    ensures d.count == |sel|
    ensures d.first.Some? == d.last.Some? == d.usage.Some? == (|sel| > 0)
    ensures d.usage.Some? ==> d.usage.value == d.last.value - d.first.value && d.usage.value >= 0.0
    ensures d.last.Some? ==> forall i :: 0 <= i < |sel| ==> d.first.value <= sel[i].kwh <= d.last.value
    ensures d.first.Some? ==> exists i :: 0 <= i < |sel| && sel[i].kwh == d.first.value
    ensures d.last.Some? ==> exists i :: 0 <= i < |sel| && sel[i].kwh == d.last.value
  {
    if |sel| == 0 then Daily(None, None, None, 0)
    else
      var lo, hi := MinKwh(sel), MaxKwh(sel);
      assert lo <= sel[0].kwh <= hi;
      Daily(Some(lo), Some(hi), Some(hi - lo), |sel|)
  }

  /** `getDailyConsumption`: the spread of the device's valid counter
      readings between the start of the day and 23:59:59.999. */
  function GetDailyConsumption(rows: seq<Measurement>, device: int, dayStart: int): (d: Daily)
    ensures d.count == CountWhere(rows, InDay(device, dayStart))
    ensures d.usage.Some? <==> d.count > 0
    ensures d.first.Some? == d.last.Some? == d.usage.Some?
    ensures d.usage.Some? ==> d.usage.value == d.last.value - d.first.value && d.usage.value >= 0.0
    ensures d.last.Some? ==>
              forall i :: 0 <= i < |rows| && InDay(device, dayStart)(rows[i]) ==> d.first.value <= rows[i].kwh <= d.last.value
    ensures d.first.Some? ==>
              exists i :: 0 <= i < |rows| && InDay(device, dayStart)(rows[i]) && rows[i].kwh == d.first.value
    ensures d.last.Some? ==>
              exists i :: 0 <= i < |rows| && InDay(device, dayStart)(rows[i]) && rows[i].kwh == d.last.value
  {
    var sel := Filter(rows, InDay(device, dayStart));
    var d := Spread(sel);
    forall i | 0 <= i < |rows| && InDay(device, dayStart)(rows[i]) && d.last.Some?
      ensures d.first.value <= rows[i].kwh <= d.last.value
    {
      var j :| 0 <= j < |sel| && sel[j] == rows[i];
    }
    if |sel| > 0 then
      AttainedInRows(rows, InDay(device, dayStart), d.first.value);
      AttainedInRows(rows, InDay(device, dayStart), d.last.value);
      d
    else d
  }

  /** A reading value met among the selected rows is met at some row of
      the table that the selection keeps. */
  lemma AttainedInRows(rows: seq<Measurement>, p: Measurement -> bool, v: real)
    requires exists j :: 0 <= j < |Filter(rows, p)| && Filter(rows, p)[j].kwh == v
    ensures exists i :: 0 <= i < |rows| && p(rows[i]) && rows[i].kwh == v
  {
    var sel := Filter(rows, p);
    var j :| 0 <= j < |sel| && sel[j].kwh == v;
    assert sel[j] in rows && p(sel[j]);
    var i :| 0 <= i < |rows| && rows[i] == sel[j];
  }

  /** Readings whose counter never decreases. */
  predicate NonDecreasing(s: seq<Measurement>)
  {
    forall i, j :: 0 <= i <= j < |s| ==> s[i].kwh <= s[j].kwh
  }

  /** For a counter that never decreases over the day's readings, the
      day's usage is the last reading minus the first. */
  lemma MonotoneCounterUsage(rows: seq<Measurement>, device: int, dayStart: int, sel: seq<Measurement>)
    requires sel == Filter(rows, InDay(device, dayStart))
    requires NonDecreasing(sel)
    ensures |sel| > 0 ==> GetDailyConsumption(rows, device, dayStart).usage == Some(Last(sel).kwh - sel[0].kwh)
  {
    if |sel| > 0 {
      SpreadOfNonDecreasing(sel);
      assert GetDailyConsumption(rows, device, dayStart) == Spread(sel);
    }
  }

  /** In non-decreasing readings the first is the smallest and the last
      the largest. */
  lemma SpreadOfNonDecreasing(s: seq<Measurement>)
    requires |s| > 0 && NonDecreasing(s)
    ensures MinKwh(s) == s[0].kwh && MaxKwh(s) == Last(s).kwh
  {
    var a :| 0 <= a < |s| && s[a].kwh == MinKwh(s);
    var b :| 0 <= b < |s| && s[b].kwh == MaxKwh(s);
    assert s[0].kwh <= s[a].kwh;
    assert s[b].kwh <= Last(s).kwh;
  }

  function Last(s: seq<Measurement>): Measurement
    requires |s| > 0
  {
    s[|s| - 1]
  }
}

=== FILE: ml_insights.dfy ===
/** The statistical decision rules behind the ML recommendations: z-score
    anomaly flagging, the least-squares forecast with its trend and
    confidence buckets, the per-hour ranking of average consumption, the
    quartile clustering of devices, and the prioritised recommendation list
    assembled from them. */
module MlInsights {
  import opened Common
  import opened Grouping
  import opened Stats

  // ---- anomaly detection ----

  /** One day of household consumption: `datum` and `potrosnja_kwh`. */
  datatype Sample = Sample(day: string, kwh: real)

  /** A flagged day with its distance from the mean (the z-score is its
      absolute value over the standard deviation) and its percentage
      deviation from the mean; the latter is `None` where the source divides
      by a zero mean. */
  datatype Anomaly = Anomaly(sample: Sample, excess: real, deviation: Option<real>)

  const DefaultThreshold: real := 2.5

  function Values(data: seq<Sample>): (vs: seq<real>)
    ensures |vs| == |data|
    ensures forall i :: 0 <= i < |data| ==> vs[i] == data[i].kwh
  {
    if |data| == 0 then [] else Values(data[..|data| - 1]) + [data[|data| - 1].kwh]
  }

  function SamplesOf(r: seq<Anomaly>): (s: seq<Sample>)
    ensures |s| == |r|
    ensures forall i :: 0 <= i < |r| ==> s[i] == r[i].sample
  {
    if |r| == 0 then [] else SamplesOf(r[..|r| - 1]) + [r[|r| - 1].sample]
  }

  /** `(x - mean) / mean * 100`, undefined for a zero mean. */
  function DeviationOf(x: real, m: real): Option<real>
  {
    if m == 0.0 then None else Some((x - m) / m * 100.0)
  }

  /** The anomaly test for the mean `m`, variance `v` and threshold `t`. */
  function AnomalyTest(m: real, v: real, t: real): Sample -> bool
  {
    (s: Sample) => ExceedsZ(s.kwh - m, v, t)
  }

  /** The `forEach` that pushes, in input order, every sample passing
      `test`, with its distance from the mean `m`. */
  function Flag(data: seq<Sample>, test: Sample -> bool, m: real): (r: seq<Anomaly>)
    ensures SamplesOf(r) == Filter(data, test)
    ensures forall i :: 0 <= i < |r| ==>
              r[i].excess == r[i].sample.kwh - m
              && r[i].deviation == DeviationOf(r[i].sample.kwh, m)
  {
    if |data| == 0 then []
    else
      var prev := Flag(data[..|data| - 1], test, m);
      var s := data[|data| - 1];
      var a := Anomaly(s, s.kwh - m, DeviationOf(s.kwh, m));
      assert SamplesOf(prev + [a])[..|prev|] == SamplesOf(prev);
      if test(s) then prev + [a] else prev
  }

  /** `detectAnomalies`: nothing for fewer than three days or for data whose
      standard deviation is below 0.01; otherwise, in input order, exactly
      the days whose z-score exceeds the threshold. */
  function DetectAnomalies(data: seq<Sample>, threshold: real): (r: seq<Anomaly>)
    ensures |data| < 3 ==> r == []
    ensures |data| >= 3 && Variance(Values(data)) < 0.0001 ==> r == []
    ensures |data| >= 3 && Variance(Values(data)) >= 0.0001 ==>
              var m := Mean(Values(data));
              var v := Variance(Values(data));
              SamplesOf(r) == Filter(data, AnomalyTest(m, v, threshold))
              && forall i :: 0 <= i < |r| ==>
                   r[i].excess == r[i].sample.kwh - m
                   && r[i].deviation == DeviationOf(r[i].sample.kwh, m)
  {
    if |data| < 3 then []
    else
      var vs := Values(data);
      if Variance(vs) < 0.0001 then []
      else Flag(data, AnomalyTest(Mean(vs), Variance(vs), threshold), Mean(vs))
  }

  /** Uniform data never has anomalies. */
  lemma UniformHasNoAnomalies(data: seq<Sample>, c: real, threshold: real)
    requires forall i :: 0 <= i < |data| ==> data[i].kwh == c
    ensures DetectAnomalies(data, threshold) == []
  {
    if |data| >= 3 {
      ConstantHasNoVariance(Values(data), c);
    }
  }

  /** For non-negative consumption the percentage deviation of every
      anomaly is defined: the spread guard forces a positive mean. */
  lemma AnomalyDeviationDefined(data: seq<Sample>, threshold: real)
    requires forall i :: 0 <= i < |data| ==> data[i].kwh >= 0.0
    ensures forall i :: 0 <= i < |DetectAnomalies(data, threshold)| ==>
              DetectAnomalies(data, threshold)[i].deviation.Some?
  {
    var r := DetectAnomalies(data, threshold);
    if |r| > 0 {
      SpreadImpliesPositiveMean(Values(data));
    }
  }

  /** The flagging pass under the z-score test keeps a day exactly when
      its z-score exceeds the threshold; past its guards `DetectAnomalies`
      is this pass at the data's own mean and variance. */
  lemma FlagKeepsExactlyOutliers(data: seq<Sample>, m: real, v: real, t: real, k: int)
    requires 0 <= k < |data|
    ensures ExceedsZ(data[k].kwh - m, v, t)
            <==> data[k] in SamplesOf(Flag(data, AnomalyTest(m, v, t), m))
  {
    var p := AnomalyTest(m, v, t);
    assert p(data[k]) == ExceedsZ(data[k].kwh - m, v, t);
    FilterMembers(data, p, data[k]);
  }

  // ---- forecast ----

  datatype Trend = Increasing | Decreasing | Stable

  datatype Confidence = High | Medium | Low

  datatype Prediction = Prediction(day: int, predictedKwh: real)

  datatype Forecast = Forecast(predictions: seq<Prediction>, trend: Trend, slope: real, confidence: Confidence)

  const MinForecastPoints: nat := 7

  /** The trend buckets of the slope, with a dead zone of 0.1 either side. */
  function TrendOf(slope: real): (r: Trend)
    ensures r == Increasing <==> slope > 0.1
    ensures r == Decreasing <==> slope < -0.1
    ensures r == Stable <==> -0.1 <= slope <= 0.1
  {
    if slope > 0.1 then Increasing else if slope < -0.1 then Decreasing else Stable
  }

  /** The confidence buckets of R^2; an undefined R^2 (the library call
      yields NaN or throws) gives `Low`. */
  function ConfidenceOf(r2: Option<real>): (c: Confidence)
    ensures c == High <==> r2.Some? && r2.value > 0.8
    ensures c == Medium <==> r2.Some? && 0.6 < r2.value <= 0.8
    ensures r2.None? ==> c == Low
  {
    match r2
    case None => Low
    case Some(x) => if x > 0.8 then High else if x > 0.6 then Medium else Low
  }

  function Max0(x: real): (r: real)
    ensures r >= 0.0 && r >= x && (r == x || r == 0.0)
  {
    if x > 0.0 then x else 0.0
  }

  /** Predictions for days `1..daysAhead` after the last observation; day
      `i + 1` sits at x = lastIdx + i + 1 = |ys| + i. */
  function Predictions(ys: seq<real>, daysAhead: int): (p: seq<Prediction>)
    requires |ys| >= 2
    ensures |p| == if daysAhead > 0 then daysAhead else 0
    ensures forall i :: 0 <= i < |p| ==>
              p[i].day == i + 1
              && p[i].predictedKwh == Max0(LineAt(ys, (|ys| + i) as real))
    decreases if daysAhead > 0 then daysAhead else 0
  {
    if daysAhead <= 0 then []
    else
      Predictions(ys, daysAhead - 1)
      + [Prediction(daysAhead, Max0(LineAt(ys, (|ys| - 1 + daysAhead) as real)))]
  }

  /** `predictFutureConsumption`: no forecast for fewer than seven points;
      otherwise the fitted line extrapolated over `daysAhead` days, never
      negative, with the slope's trend and R^2's confidence. */
  function PredictFutureConsumption(ys: seq<real>, daysAhead: int): (r: Option<Forecast>)
    ensures r.None? <==> |ys| < MinForecastPoints
    ensures r.Some? ==>
              |ys| >= 2
              && |r.value.predictions| == (if daysAhead > 0 then daysAhead else 0)
              && (forall i :: 0 <= i < |r.value.predictions| ==>
                    r.value.predictions[i].day == i + 1
                    && r.value.predictions[i].predictedKwh >= 0.0
                    && r.value.predictions[i].predictedKwh == Max0(LineAt(ys, (|ys| + i) as real)))
              && r.value.slope == Slope(ys)
              && r.value.trend == TrendOf(Slope(ys))
              && r.value.confidence == ConfidenceOf(RSquared(ys))
  {
    if |ys| < MinForecastPoints then None
    else Some(Forecast(Predictions(ys, daysAhead), TrendOf(Slope(ys)), Slope(ys), ConfidenceOf(RSquared(ys))))
  }

  /** On an exact line of at least seven days the forecast is the line
      itself, clamped at zero, and the slope is the step. */
  lemma ExactLineForecast(ys: seq<real>, a: real, b: real, daysAhead: int)
    requires |ys| >= MinForecastPoints
    requires Arithmetic(ys, a, b)
    ensures var f := PredictFutureConsumption(ys, daysAhead);
            f.Some? && f.value.slope == b && f.value.trend == TrendOf(b)
            && forall i :: 0 <= i < |f.value.predictions| ==>
                 f.value.predictions[i].predictedKwh == Max0(a + b * ((|ys| + i) as real))
  {
    ArithmeticSlope(ys, a, b);
    ExactLinePredictions(ys, a, b, daysAhead);
  }

  lemma ExactLinePredictions(ys: seq<real>, a: real, b: real, daysAhead: int)
    requires |ys| >= 2
    requires Arithmetic(ys, a, b)
    ensures forall i :: 0 <= i < |Predictions(ys, daysAhead)| ==>
              Predictions(ys, daysAhead)[i].predictedKwh == Max0(a + b * ((|ys| + i) as real))
  {
    ArithmeticSlope(ys, a, b);
    FittedPredictions(ys, a, b, daysAhead);
  }

  /** Predictions from a fit with slope `b` and intercept `a` lie on the
      line `a + b x`. */
  lemma FittedPredictions(ys: seq<real>, a: real, b: real, daysAhead: int)
    requires |ys| >= 2
    requires Slope(ys) == b && Intercept(ys) == a
    ensures forall i :: 0 <= i < |Predictions(ys, daysAhead)| ==>
              Predictions(ys, daysAhead)[i].predictedKwh == Max0(a + b * ((|ys| + i) as real))
  {
    forall i | 0 <= i < |Predictions(ys, daysAhead)|
      ensures Predictions(ys, daysAhead)[i].predictedKwh == Max0(a + b * ((|ys| + i) as real))
    {
      FittedPredictionAt(ys, a, b, daysAhead, i);
    }
  }

  lemma FittedPredictionAt(ys: seq<real>, a: real, b: real, daysAhead: int, i: int)
    requires |ys| >= 2
    requires Slope(ys) == b && Intercept(ys) == a
    requires 0 <= i < |Predictions(ys, daysAhead)|
    ensures Predictions(ys, daysAhead)[i].predictedKwh == Max0(a + b * ((|ys| + i) as real))
  {
    FittedLineAt(ys, a, b, (|ys| + i) as real);
    SameMax0(LineAt(ys, (|ys| + i) as real), a + b * ((|ys| + i) as real));
  }

  /** An exact, non-constant line is forecast with high confidence. */
  lemma ExactLineConfidence(ys: seq<real>, a: real, b: real, daysAhead: int)
    requires |ys| >= MinForecastPoints
    requires Arithmetic(ys, a, b) && b != 0.0
    ensures var f := PredictFutureConsumption(ys, daysAhead);
            f.Some? && f.value.confidence == High
  {
    ArithmeticRSquared(ys, a, b);
  }

  lemma FittedLineAt(ys: seq<real>, a: real, b: real, x: real)
    requires |ys| >= 2
    requires Slope(ys) == b && Intercept(ys) == a
    ensures LineAt(ys, x) == a + b * x
  {
    assert LineAt(ys, x) == LineOf(b, a, x);
  }

  lemma SameMax0(u: real, v: real)
    requires u == v
    ensures Max0(u) == Max0(v)
  {
  }

  /** The series 10, 12, ..., 22 trends upwards, and its reverse downwards. */
  lemma TrendOfExampleSeries()
    ensures var f := PredictFutureConsumption([10.0, 12.0, 14.0, 16.0, 18.0, 20.0, 22.0], 3);
            f.Some? && f.value.trend == Increasing && |f.value.predictions| == 3
            && f.value.predictions[0].day == 1
    ensures var f := PredictFutureConsumption([22.0, 20.0, 18.0, 16.0, 14.0, 12.0, 10.0], 7);
            f.Some? && f.value.trend == Decreasing
  {
    var up := [10.0, 12.0, 14.0, 16.0, 18.0, 20.0, 22.0];
    var down := [22.0, 20.0, 18.0, 16.0, 14.0, 12.0, 10.0];
    assert Arithmetic(up, 10.0, 2.0);
    assert Arithmetic(down, 22.0, -2.0);
    ArithmeticSlope(up, 10.0, 2.0);
    ArithmeticSlope(down, 22.0, -2.0);
  }

  // ---- optimal usage times ----

  /** A reading tagged with its hour of day (`getHours()` of its time). */
  predicate ValidHours(rows: seq<Row<int>>)
  {
    forall j :: 0 <= j < |rows| ==> 0 <= rows[j].key < 24
  }

  datatype HourAverage = HourAverage(hour: int, avg: real)

  datatype OptimalTimes = OptimalTimes(lowest: seq<HourAverage>, highest: seq<HourAverage>)

  function AvgOf(e: HourAverage): real { e.avg }

  const RankedHours: nat := 5

  /** Number of readings at hour `h`. */
  function CountFor(rows: seq<Row<int>>, h: int): (n: nat)
    ensures n > 0 <==> h in KeysOf(rows)
  {
    if |rows| == 0 then 0
    else
      assert KeysOf(rows) == KeysOf(rows[..|rows| - 1]) + [rows[|rows| - 1].key];
      CountFor(rows[..|rows| - 1], h) + (if rows[|rows| - 1].key == h then 1 else 0)
  }

  /** The mean consumption of every hour with readings, by ascending hour. */
  function HourAverages(rows: seq<Row<int>>): (r: seq<HourAverage>)
    requires ValidHours(rows)
    ensures forall i, j :: 0 <= i < j < |r| ==> r[i].hour < r[j].hour
    ensures forall i :: 0 <= i < |r| ==>
              r[i].hour in KeysOf(rows)
              && CountFor(rows, r[i].hour) > 0
              && r[i].avg == SumFor(rows, r[i].hour) / CountFor(rows, r[i].hour) as real
    ensures forall j :: 0 <= j < |rows| ==> exists i :: 0 <= i < |r| && r[i].hour == rows[j].key
  {
    var hs := KeysBelow(rows, 24);
    forall j | 0 <= j < |rows| ensures rows[j].key in hs {
      assert KeysOf(rows)[j] == rows[j].key;
    }
    AveragesOf(rows, hs)
  }

  function AveragesOf(rows: seq<Row<int>>, hs: seq<int>): (r: seq<HourAverage>)
    requires forall i :: 0 <= i < |hs| ==> hs[i] in KeysOf(rows)
    ensures |r| == |hs|
    ensures forall i :: 0 <= i < |r| ==>
              r[i].hour == hs[i]
              && CountFor(rows, hs[i]) > 0
              && r[i].avg == SumFor(rows, hs[i]) / CountFor(rows, hs[i]) as real
  {
    if |hs| == 0 then []
    else
      var h := hs[|hs| - 1];
      AveragesOf(rows, hs[..|hs| - 1]) + [HourAverage(h, SumFor(rows, h) / CountFor(rows, h) as real)]
  }

  /** `identifyOptimalUsageTimes`: nothing without readings; otherwise the
      five hours of lowest mean consumption, lowest first, and the five of
      highest, highest first. */
  function IdentifyOptimalUsageTimes(rows: seq<Row<int>>): (r: Option<OptimalTimes>)
    requires ValidHours(rows)
    ensures r.None? <==> |rows| == 0
    ensures r.Some? ==>
              var n := |HourAverages(rows)|;
              |r.value.lowest| == (if n < RankedHours then n else RankedHours)
              && |r.value.highest| == (if n < RankedHours then n else RankedHours)
              && SortedAsc(r.value.lowest, AvgOf)
              && SortedDesc(r.value.highest, AvgOf)
              && (forall i :: 0 <= i < |r.value.lowest| ==> r.value.lowest[i] in HourAverages(rows))
              && (forall i :: 0 <= i < |r.value.highest| ==> r.value.highest[i] in HourAverages(rows))
              && multiset(r.value.lowest) <= multiset(HourAverages(rows))
              && multiset(r.value.highest) <= multiset(HourAverages(rows))
  {
    if |rows| == 0 then None
    else
      var ends := LowestAndHighest(HourAverages(rows), AvgOf, RankedHours);
      Some(OptimalTimes(ends.0, ends.1))
  }

  /** An hour left out of the lowest list averages at least as much as
      every hour in it. */
  lemma LowestHoursAreLowest(rows: seq<Row<int>>, e: HourAverage)
    requires ValidHours(rows) && |rows| > 0
    requires e in HourAverages(rows) && e !in IdentifyOptimalUsageTimes(rows).value.lowest
    ensures forall i :: 0 <= i < |IdentifyOptimalUsageTimes(rows).value.lowest| ==>
              IdentifyOptimalUsageTimes(rows).value.lowest[i].avg <= e.avg
  {
    BottomKDominated(HourAverages(rows), AvgOf, RankedHours, e);
  }

  /** An hour left out of the highest list averages at most as much as
      every hour in it. */
  lemma HighestHoursAreHighest(rows: seq<Row<int>>, e: HourAverage)
    requires ValidHours(rows) && |rows| > 0
    requires e in HourAverages(rows) && e !in IdentifyOptimalUsageTimes(rows).value.highest
    ensures forall i :: 0 <= i < |IdentifyOptimalUsageTimes(rows).value.highest| ==>
              IdentifyOptimalUsageTimes(rows).value.highest[i].avg >= e.avg
  {
    var avgs := HourAverages(rows);
    SortAscMembers(avgs, AvgOf);
    LastReversedDominates(SortAsc(avgs, AvgOf), AvgOf, RankedHours, e);
  }

  // ---- device clustering ----

  /** A device's usage over the analysed period: `naziv`,
      `total_consumption`, `avg_power` and `uptime_percentage`. */
  datatype DeviceUsage = DeviceUsage(name: string, total: real, avgPower: real, uptime: real)

  datatype Band = HighBand | MediumBand | LowBand

  /** The five categories; `highFrequency` is declared but never filled. */
  datatype Clusters = Clusters(high: seq<DeviceUsage>, medium: seq<DeviceUsage>, low: seq<DeviceUsage>,
                               highFrequency: seq<DeviceUsage>, vampire: seq<DeviceUsage>)

  /** Above the third quartile is high, below the first is low, and
      everything else, both quartiles included, is medium. */
  function BandOf(d: DeviceUsage, q1: real, q3: real): (b: Band)
    ensures b == HighBand <==> d.total > q3
    ensures b == LowBand <==> d.total <= q3 && d.total < q1
    ensures b == MediumBand <==> q1 <= d.total <= q3
  {
    if d.total > q3 then HighBand
    else if d.total < q1 then LowBand
    else MediumBand
  }

  function InBand(q1: real, q3: real, b: Band): DeviceUsage -> bool
  {
    (d: DeviceUsage) => BandOf(d, q1, q3) == b
  }

  /** Low average power while almost always on. */
  predicate IsVampire(d: DeviceUsage)
  {
    d.avgPower < 50.0 && d.uptime > 90.0
  }

  /** The `forEach` pass: each device is pushed onto exactly one band list
      and, independently, onto the vampire list. */
  function Categorize(devices: seq<DeviceUsage>, q1: real, q3: real): (c: Clusters)
    ensures c.high == Filter(devices, InBand(q1, q3, HighBand))
    ensures c.medium == Filter(devices, InBand(q1, q3, MediumBand))
    ensures c.low == Filter(devices, InBand(q1, q3, LowBand))
    ensures c.vampire == Filter(devices, IsVampire)
    ensures c.highFrequency == []
  {
    if |devices| == 0 then Clusters([], [], [], [], [])
    else
      var prev := Categorize(devices[..|devices| - 1], q1, q3);
      var d := devices[|devices| - 1];
      var band := BandOf(d, q1, q3);
      Clusters(
        if band == HighBand then prev.high + [d] else prev.high,
        if band == MediumBand then prev.medium + [d] else prev.medium,
        if band == LowBand then prev.low + [d] else prev.low,
        prev.highFrequency,
        if IsVampire(d) then prev.vampire + [d] else prev.vampire)
  }

  /** `null` for no devices; otherwise the categories for the given
      quartiles of the total consumptions. */
  function ClusterDevicesByUsage(devices: seq<DeviceUsage>, q1: real, q3: real): (r: Option<Clusters>)
    ensures r.None? <==> |devices| == 0
    ensures r.Some? ==> r.value == Categorize(devices, q1, q3)
  {
    if |devices| == 0 then None else Some(Categorize(devices, q1, q3))
  }

  /** Every device lands in exactly one band, whatever the quartiles, and
      the band sizes add up to the number of devices. */
  lemma ClustersPartition(devices: seq<DeviceUsage>, q1: real, q3: real, d: DeviceUsage)
    requires |devices| > 0
    ensures var c := ClusterDevicesByUsage(devices, q1, q3).value;
            |c.high| + |c.medium| + |c.low| == |devices|
            && (d in devices <==> d in c.high || d in c.medium || d in c.low)
            && !(d in c.high && d in c.medium)
            && !(d in c.high && d in c.low)
            && !(d in c.medium && d in c.low)
  {
    BandCounts(devices, q1, q3);
    FilterMembers(devices, InBand(q1, q3, HighBand), d);
    FilterMembers(devices, InBand(q1, q3, MediumBand), d);
    FilterMembers(devices, InBand(q1, q3, LowBand), d);
  }

  lemma {:induction false} BandCounts(devices: seq<DeviceUsage>, q1: real, q3: real)
    ensures CountWhere(devices, InBand(q1, q3, HighBand)) + CountWhere(devices, InBand(q1, q3, MediumBand))
            + CountWhere(devices, InBand(q1, q3, LowBand)) == |devices|
    decreases |devices|
  {
    if |devices| > 0 {
      BandCounts(devices[..|devices| - 1], q1, q3);
    }
  }

  /** A device is listed as a vampire exactly when its average power is
      below 50 and its uptime above 90 %, whichever band it is in. */
  lemma VampireIff(devices: seq<DeviceUsage>, q1: real, q3: real, d: DeviceUsage)
    requires |devices| > 0
    ensures d in ClusterDevicesByUsage(devices, q1, q3).value.vampire
            <==> d in devices && d.avgPower < 50.0 && d.uptime > 90.0
  {
    FilterMembers(devices, IsVampire, d);
  }

  /** A router at 10 W and 95 % uptime next to a 1500 W air conditioner is
      the first vampire, whatever the quartiles. */
  lemma RouterIsVampire(q1: real, q3: real)
    ensures var devices := [DeviceUsage("Router", 5.0, 10.0, 95.0), DeviceUsage("Klima", 100.0, 1500.0, 30.0)];
            var c := ClusterDevicesByUsage(devices, q1, q3);
            c.Some? && |c.value.vampire| > 0 && c.value.vampire[0].name == "Router"
  {
    var devices := [DeviceUsage("Router", 5.0, 10.0, 95.0), DeviceUsage("Klima", 100.0, 1500.0, 30.0)];
    assert devices[..1] == [devices[0]];
    assert [devices[0]][..0] == [];
  }

  // ---- recommendation assembly ----

  datatype Priority = HighPriority | MediumPriority | LowPriority

  /** The sort weights `{ high: 3, medium: 2, low: 1 }`. */
  function Rank(p: Priority): real
  {
    match p
    case HighPriority => 3.0
    case MediumPriority => 2.0
    case LowPriority => 1.0
  }

  datatype Kind =
    | AnomalyAlert(days: nat)
    | ConsumptionForecast(trend: Trend)
    | UsageTiming
    | DeviceOptimization(devices: nat)
    | VampireDevices(names: seq<string>)
    | SummerTip
    | WinterTip

  datatype Recommendation = Recommendation(kind: Kind, priority: Priority)

  function RankOf(r: Recommendation): real { Rank(r.priority) }

  /** Everything the assembly reads: daily totals, hourly readings keyed by
      hour of day, per-device usage with the quartiles of the totals, and
      the current month (0 = January). */
  datatype MlInput = MlInput(daily: seq<Sample>, hourly: seq<Row<int>>, devices: seq<DeviceUsage>,
                             q1: real, q3: real, month: int)

  const AnomalyMinDays: nat := 7
  const ForecastMinDays: nat := 14
  const TimingMinReadings: nat := 24

  function AnomalyPart(daily: seq<Sample>): (r: seq<Recommendation>)
    ensures |r| <= 1
    ensures |r| == 1 <==> |daily| >= AnomalyMinDays && |DetectAnomalies(daily, DefaultThreshold)| > 0
    ensures |r| == 1 ==> r[0] == Recommendation(AnomalyAlert(|DetectAnomalies(daily, DefaultThreshold)|), HighPriority)
  {
    if |daily| < AnomalyMinDays then []
    else
      var anomalies := DetectAnomalies(daily, DefaultThreshold);
      if |anomalies| > 0 then [Recommendation(AnomalyAlert(|anomalies|), HighPriority)] else []
  }

  function PredictedValues(ps: seq<Prediction>): (vs: seq<real>)
    ensures |vs| == |ps|
    ensures forall i :: 0 <= i < |ps| ==> vs[i] == ps[i].predictedKwh
  {
    if |ps| == 0 then [] else PredictedValues(ps[..|ps| - 1]) + [ps[|ps| - 1].predictedKwh]
  }

  /** `change > 10` for `change = (predicted - actual) / actual * 100`; a
      zero `actual` makes the change infinite with the sign of `predicted`,
      or not a number when both are zero. */
  predicate ChangeAbove10(predicted: real, actual: real)
  {
    if actual == 0.0 then predicted > 0.0 else (predicted - actual) / actual * 100.0 > 10.0
  }

  /** High for a rising trend that would grow the average by more than
      10 %, low for a falling trend, medium otherwise. */
  function ForecastPriority(trend: Trend, growing: bool): (p: Priority)
    ensures p == HighPriority <==> trend == Increasing && growing
    ensures p == LowPriority <==> trend == Decreasing
  {
    if trend == Increasing && growing then HighPriority
    else if trend == Decreasing then LowPriority
    else MediumPriority
  }

  /** The average of the last seven daily totals. */
  function RecentAverage(daily: seq<Sample>): real
    requires |daily| >= 7
  {
    Mean(Values(daily[|daily| - 7..]))
  }

  function ForecastPart(daily: seq<Sample>): (r: seq<Recommendation>)
    ensures |r| <= 1
    ensures |r| == 1 <==> |daily| >= ForecastMinDays
    ensures |r| == 1 ==>
              var f := PredictFutureConsumption(Values(daily), 7).value;
              r[0].kind == ConsumptionForecast(f.trend)
              && r[0].priority == ForecastPriority(f.trend,
                   ChangeAbove10(Mean(PredictedValues(f.predictions)), RecentAverage(daily)))
  {
    if |daily| < ForecastMinDays then []
    else
      var f := PredictFutureConsumption(Values(daily), 7).value;
      var growing := ChangeAbove10(Mean(PredictedValues(f.predictions)), RecentAverage(daily));
      [Recommendation(ConsumptionForecast(f.trend), ForecastPriority(f.trend, growing))]
  }

  /** Medium when the gap between the busiest and the quietest hour is
      more than 20 % of the busiest hour's average and at least three hours
      are ranked; low otherwise. */
  function TimingPriority(t: OptimalTimes): (p: Priority)
    requires |t.lowest| > 0 && |t.highest| > 0
    ensures p == MediumPriority <==>
              t.highest[0].avg - t.lowest[0].avg > t.highest[0].avg * 0.2 && |t.highest| >= 3
    ensures p == MediumPriority || p == LowPriority
  {
    var difference := t.highest[0].avg - t.lowest[0].avg;
    if difference > t.highest[0].avg * 0.2 && |t.highest| >= 3 then MediumPriority else LowPriority
  }

  function TimingPart(hourly: seq<Row<int>>): (r: seq<Recommendation>)
    requires ValidHours(hourly)
    ensures |r| <= 1
    ensures |r| == 1 <==> |hourly| >= TimingMinReadings
    ensures |r| == 1 ==>
              r[0] == Recommendation(UsageTiming, TimingPriority(IdentifyOptimalUsageTimes(hourly).value))
  {
    if |hourly| < TimingMinReadings then []
    else [Recommendation(UsageTiming, TimingPriority(IdentifyOptimalUsageTimes(hourly).value))]
  }

  function Names(ds: seq<DeviceUsage>): (ns: seq<string>)
    ensures |ns| == |ds|
    ensures forall i :: 0 <= i < |ds| ==> ns[i] == ds[i].name
  {
    if |ds| == 0 then [] else Names(ds[..|ds| - 1]) + [ds[|ds| - 1].name]
  }

  function ClusterPart(devices: seq<DeviceUsage>, q1: real, q3: real): (r: seq<Recommendation>)
    ensures |r| <= 2
    ensures forall i :: 0 <= i < |r| ==>
              (r[i].kind.DeviceOptimization? && r[i].priority == HighPriority)
              || (r[i].kind.VampireDevices? && r[i].priority == MediumPriority
                  && r[i].kind.names == Names(Filter(devices, IsVampire)))
  {
    if |devices| == 0 then []
    else
      var c := Categorize(devices, q1, q3);
      var h, v := OptimizationPart(c.high), VampirePart(c.vampire);
      assert forall i :: 0 <= i < |h + v| ==> (h + v)[i] == (if i < |h| then h[0] else v[0]);
      h + v
  }

  function OptimizationPart(high: seq<DeviceUsage>): (r: seq<Recommendation>)
    ensures |r| <= 1
    ensures |r| == 1 <==> |high| > 0
    ensures forall i :: 0 <= i < |r| ==> r[i] == Recommendation(DeviceOptimization(|high|), HighPriority)
  {
    if |high| > 0 then [Recommendation(DeviceOptimization(|high|), HighPriority)] else []
  }

  function VampirePart(vampire: seq<DeviceUsage>): (r: seq<Recommendation>)
    ensures |r| <= 1
    ensures |r| == 1 <==> |vampire| > 0
    ensures forall i :: 0 <= i < |r| ==> r[i] == Recommendation(VampireDevices(Names(vampire)), MediumPriority)
  {
    if |vampire| > 0 then [Recommendation(VampireDevices(Names(vampire)), MediumPriority)] else []
  }

  /** In a list made of device-optimisation entries followed by vampire
      entries, each kind is present exactly when its part is non-empty. */
  lemma TwoPartKinds(h: seq<Recommendation>, v: seq<Recommendation>, r: seq<Recommendation>)
    requires r == h + v
    requires forall i :: 0 <= i < |h| ==> h[i].kind.DeviceOptimization?
    requires forall i :: 0 <= i < |v| ==> v[i].kind.VampireDevices?
    ensures (exists i :: 0 <= i < |r| && r[i].kind.DeviceOptimization?) <==> |h| > 0
    ensures (exists i :: 0 <= i < |r| && r[i].kind.VampireDevices?) <==> |v| > 0
  {
    if |h| > 0 { assert r[0] == h[0]; }
    if |v| > 0 { assert r[|h|] == v[0]; }
    forall i | 0 <= i < |r| ensures r[i] == (if i < |h| then h[i] else v[i - |h|]) {}
  }

  /** The device recommendations appear exactly when some device is above
      the third quartile, respectively some device is a vampire. */
  lemma ClusterPartIff(devices: seq<DeviceUsage>, q1: real, q3: real)
    ensures (exists i :: 0 <= i < |ClusterPart(devices, q1, q3)| && ClusterPart(devices, q1, q3)[i].kind.DeviceOptimization?)
            <==> exists d :: d in devices && d.total > q3
    ensures (exists i :: 0 <= i < |ClusterPart(devices, q1, q3)| && ClusterPart(devices, q1, q3)[i].kind.VampireDevices?)
            <==> exists d :: d in devices && IsVampire(d)
  {
    BandPresence(devices, q1, q3);
    ClusterKinds(devices, q1, q3);
  }

  lemma ClusterKinds(devices: seq<DeviceUsage>, q1: real, q3: real)
    ensures (exists i :: 0 <= i < |ClusterPart(devices, q1, q3)| && ClusterPart(devices, q1, q3)[i].kind.DeviceOptimization?)
            <==> |Filter(devices, InBand(q1, q3, HighBand))| > 0
    ensures (exists i :: 0 <= i < |ClusterPart(devices, q1, q3)| && ClusterPart(devices, q1, q3)[i].kind.VampireDevices?)
            <==> |Filter(devices, IsVampire)| > 0
  {
    var r := ClusterPart(devices, q1, q3);
    if |devices| > 0 {
      var c := Categorize(devices, q1, q3);
      var h, v := OptimizationPart(c.high), VampirePart(c.vampire);
      assert r == h + v;
      TwoPartKinds(h, v, r);
    } else {
      assert Filter(devices, InBand(q1, q3, HighBand)) == [];
      assert Filter(devices, IsVampire) == [];
    }
  }

  lemma BandPresence(devices: seq<DeviceUsage>, q1: real, q3: real)
    ensures |Filter(devices, InBand(q1, q3, HighBand))| > 0 <==> exists d :: d in devices && d.total > q3
    ensures |Filter(devices, IsVampire)| > 0 <==> exists d :: d in devices && IsVampire(d)
  {
    var h := Filter(devices, InBand(q1, q3, HighBand));
    if d :| d in devices && d.total > q3 {
      FilterMembers(devices, InBand(q1, q3, HighBand), d);
    }
    if |h| > 0 {
      assert h[0] in devices && h[0].total > q3;
    }
    var v := Filter(devices, IsVampire);
    if d :| d in devices && IsVampire(d) {
      FilterMembers(devices, IsVampire, d);
    }
    if |v| > 0 {
      assert v[0] in devices && IsVampire(v[0]);
    }
  }

  predicate IsSummer(month: int) { 5 <= month <= 8 }

  predicate IsWinter(month: int) { month >= 11 || month <= 2 }

  function SeasonPart(month: int): (r: seq<Recommendation>)
    ensures |r| <= 1
    ensures |r| == 1 <==> IsSummer(month) || IsWinter(month)
    ensures |r| == 1 ==> r[0].priority == LowPriority
                         && (r[0].kind == SummerTip <==> IsSummer(month))
                         && (r[0].kind == WinterTip <==> IsWinter(month))
  {
    if 5 <= month <= 8 then [Recommendation(SummerTip, LowPriority)]
    else if month >= 11 || month <= 2 then [Recommendation(WinterTip, LowPriority)]
    else []
  }

  /** The recommendations in the order the source pushes them. */
  function Candidates(input: MlInput): seq<Recommendation>
    requires ValidHours(input.hourly)
  {
    AnomalyPart(input.daily) + ForecastPart(input.daily) + TimingPart(input.hourly)
    + ClusterPart(input.devices, input.q1, input.q3) + SeasonPart(input.month)
  }

  function IsPriority(p: Priority): Recommendation -> bool
  {
    (r: Recommendation) => r.priority == p
  }

  /** The returned list: the candidates stably sorted by descending
      priority. */
  function MlRecommendations(input: MlInput): (r: seq<Recommendation>)
    requires ValidHours(input.hourly)
    ensures SortedDesc(r, RankOf)
    ensures multiset(r) == multiset(Candidates(input))
  {
    SortDesc(Candidates(input), RankOf)
  }

  /** The sort is stable: high, then medium, then low, each group in the
      order the recommendations were pushed. */
  lemma RecommendationsGroupedByPriority(input: MlInput)
    requires ValidHours(input.hourly)
    ensures var c := Candidates(input);
            MlRecommendations(input)
            == Filter(c, IsPriority(HighPriority)) + Filter(c, IsPriority(MediumPriority)) + Filter(c, IsPriority(LowPriority))
  {
    var c := Candidates(input);
    var hi, mid, lo := Rank(HighPriority), Rank(MediumPriority), Rank(LowPriority);
    forall i | 0 <= i < |c| ensures RankOf(c[i]) == hi || RankOf(c[i]) == mid || RankOf(c[i]) == lo {
      RankLevels(c[i]);
    }
    SortDescThreeLevels(c, RankOf, hi, mid, lo);
    KeyClassIsPriority(c, HighPriority);
    KeyClassIsPriority(c, MediumPriority);
    KeyClassIsPriority(c, LowPriority);
  }

  lemma RankLevels(r: Recommendation)
    ensures RankOf(r) == Rank(HighPriority) || RankOf(r) == Rank(MediumPriority) || RankOf(r) == Rank(LowPriority)
  {
  }

  lemma {:induction false} KeyClassIsPriority(c: seq<Recommendation>, p: Priority)
    ensures Filter(c, KeyIs(RankOf, Rank(p))) == Filter(c, IsPriority(p))
    decreases |c|
  {
    if |c| > 0 {
      KeyClassIsPriority(c[..|c| - 1], p);
      var last := c[|c| - 1];
      match last.priority {
        case HighPriority => assert RankOf(last) == 3.0;
        case MediumPriority => assert RankOf(last) == 2.0;
        case LowPriority => assert RankOf(last) == 1.0;
      }
      assert KeyIs(RankOf, Rank(p))(last) == IsPriority(p)(last);
    }
  }

  /** A seasonal tip is present exactly in summer (June to September) or
      winter (December to March), and it is the matching one. */
  lemma SeasonalTipIff(input: MlInput)
    requires ValidHours(input.hourly)
    ensures Recommendation(SummerTip, LowPriority) in MlRecommendations(input) <==> IsSummer(input.month)
    ensures Recommendation(WinterTip, LowPriority) in MlRecommendations(input) <==> IsWinter(input.month)
  {
    var summer, winter := Recommendation(SummerTip, LowPriority), Recommendation(WinterTip, LowPriority);
    var c := Candidates(input);
    SeasonPartMembers(input.month);
    assert summer in c <==> summer in SeasonPart(input.month) by { CandidateKinds(input); }
    assert winter in c <==> winter in SeasonPart(input.month) by { CandidateKinds(input); }
    SortDescMembers(c, RankOf);
  }

  lemma SeasonPartMembers(month: int)
    ensures Recommendation(SummerTip, LowPriority) in SeasonPart(month) <==> IsSummer(month)
    ensures Recommendation(WinterTip, LowPriority) in SeasonPart(month) <==> IsWinter(month)
  {
  }

  /** Which part of the candidate list each kind of recommendation comes from. */
  lemma CandidateKinds(input: MlInput)
    requires ValidHours(input.hourly)
    ensures forall x :: x in Candidates(input) && x.kind.AnomalyAlert? ==> x in AnomalyPart(input.daily)
    ensures forall x :: x in Candidates(input) && (x.kind.SummerTip? || x.kind.WinterTip?) ==> x in SeasonPart(input.month)
    ensures forall x :: x in AnomalyPart(input.daily) ==> x in Candidates(input)
    ensures forall x :: x in SeasonPart(input.month) ==> x in Candidates(input)
  {
    var f := ForecastPart(input.daily);
    var t := TimingPart(input.hourly);
    var k := ClusterPart(input.devices, input.q1, input.q3);
    PartsKinds(AnomalyPart(input.daily), f, t, k, SeasonPart(input.month));
  }

  lemma PartsKinds(a: seq<Recommendation>, f: seq<Recommendation>, t: seq<Recommendation>,
                   k: seq<Recommendation>, s: seq<Recommendation>)
    requires forall i :: 0 <= i < |f| ==> f[i].kind.ConsumptionForecast?
    requires forall i :: 0 <= i < |t| ==> t[i].kind.UsageTiming?
    requires forall i :: 0 <= i < |k| ==> k[i].kind.DeviceOptimization? || k[i].kind.VampireDevices?
    requires forall i :: 0 <= i < |a| ==> a[i].kind.AnomalyAlert?
    requires forall i :: 0 <= i < |s| ==> s[i].kind.SummerTip? || s[i].kind.WinterTip?
    ensures forall x :: x in a + f + t + k + s && x.kind.AnomalyAlert? ==> x in a
    ensures forall x :: x in a + f + t + k + s && (x.kind.SummerTip? || x.kind.WinterTip?) ==> x in s
    ensures forall x :: x in a ==> x in a + f + t + k + s
    ensures forall x :: x in s ==> x in a + f + t + k + s
  {
  }

  /** An anomaly alert is present exactly when at least seven days are
      available and some day is flagged at the default threshold. */
  lemma AnomalyAlertIff(input: MlInput)
    requires ValidHours(input.hourly)
    ensures (exists x :: x in MlRecommendations(input) && x.kind.AnomalyAlert?)
            <==> |input.daily| >= AnomalyMinDays && |DetectAnomalies(input.daily, DefaultThreshold)| > 0
  {
    var c, r := Candidates(input), MlRecommendations(input);
    AlertCandidateIff(input);
    if x :| x in r && x.kind.AnomalyAlert? {
      assert x in c by { SortDescMembers(c, RankOf); }
    }
    if x :| x in c && x.kind.AnomalyAlert? {
      assert x in r by { SortDescMembers(c, RankOf); }
    }
  }

  lemma AlertCandidateIff(input: MlInput)
    requires ValidHours(input.hourly)
    ensures (exists x :: x in Candidates(input) && x.kind.AnomalyAlert?) <==> |AnomalyPart(input.daily)| == 1
  {
    var a := AnomalyPart(input.daily);
    CandidateKinds(input);
    if |a| == 1 {
      assert a[0] in Candidates(input);
    }
  }

  /** The `mlMetrics` block; `None` stands for the `'N/A'` reported when
      fewer than fourteen days are available. */
  datatype MlMetrics = MlMetrics(anomaliesDetected: nat, predictionConfidence: Option<Confidence>, devicesAnalyzed: nat)

  function Metrics(input: MlInput): (m: MlMetrics)
    ensures m.anomaliesDetected > 0 ==> |input.daily| >= AnomalyMinDays
    ensures m.anomaliesDetected == (if |input.daily| >= AnomalyMinDays then |DetectAnomalies(input.daily, DefaultThreshold)| else 0)
    ensures m.predictionConfidence.Some? <==> |input.daily| >= ForecastMinDays
    ensures m.predictionConfidence.Some? ==> m.predictionConfidence.value == ConfidenceOf(RSquared(Values(input.daily)))
    ensures m.devicesAnalyzed == |input.devices|
  {
    MlMetrics(
      if |input.daily| >= AnomalyMinDays then |DetectAnomalies(input.daily, DefaultThreshold)| else 0,
      if |input.daily| >= ForecastMinDays then Some(PredictFutureConsumption(Values(input.daily), 7).value.confidence) else None,
      |input.devices|)
  }

  /** `generateMLRecommendations`: a household that is not the user's
      fails before any query is made; otherwise the recommendations in
      priority order together with the metrics block. */
  function GenerateMlRecommendations(owned: bool, input: MlInput): (r: Option<(seq<Recommendation>, MlMetrics)>)
    requires ValidHours(input.hourly)
    ensures r.None? <==> !owned
    ensures r.Some? ==> r.value.0 == MlRecommendations(input) && r.value.1 == Metrics(input)
  {
    if !owned then None else Some((MlRecommendations(input), Metrics(input)))
  }
}

=== FILE: notifications.dfy ===
/** The notification store: creating notifications, the per-user listing
    and unread count, the read and archived flags, and the cleanup of old
    read notifications. The table is a sequence of rows; the clock ("now",
    in milliseconds) is a parameter. */
module Notifications {
  import opened Common

  datatype Kind = DeviceFailure | HighConsumption | Anomaly | System | Warning | Info

  datatype Priority = Low | Medium | High | Critical

  /** One row of the notification table. */
  datatype Notification = Notification(
    id: int, user: int, household: Option<int>, device: Option<int>,
    kind: Kind, priority: Priority, title: string, message: string,
    read: bool, archived: bool, created: int, readAt: Option<int>)

  /** The table with its auto-increment counter. */
  datatype Store = Store(rows: seq<Notification>, nextId: int)

  /** The fields a caller supplies. */
  datatype NewNotification = NewNotification(
    user: int, household: Option<int>, device: Option<int>,
    kind: Kind, priority: Priority, title: string, message: string)

  /** `createNotification`: the row is stored unread and not archived,
      created now; the answer is its id. */
  function Create(s: Store, n: NewNotification, now: int): (r: (Store, int))
    ensures r.1 == s.nextId && r.0.nextId == s.nextId + 1
    ensures |r.0.rows| == |s.rows| + 1 && r.0.rows[..|s.rows|] == s.rows
    ensures var row := r.0.rows[|s.rows|];
            row.id == r.1 && row.user == n.user && row.kind == n.kind && row.priority == n.priority
            && row.household == n.household && row.device == n.device
            && row.title == n.title && row.message == n.message
            && !row.read && !row.archived && row.created == now && row.readAt.None?
  {
    var row := Notification(s.nextId, n.user, n.household, n.device, n.kind, n.priority, n.title, n.message,
                            false, false, now, None);
    (Store(s.rows + [row], s.nextId + 1), s.nextId)
  }

  /** Neither read nor archived, for the user. */
  function Unread(user: int): Notification -> bool
  {
    (n: Notification) => n.user == user && !n.read && !n.archived
  }

  /** `getUnreadCount`. */
  function UnreadCount(s: Store, user: int): (c: nat)
    ensures c <= |s.rows|
    ensures c == CountWhere(s.rows, Unread(user))
    ensures c == 0 <==> forall i :: 0 <= i < |s.rows| ==> !Unread(user)(s.rows[i])
  {
    if forall i :: 0 <= i < |s.rows| ==> !Unread(user)(s.rows[i]) then
      CountWhereNone(s.rows, Unread(user));
      CountWhere(s.rows, Unread(user))
    else
      var i :| 0 <= i < |s.rows| && Unread(user)(s.rows[i]);
      UnreadCounted(s.rows, user, i);
      CountWhere(s.rows, Unread(user))
  }

  lemma {:induction false} UnreadCounted(rows: seq<Notification>, user: int, i: int)
    requires 0 <= i < |rows| && Unread(user)(rows[i])
    ensures CountWhere(rows, Unread(user)) > 0
    decreases |rows|
  {
    if i < |rows| - 1 {
      assert rows[..|rows| - 1][i] == rows[i];
      UnreadCounted(rows[..|rows| - 1], user, i);
    }
  }

  /** A new notification adds one to its user's unread count and leaves
      every other user's count alone. */
  lemma CreateAddsUnread(s: Store, n: NewNotification, now: int, user: int)
    ensures UnreadCount(Create(s, n, now).0, user) == UnreadCount(s, user) + (if user == n.user then 1 else 0)
  {
    var rows := Create(s, n, now).0.rows;
    assert rows[..|s.rows|] == s.rows;
  }

  const DefaultLimit: nat := 50
  const DefaultOffset: nat := 0

  /** The rows the listing selects: the user's non-archived ones, only the
      unread ones on request. */
  function Visible(user: int, unreadOnly: bool): Notification -> bool
  {
    (n: Notification) => n.user == user && !n.archived && (!unreadOnly || !n.read)
  }

  function CreatedKey(n: Notification): real { n.created as real }

  /** The selected rows newest first. */
  function Newest(s: Store, user: int, unreadOnly: bool): (r: seq<Notification>)
    ensures |r| == CountWhere(s.rows, Visible(user, unreadOnly))
    ensures forall i :: 0 <= i < |r| ==> r[i] in s.rows && Visible(user, unreadOnly)(r[i])
    ensures forall n :: n in s.rows && Visible(user, unreadOnly)(n) ==> n in r
    ensures forall i, j :: 0 <= i < j < |r| ==> r[i].created >= r[j].created
  {
    var sel := Filter(s.rows, Visible(user, unreadOnly));
    var r := SortDesc(sel, CreatedKey);
    SortDescMembers(sel, CreatedKey);
    FilterMembersAll(s.rows, Visible(user, unreadOnly));
    assert forall i, j :: 0 <= i < j < |r| ==> CreatedKey(r[i]) >= CreatedKey(r[j]);
    r
  }

  lemma FilterMembersAll<T>(s: seq<T>, p: T -> bool)
    ensures forall x :: x in Filter(s, p) <==> x in s && p(x)
  {
    forall x ensures x in Filter(s, p) <==> x in s && p(x) {
      FilterMembers(s, p, x);
    }
  }

  /** `getUserNotifications`: `ORDER BY datum_kreiranja DESC LIMIT ?
      OFFSET ?` over the selected rows. */
  function ListNotifications(s: Store, user: int, unreadOnly: bool, limit: nat, offset: nat): (r: seq<Notification>)
    ensures |r| <= limit
    ensures forall i :: 0 <= i < |r| ==>
              r[i] in s.rows && r[i].user == user && !r[i].archived && (unreadOnly ==> !r[i].read)
    ensures forall i, j :: 0 <= i < j < |r| ==> r[i].created >= r[j].created
    ensures |r| > 0 ==> offset + |r| <= CountWhere(s.rows, Visible(user, unreadOnly))
    ensures offset + limit <= CountWhere(s.rows, Visible(user, unreadOnly)) ==> |r| == limit
    ensures var count := CountWhere(s.rows, Visible(user, unreadOnly));
            |r| == if count <= offset then 0 else if count - offset < limit then count - offset else limit
    ensures forall i :: 0 <= i < |r| ==> r[i] == Newest(s, user, unreadOnly)[offset + i]
  {
    var newest := Newest(s, user, unreadOnly);
    var r := Take(Drop(newest, offset), limit);
    forall i | 0 <= i < |r| ensures r[i] == newest[offset + i] && Visible(user, unreadOnly)(r[i]) && r[i] in s.rows {
      assert r[i] == Drop(newest, offset)[i];
    }
    r
  }

  /** Consecutive pages neither overlap nor leave a gap: a page of `a`
      rows followed by the page of `b` rows after it is the page of
      `a + b` rows. */
  lemma PagesCompose(s: Store, user: int, unreadOnly: bool, a: nat, b: nat, offset: nat)
    ensures ListNotifications(s, user, unreadOnly, a, offset) + ListNotifications(s, user, unreadOnly, b, offset + a)
            == ListNotifications(s, user, unreadOnly, a + b, offset)
  {
    TakeDropCompose(Newest(s, user, unreadOnly), offset, a, b);
  }

  /** The first page of the default size shows every visible row once the
      user has no more than fifty of them. */
  lemma FirstPageShowsAll(s: Store, user: int, unreadOnly: bool, n: Notification)
    requires CountWhere(s.rows, Visible(user, unreadOnly)) <= DefaultLimit
    requires n in s.rows && n.user == user && !n.archived && (unreadOnly ==> !n.read)
    ensures n in ListNotifications(s, user, unreadOnly, DefaultLimit, DefaultOffset)
  {
    var newest := Newest(s, user, unreadOnly);
    assert Visible(user, unreadOnly)(n);
    assert ListNotifications(s, user, unreadOnly, DefaultLimit, DefaultOffset) == newest;
  }

  /** The row named by the call: its id and its owner both match. */
  predicate Targets(n: Notification, id: int, user: int)
  {
    n.id == id && n.user == user
  }

  /** `markAsRead`: the targeted rows become read, stamped now; the answer
      says whether any row was targeted. */
  function MarkAsRead(s: Store, id: int, user: int, now: int): (r: (Store, bool))
    ensures r.0.nextId == s.nextId && |r.0.rows| == |s.rows|
    ensures forall i :: 0 <= i < |s.rows| && Targets(s.rows[i], id, user) ==>
              r.0.rows[i].read && r.0.rows[i].readAt == Some(now)
              && r.0.rows[i].(read := s.rows[i].read, readAt := s.rows[i].readAt) == s.rows[i]
    ensures forall i :: 0 <= i < |s.rows| && !Targets(s.rows[i], id, user) ==> r.0.rows[i] == s.rows[i]
    ensures r.1 <==> exists i :: 0 <= i < |s.rows| && Targets(s.rows[i], id, user)
  {
    var rows := seq(|s.rows|, i requires 0 <= i < |s.rows| =>
                      if Targets(s.rows[i], id, user) then s.rows[i].(read := true, readAt := Some(now)) else s.rows[i]);
    (Store(rows, s.nextId), exists i :: 0 <= i < |s.rows| && Targets(s.rows[i], id, user))
  }

  /** Unread and targeted by a `markAsRead` call: the rows it clears. */
  function Cleared(id: int, user: int, owner: int): Notification -> bool
  {
    (n: Notification) => Unread(owner)(n) && Targets(n, id, user)
  }

  function StillUnread(id: int, user: int, owner: int): Notification -> bool
  {
    (n: Notification) => Unread(owner)(n) && !Targets(n, id, user)
  }

  /** `markAsRead` lowers an owner's unread count by exactly the unread
      rows it targets, so another user's count stays as it was. */
  lemma MarkAsReadUnread(s: Store, id: int, user: int, now: int, owner: int)
    ensures UnreadCount(MarkAsRead(s, id, user, now).0, owner) + CountWhere(s.rows, Cleared(id, user, owner))
            == UnreadCount(s, owner)
    ensures owner != user ==> UnreadCount(MarkAsRead(s, id, user, now).0, owner) == UnreadCount(s, owner)
  {
    var s' := MarkAsRead(s, id, user, now).0;
    forall i | 0 <= i < |s.rows| ensures Unread(owner)(s'.rows[i]) <==> StillUnread(id, user, owner)(s.rows[i]) {
      if Targets(s.rows[i], id, user) {
        assert s'.rows[i].read;
      } else {
        assert s'.rows[i] == s.rows[i];
      }
    }
    CountWhereSame(s.rows, s'.rows, StillUnread(id, user, owner), Unread(owner));
    CountWhereSplit(s.rows, s.rows, StillUnread(id, user, owner), Cleared(id, user, owner), Unread(owner));
    if owner != user {
      forall i | 0 <= i < |s.rows| ensures !Cleared(id, user, owner)(s.rows[i]) {
      }
      CountWhereNone(s.rows, Cleared(id, user, owner));
    }
  }

  /** Not yet read, for the user, archived or not: the rows
      `markAllAsRead` selects. */
  function UnreadOwned(user: int): Notification -> bool
  {
    (n: Notification) => n.user == user && !n.read
  }

  function ReadOwned(user: int): Notification -> bool
  {
    (n: Notification) => n.user == user && n.read
  }

  /** `markAllAsRead`: every unread row of the user, archived ones included,
      becomes read, stamped now; the answer is how many rows that was. */
  function MarkAllAsRead(s: Store, user: int, now: int): (r: (Store, nat))
    ensures r.0.nextId == s.nextId && |r.0.rows| == |s.rows|
    ensures forall i :: 0 <= i < |s.rows| && UnreadOwned(user)(s.rows[i]) ==>
              r.0.rows[i] == s.rows[i].(read := true, readAt := Some(now))
    ensures forall i :: 0 <= i < |s.rows| && !UnreadOwned(user)(s.rows[i]) ==> r.0.rows[i] == s.rows[i]
    ensures r.1 == CountWhere(s.rows, UnreadOwned(user))
  {
    var rows := seq(|s.rows|, i requires 0 <= i < |s.rows| =>
                      if UnreadOwned(user)(s.rows[i]) then s.rows[i].(read := true, readAt := Some(now)) else s.rows[i]);
    (Store(rows, s.nextId), CountWhere(s.rows, UnreadOwned(user)))
  }

  /** After `markAllAsRead` the user has no unread notification, and the
      answer is exactly how many more of the user's rows are read. */
  lemma MarkAllClearsUnread(s: Store, user: int, now: int)
    ensures var (s', count) := MarkAllAsRead(s, user, now);
            UnreadCount(s', user) == 0
            && CountWhere(s'.rows, ReadOwned(user)) == CountWhere(s.rows, ReadOwned(user)) + count
  {
    var (s', count) := MarkAllAsRead(s, user, now);
    forall i | 0 <= i < |s'.rows| ensures !Unread(user)(s'.rows[i]) {
      if UnreadOwned(user)(s.rows[i]) {
        assert s'.rows[i].read;
      } else {
        assert s'.rows[i] == s.rows[i];
      }
    }
    forall i | 0 <= i < |s.rows|
      ensures !(ReadOwned(user)(s.rows[i]) && UnreadOwned(user)(s.rows[i]))
      ensures ReadOwned(user)(s'.rows[i]) <==> ReadOwned(user)(s.rows[i]) || UnreadOwned(user)(s.rows[i])
    {
      if UnreadOwned(user)(s.rows[i]) {
        assert s'.rows[i].read && s'.rows[i].user == user;
      } else {
        assert s'.rows[i] == s.rows[i];
      }
    }
    CountWhereSplit(s.rows, s'.rows, ReadOwned(user), UnreadOwned(user), ReadOwned(user));
  }

  /** `markAllAsRead` touches no other user's rows, so their unread counts
      stay as they were. */
  lemma MarkAllKeepsOthers(s: Store, user: int, other: int, now: int)
    requires other != user
    ensures UnreadCount(MarkAllAsRead(s, user, now).0, other) == UnreadCount(s, other)
  {
    var s' := MarkAllAsRead(s, user, now).0;
    forall i | 0 <= i < |s.rows| ensures Unread(other)(s'.rows[i]) <==> Unread(other)(s.rows[i]) {
      if UnreadOwned(user)(s.rows[i]) {
        assert s'.rows[i].user == user;
      }
    }
    CountWhereSame(s.rows, s'.rows, Unread(other), Unread(other));
  }

  /** `archiveNotification`: the targeted rows become archived and nothing
      else changes, the read flag included; the answer says whether any
      row was targeted. */
  function Archive(s: Store, id: int, user: int): (r: (Store, bool))
    ensures r.0.nextId == s.nextId && |r.0.rows| == |s.rows|
    ensures forall i :: 0 <= i < |s.rows| ==> r.0.rows[i].read == s.rows[i].read && r.0.rows[i].id == s.rows[i].id
    ensures forall i :: 0 <= i < |s.rows| && Targets(s.rows[i], id, user) ==>
              r.0.rows[i].archived && r.0.rows[i].(archived := s.rows[i].archived) == s.rows[i]
    ensures forall i :: 0 <= i < |s.rows| && !Targets(s.rows[i], id, user) ==> r.0.rows[i] == s.rows[i]
    ensures r.1 <==> exists i :: 0 <= i < |s.rows| && Targets(s.rows[i], id, user)
  {
    var rows := seq(|s.rows|, i requires 0 <= i < |s.rows| =>
                      if Targets(s.rows[i], id, user) then s.rows[i].(archived := true) else s.rows[i]);
    (Store(rows, s.nextId), exists i :: 0 <= i < |s.rows| && Targets(s.rows[i], id, user))
  }

  /** An archived notification no longer appears in any listing of its
      owner. */
  lemma ArchivedNotListed(s: Store, id: int, user: int, unreadOnly: bool, limit: nat, offset: nat)
    ensures var s' := Archive(s, id, user).0;
            forall n :: n in ListNotifications(s', user, unreadOnly, limit, offset) ==> n.id != id
  {
    var s' := Archive(s, id, user).0;
    var r := ListNotifications(s', user, unreadOnly, limit, offset);
    forall n | n in r ensures n.id != id {
      var k :| 0 <= k < |r| && r[k] == n;
      var i :| 0 <= i < |s'.rows| && s'.rows[i] == n;
      assert !s'.rows[i].archived;
      assert !Targets(s.rows[i], id, user);
    }
  }

  const DefaultDaysOld: int := 30

  const DayMs: int := 86_400_000

  /** Read and created before `now` minus `daysOld` days. */
  function Expired(now: int, daysOld: int): Notification -> bool
  {
    (n: Notification) => n.created < now - daysOld * DayMs && n.read
  }

  function Kept(now: int, daysOld: int): Notification -> bool
  {
    (n: Notification) => !Expired(now, daysOld)(n)
  }

  /** `cleanupOldNotifications`: the expired rows are deleted, the others
      kept in order; the answer is how many were deleted. */
  function Cleanup(s: Store, now: int, daysOld: int): (r: (Store, nat))
    ensures r.0.nextId == s.nextId
    ensures forall n :: n in r.0.rows <==> n in s.rows && !Expired(now, daysOld)(n)
    ensures forall n :: n in s.rows && !n.read ==> n in r.0.rows
    ensures r.1 == CountWhere(s.rows, Expired(now, daysOld))
    ensures r.1 + |r.0.rows| == |s.rows|
  {
    var kept := Filter(s.rows, Kept(now, daysOld));
    FilterMembersAll(s.rows, Kept(now, daysOld));
    CountWhereComplement(s.rows, Expired(now, daysOld), Kept(now, daysOld));
    (Store(kept, s.nextId), CountWhere(s.rows, Expired(now, daysOld)))
  }

  /** Cleanup changes no user's unread count. */
  lemma CleanupKeepsUnreadCount(s: Store, now: int, daysOld: int, user: int)
    ensures UnreadCount(Cleanup(s, now, daysOld).0, user) == UnreadCount(s, user)
  {
    forall i | 0 <= i < |s.rows| && Unread(user)(s.rows[i]) ensures Kept(now, daysOld)(s.rows[i]) {
      assert !s.rows[i].read;
      assert !Expired(now, daysOld)(s.rows[i]);
    }
    CountWhereFilter(s.rows, Kept(now, daysOld), Unread(user));
  }

  /** `notifyDeviceFailure`: a high-priority device-failure notice naming
      the device. */
  function NotifyDeviceFailure(s: Store, user: int, household: int, device: int, name: string, now: int)
    : (r: (Store, int))
    ensures r.1 == s.nextId && r.0.nextId == s.nextId + 1
    ensures |r.0.rows| == |s.rows| + 1 && r.0.rows[..|s.rows|] == s.rows
    ensures var row := r.0.rows[|s.rows|];
            row.kind == DeviceFailure && row.priority == High
            && row.user == user && row.household == Some(household) && row.device == Some(device)
            && row.title == "Uređaj " + name + " nije dostupan"
            && row.message == "Uređaj " + name + " ne odgovara. Molimo provjerite vezu ili kontaktirajte podršku."
            && row.id == r.1 && row.created == now && !row.read && !row.archived && row.readAt.None?
  {
    Create(s, NewNotification(user, Some(household), Some(device), DeviceFailure, High,
                              "Uređaj " + name + " nije dostupan",
                              "Uređaj " + name + " ne odgovara. Molimo provjerite vezu ili kontaktirajte podršku."),
           now)
  }

  /** `notifyHighConsumption`: a medium-priority high-consumption notice;
      its message, which prints the figures, is the parameter `message`. */
  function NotifyHighConsumption(s: Store, user: int, household: int, device: int, message: string, now: int)
    : (r: (Store, int))
    ensures r.1 == s.nextId && r.0.nextId == s.nextId + 1
    ensures |r.0.rows| == |s.rows| + 1 && r.0.rows[..|s.rows|] == s.rows
    ensures var row := r.0.rows[|s.rows|];
            row.kind == HighConsumption && row.priority == Medium
            && row.user == user && row.household == Some(household) && row.device == Some(device)
            && row.title == "Visoka potrošnja detektirana" && row.message == message
            && row.id == r.1 && row.created == now && !row.read && !row.archived && row.readAt.None?
  {
    Create(s, NewNotification(user, Some(household), Some(device), HighConsumption, Medium,
                              "Visoka potrošnja detektirana", message),
           now)
  }

  const AnomalyTitle: string := "Neobična potrošnja detektirana"
  const AnomalyMessage: string :=
    "Sustav je detektirao neobičnu potrošnju u vašem kućanstvu. Provjerite uređaje i potrošnju."

  /** `notifyAnomaly`: a medium-priority anomaly notice for the household,
      tied to no device. */
  function NotifyAnomaly(s: Store, user: int, household: int, now: int): (r: (Store, int))
    ensures r.1 == s.nextId && r.0.nextId == s.nextId + 1
    ensures |r.0.rows| == |s.rows| + 1 && r.0.rows[..|s.rows|] == s.rows
    ensures var row := r.0.rows[|s.rows|];
            row.kind == Anomaly && row.priority == Medium
            && row.user == user && row.household == Some(household) && row.device.None?
            && row.title == AnomalyTitle && row.message == AnomalyMessage
            && row.id == r.1 && row.created == now && !row.read && !row.archived && row.readAt.None?
  {
    Create(s, NewNotification(user, Some(household), None, Anomaly, Medium, AnomalyTitle, AnomalyMessage), now)
  }

  /** Each of the three notices adds one to its recipient's unread count. */
  lemma NoticesAddUnread(s: Store, user: int, household: int, device: int, text: string, now: int)
    ensures UnreadCount(NotifyDeviceFailure(s, user, household, device, text, now).0, user) == UnreadCount(s, user) + 1
    ensures UnreadCount(NotifyHighConsumption(s, user, household, device, text, now).0, user) == UnreadCount(s, user) + 1
    ensures UnreadCount(NotifyAnomaly(s, user, household, now).0, user) == UnreadCount(s, user) + 1
  {
    CreateAddsUnread(s, NewNotification(user, Some(household), Some(device), DeviceFailure, High,
                                        "Uređaj " + text + " nije dostupan",
                                        "Uređaj " + text + " ne odgovara. Molimo provjerite vezu ili kontaktirajte podršku."),
                     now, user);
    CreateAddsUnread(s, NewNotification(user, Some(household), Some(device), HighConsumption, Medium,
                                        "Visoka potrošnja detektirana", text), now, user);
    CreateAddsUnread(s, NewNotification(user, Some(household), None, Anomaly, Medium, AnomalyTitle, AnomalyMessage),
                     now, user);
  }
}

=== FILE: records.dfy ===
/** The rows of the database tables the collection services read and
    write: smart plugs (`pametni_utikac`) and measurements (`mjerenje`). */
module Records {
  import opened Common

  /** `aktivan` / `neaktivan`. */
  datatype PlugStatus = Active | Inactive

  /** A smart plug attached to one device. The IP address is optional; the
      registry never sets it, so a plug without one cannot be polled. */
  datatype Plug = Plug(
    id: int, device: int, serial: string, maker: Option<string>, model: Option<string>,
    ip: Option<string>, status: PlugStatus)

  /** One counter reading of a device: cumulative kWh at a time in
      milliseconds, the kind of measurement, and the validity flag. */
  datatype Measurement = Measurement(
    id: int, device: int, plug: int, kwh: real, time: int, kind: string, valid: bool)

  /** The measurement table with its auto-increment counter. */
  datatype MeasurementTable = MeasurementTable(rows: seq<Measurement>, nextId: int)

  /** Every stored id lies below the auto-increment counter. */
  predicate IdsBelowCounter(t: MeasurementTable)
  {
    forall i :: 0 <= i < |t.rows| ==> t.rows[i].id < t.nextId
  }

  /** Plug ids are a primary key. */
  predicate DistinctPlugIds(plugs: seq<Plug>)
  {
    forall i, j :: 0 <= i < j < |plugs| ==> plugs[i].id != plugs[j].id
  }
}

=== FILE: reports.dfy ===
/** The consumption report of a household over a period, and the comparison
    of two periods. The per-device counter spreads (`MAX − MIN` per group)
    arrive as query rows; the report groups, sums, sorts and rounds them. */
module Reports {
  import opened Common
  import opened Grouping

  /** The `groupBy` values the report distinguishes. */
  datatype Granularity = Hour | Day | Week | Month | Year

  function NameOf(g: Granularity): string
  {
    match g
    case Hour => "hour"
    case Day => "day"
    case Week => "week"
    case Month => "month"
    case Year => "year"
  }

  /** The `switch (groupBy)`: a known name selects its granularity, any
      other value falls back to days. */
  function ParseGroupBy(s: string): (g: Granularity)
    ensures (exists h :: NameOf(h) == s) ==> NameOf(g) == s
    ensures (forall h :: NameOf(h) != s) ==> g == Day
  {
    if s == "hour" then Hour
    else if s == "week" then Week
    else if s == "month" then Month
    else if s == "year" then Year
    else Day
  }

  /** Each granularity is selected by its own name. */
  lemma ParseNameOf(g: Granularity)
    ensures ParseGroupBy(NameOf(g)) == g
  {
  }

  /** One row of the per-period query: a device's usage in one period. */
  datatype PeriodRow = PeriodRow(device: int, period: string, kwh: Option<real>)

  function PeriodUsage(r: PeriodRow): real { OrZero(r.kwh) }

  function PeriodAmounts(rows: seq<PeriodRow>): (rs: seq<Row<string>>)
    ensures |rs| == |rows|
    ensures forall i :: 0 <= i < |rows| ==> rs[i] == Row(rows[i].period, OrZero(rows[i].kwh))
  {
    seq(|rows|, i requires 0 <= i < |rows| => Row(rows[i].period, OrZero(rows[i].kwh)))
  }

  /** A point of the time series. */
  datatype Point = Point(period: string, kwh: real)

  function PointKwh(p: Point): real { p.kwh }

  function Rounded(r: Row<string>): Point { Point(r.key, Round2(r.amount)) }

  function PeriodsOf(ts: seq<Point>): (ps: seq<string>)
    ensures |ps| == |ts|
    ensures forall i :: 0 <= i < |ts| ==> ps[i] == ts[i].period
  {
    seq(|ts|, i requires 0 <= i < |ts| => ts[i].period)
  }

  /** The time series: one point per period, in query order, holding the
      period's summed device usage (a missing one counted as 0) rounded to
      the cent. */
  function TimeSeries(rows: seq<PeriodRow>): (ts: seq<Point>)
    ensures forall i, j :: 0 <= i < j < |ts| ==> ts[i].period != ts[j].period
    ensures forall i :: 0 <= i < |ts| ==> ts[i].kwh == Round2(SumFor(PeriodAmounts(rows), ts[i].period))
  {
    var g := GroupTotals(PeriodAmounts(rows));
    seq(|g|, i requires 0 <= i < |g| => Rounded(g[i]))
  }

  /** The series has a point for exactly the periods of the query rows. */
  lemma TimeSeriesPeriods(rows: seq<PeriodRow>)
    ensures var ts := TimeSeries(rows);
            (forall j :: 0 <= j < |rows| ==> rows[j].period in PeriodsOf(ts))
            && (forall i :: 0 <= i < |ts| ==> ts[i].period in KeysOf(PeriodAmounts(rows)))
  {
    var amounts := PeriodAmounts(rows);
    var g := GroupTotals(amounts);
    var ts := TimeSeries(rows);
    assert PeriodsOf(ts) == KeysOf(g);
    forall j | 0 <= j < |rows| ensures rows[j].period in PeriodsOf(ts) {
      assert rows[j].period == amounts[j].key;
    }
    forall i | 0 <= i < |ts| ensures ts[i].period in KeysOf(amounts) {
      assert ts[i].period == g[i].key;
    }
  }

  /** The points' values, each rounded, sum to the period rows' total
      within half a cent per point. */
  lemma TimeSeriesTotal(rows: seq<PeriodRow>)
    ensures HalfCents(SumBy(TimeSeries(rows), PointKwh), SumBy(rows, PeriodUsage), |TimeSeries(rows)|)
  {
    var amounts := PeriodAmounts(rows);
    var g := GroupTotals(amounts);
    var ts := TimeSeries(rows);
    assert |ts| == |g| && forall i :: 0 <= i < |ts| ==> ts[i] == Rounded(g[i]);
    forall i | 0 <= i < |ts| ensures HalfCent(PointKwh(ts[i]), AmountOf(g[i])) {
      assert ts[i].kwh == Round2(g[i].amount);
    }
    RoundingDrift(ts, PointKwh, g, AmountOf);
    GroupTotalsPartition(amounts);
    SumOfAmounts(rows);
  }

  lemma {:induction false} SumOfAmounts(rows: seq<PeriodRow>)
    ensures SumBy(PeriodAmounts(rows), AmountOf) == SumBy(rows, PeriodUsage)
    decreases |rows|
  {
    if |rows| > 0 {
      SumOfAmounts(rows[..|rows| - 1]);
      assert PeriodAmounts(rows)[..|rows| - 1] == PeriodAmounts(rows[..|rows| - 1]);
    }
  }

  /** One row of the top-device query: a device and its usage. */
  datatype DeviceUsage = DeviceUsage(device: int, name: string, kind: string, room: string, kwh: Option<real>)

  function UsageKey(d: DeviceUsage): real { OrZero(d.kwh) }

  const TopLimit: nat := 10

  datatype TopDevice = TopDevice(device: int, name: string, kind: string, room: string, kwh: real)

  function Shown(d: DeviceUsage): TopDevice
  {
    TopDevice(d.device, d.name, d.kind, d.room, Round2(OrZero(d.kwh)))
  }

  /** `ORDER BY potrosnja_kwh DESC LIMIT 10`, each usage rounded. */
  function TopDevices(rows: seq<DeviceUsage>): (top: seq<TopDevice>)
    ensures |top| == if |rows| < TopLimit then |rows| else TopLimit
    ensures forall i :: 0 <= i < |top| ==> exists j :: 0 <= j < |rows| && top[i] == Shown(rows[j])
    ensures forall i, j :: 0 <= i < j < |top| ==> top[i].kwh >= top[j].kwh
    ensures |top| == |TopK(rows, UsageKey, TopLimit)|
    ensures forall i :: 0 <= i < |top| ==> top[i] == Shown(TopK(rows, UsageKey, TopLimit)[i])
    ensures multiset(TopK(rows, UsageKey, TopLimit)) <= multiset(rows)
  {
    var sel := TopK(rows, UsageKey, TopLimit);
    var top := seq(|sel|, i requires 0 <= i < |sel| => Shown(sel[i]));
    forall i, j | 0 <= i < j < |top| ensures top[i].kwh >= top[j].kwh {
      Round2Monotone(UsageKey(sel[j]), UsageKey(sel[i]));
    }
    forall i | 0 <= i < |top| ensures exists j :: 0 <= j < |rows| && top[i] == Shown(rows[j]) {
      var j :| 0 <= j < |rows| && rows[j] == sel[i];
    }
    top
  }

  /** A device left out of the top list used no more than any listed one. */
  lemma TopDevicesDominate(rows: seq<DeviceUsage>, y: DeviceUsage)
    requires y in rows && y !in TopK(rows, UsageKey, TopLimit)
    ensures forall i :: 0 <= i < |TopDevices(rows)| ==> TopDevices(rows)[i].kwh >= Round2(UsageKey(y))
  {
    var sel := TopK(rows, UsageKey, TopLimit);
    TopKDominates(rows, UsageKey, TopLimit, y);
    forall i | 0 <= i < |TopDevices(rows)| ensures TopDevices(rows)[i].kwh >= Round2(UsageKey(y)) {
      Round2Monotone(UsageKey(y), UsageKey(sel[i]));
    }
  }

  /** Entries of `keys` sorted by descending (unrounded) sum, ties kept in
      the order of `keys`. */
  function RankedGroups<K(==)>(keys: seq<K>, amounts: seq<Row<K>>): (r: seq<Row<K>>)
    ensures |r| == |keys|
    ensures SortedDesc(r, AmountOf)
    ensures multiset(r) == multiset(Entries(keys, amounts))
    ensures forall i :: 0 <= i < |r| ==> r[i].key in keys && r[i].amount == SumFor(amounts, r[i].key)
    ensures forall k :: k in keys ==> k in KeysOf(r)
  {
    var es := Entries(keys, amounts);
    var r := SortDesc(es, AmountOf);
    SortDescMembers(es, AmountOf);
    forall i | 0 <= i < |r| ensures r[i].key in keys && r[i].amount == SumFor(amounts, r[i].key) {
      assert r[i] in multiset(r);
      assert r[i] in es;
      var j :| 0 <= j < |es| && es[j] == r[i];
    }
    forall k | k in keys ensures k in KeysOf(r) {
      var j :| 0 <= j < |keys| && keys[j] == k;
      assert es[j] in multiset(es);
      assert es[j] in r;
      var i :| 0 <= i < |r| && r[i] == es[j];
      assert KeysOf(r)[i] == k;
    }
    r
  }

  /** One row of the per-room query: a device's usage and its room. */
  datatype RoomUsage = RoomUsage(room: int, name: string, kind: string, device: int, kwh: Option<real>)

  function RoomAmounts(rows: seq<RoomUsage>): (rs: seq<Row<int>>)
    ensures |rs| == |rows|
    ensures forall i :: 0 <= i < |rows| ==> rs[i] == Row(rows[i].room, OrZero(rows[i].kwh))
  {
    seq(|rows|, i requires 0 <= i < |rows| => Row(rows[i].room, OrZero(rows[i].kwh)))
  }

  /** The name and type a room's accumulator keeps: those of its first row. */
  function RoomInfo(rows: seq<RoomUsage>, id: int): (string, string)
  {
    if |rows| == 0 then ("", "")
    else if rows[0].room == id then (rows[0].name, rows[0].kind)
    else RoomInfo(rows[1..], id)
  }

  lemma {:induction false} RoomInfoIsFirst(rows: seq<RoomUsage>, id: int, j: int)
    requires 0 <= j < |rows| && rows[j].room == id
    ensures exists f :: 0 <= f <= j && rows[f].room == id && RoomInfo(rows, id) == (rows[f].name, rows[f].kind)
                        && forall k :: 0 <= k < f ==> rows[k].room != id
    decreases |rows|
  {
    if rows[0].room != id {
      RoomInfoIsFirst(rows[1..], id, j - 1);
      var f :| 0 <= f <= j - 1 && rows[1..][f].room == id && RoomInfo(rows[1..], id) == (rows[1..][f].name, rows[1..][f].kind)
               && forall k :: 0 <= k < f ==> rows[1..][k].room != id;
      assert rows[f + 1] == rows[1..][f];
      forall k | 0 <= k < f + 1 ensures rows[k].room != id {
        if k > 0 {
          assert rows[k] == rows[1..][k - 1];
        }
      }
    }
  }

  datatype RoomTotal = RoomTotal(room: int, name: string, kind: string, kwh: real)

  function RoomsOf(r: seq<RoomTotal>): (ids: seq<int>)
    ensures |ids| == |r|
    ensures forall i :: 0 <= i < |r| ==> ids[i] == r[i].room
  {
    seq(|r|, i requires 0 <= i < |r| => r[i].room)
  }

  function RoomRow(rows: seq<RoomUsage>, g: Row<int>): RoomTotal
  {
    RoomTotal(g.key, RoomInfo(rows, g.key).0, RoomInfo(rows, g.key).1, Round2(g.amount))
  }

  /** `byRoom`: one entry per room, holding its devices' summed usage
      rounded to the cent, sorted by descending unrounded usage. */
  function ByRoom(rows: seq<RoomUsage>): (r: seq<RoomTotal>)
    ensures |r| == |IntKeyOrder(RoomAmounts(rows))|
  {
    RoomRows(rows, RoomRanking(rows))
  }

  function RoomRows(rows: seq<RoomUsage>, ranked: seq<Row<int>>): (r: seq<RoomTotal>)
    ensures |r| == |ranked|
    ensures forall i :: 0 <= i < |r| ==> r[i] == RoomRow(rows, ranked[i])
  {
    if |ranked| == 0 then []
    else RoomRows(rows, ranked[..|ranked| - 1]) + [RoomRow(rows, ranked[|ranked| - 1])]
  }

  /** The per-room sums in report order, before rounding. */
  function RoomRanking(rows: seq<RoomUsage>): (ranked: seq<Row<int>>)
    ensures |ranked| == |IntKeyOrder(RoomAmounts(rows))|
  {
    var amounts := RoomAmounts(rows);
    RankedGroups(IntKeyOrder(amounts), amounts)
  }

  /** Every room of the query rows has its entry. */
  lemma ByRoomCovers(rows: seq<RoomUsage>)
    ensures forall j :: 0 <= j < |rows| ==> rows[j].room in RoomsOf(ByRoom(rows))
  {
    var amounts := RoomAmounts(rows);
    var ranked := RankedGroups(IntKeyOrder(amounts), amounts);
    assert RoomsOf(ByRoom(rows)) == KeysOf(ranked);
    forall j | 0 <= j < |rows| ensures rows[j].room in KeysOf(ranked) {
      assert rows[j].room == amounts[j].key;
    }
  }

  /** Each entry holds its room's rounded sum, and the name and type of the
      room's first row. */
  lemma ByRoomTotals(rows: seq<RoomUsage>)
    ensures var r := ByRoom(rows);
            forall i :: 0 <= i < |r| ==>
              r[i].kwh == Round2(SumFor(RoomAmounts(rows), r[i].room))
              && r[i].name == RoomInfo(rows, r[i].room).0 && r[i].kind == RoomInfo(rows, r[i].room).1
  {
    var amounts := RoomAmounts(rows);
    var ranked := RankedGroups(IntKeyOrder(amounts), amounts);
    var r := ByRoom(rows);
    forall i | 0 <= i < |r|
      ensures r[i].kwh == Round2(SumFor(amounts, r[i].room))
      ensures r[i].name == RoomInfo(rows, r[i].room).0 && r[i].kind == RoomInfo(rows, r[i].room).1
    {
      assert r[i] == RoomRow(rows, ranked[i]);
    }
  }

  /** The entries run from the largest unrounded sum down, and so do their
      rounded values. */
  lemma ByRoomOrdered(rows: seq<RoomUsage>)
    ensures var r := ByRoom(rows);
            forall i, j :: 0 <= i < j < |r| ==>
              SumFor(RoomAmounts(rows), r[i].room) >= SumFor(RoomAmounts(rows), r[j].room) && r[i].kwh >= r[j].kwh
  {
    var amounts := RoomAmounts(rows);
    var ranked := RankedGroups(IntKeyOrder(amounts), amounts);
    var r := ByRoom(rows);
    forall i, j | 0 <= i < j < |r|
      ensures SumFor(amounts, r[i].room) >= SumFor(amounts, r[j].room) && r[i].kwh >= r[j].kwh
    {
      assert r[i] == RoomRow(rows, ranked[i]) && r[j] == RoomRow(rows, ranked[j]);
      assert AmountOf(ranked[i]) >= AmountOf(ranked[j]);
      Round2Monotone(ranked[j].amount, ranked[i].amount);
    }
  }

  /** The unrounded room sums add up to the usage of all rows. */
  lemma RoomsPartition(rows: seq<RoomUsage>)
    ensures var amounts := RoomAmounts(rows);
            SumBy(Entries(IntKeyOrder(amounts), amounts), AmountOf) == SumBy(rows, RoomUsageKwh)
  {
    var amounts := RoomAmounts(rows);
    EntriesCover(IntKeyOrder(amounts), amounts);
    RoomAmountsSum(rows);
  }

  function RoomUsageKwh(r: RoomUsage): real { OrZero(r.kwh) }

  lemma {:induction false} RoomAmountsSum(rows: seq<RoomUsage>)
    ensures SumBy(RoomAmounts(rows), AmountOf) == SumBy(rows, RoomUsageKwh)
    decreases |rows|
  {
    if |rows| > 0 {
      RoomAmountsSum(rows[..|rows| - 1]);
      assert RoomAmounts(rows)[..|rows| - 1] == RoomAmounts(rows[..|rows| - 1]);
    }
  }

  /** One row of the per-type query: a device's usage and its type. */
  datatype TypeUsage = TypeUsage(kind: string, device: int, kwh: Option<real>)

  function TypeAmounts(rows: seq<TypeUsage>): (rs: seq<Row<string>>)
    ensures |rs| == |rows|
    ensures forall i :: 0 <= i < |rows| ==> rs[i] == Row(rows[i].kind, OrZero(rows[i].kwh))
  {
    seq(|rows|, i requires 0 <= i < |rows| => Row(rows[i].kind, OrZero(rows[i].kwh)))
  }

  /** The device ids of the rows of one type, in row order. */
  function DevicesOfKind(rows: seq<TypeUsage>, kind: string): (ds: seq<int>)
    ensures forall d :: d in ds <==> exists j :: 0 <= j < |rows| && rows[j].kind == kind && rows[j].device == d
  {
    if |rows| == 0 then []
    else
      var init := rows[..|rows| - 1];
      var last := rows[|rows| - 1];
      assert forall j :: 0 <= j < |init| ==> init[j] == rows[j];
      DevicesOfKind(init, kind) + if last.kind == kind then [last.device] else []
  }

  /** `devices.size`: the number of distinct device ids of a type. */
  function DeviceCount(rows: seq<TypeUsage>, kind: string): (n: nat)
    ensures n <= CountWhere(rows, OfKind(kind))
    ensures n > 0 <==> exists j :: 0 <= j < |rows| && rows[j].kind == kind
  {
    var ds := DevicesOfKind(rows, kind);
    KindCount(rows, kind);
    KindPresent(rows, kind);
    assert |ds| > 0 ==> ds[0] in Dedup(ds);
    |Dedup(ds)|
  }

  lemma KindPresent(rows: seq<TypeUsage>, kind: string)
    ensures (exists j :: 0 <= j < |rows| && rows[j].kind == kind) <==> |DevicesOfKind(rows, kind)| > 0
  {
    var ds := DevicesOfKind(rows, kind);
    if exists j :: 0 <= j < |rows| && rows[j].kind == kind {
      var j :| 0 <= j < |rows| && rows[j].kind == kind;
      assert rows[j].device in ds;
    }
    if |ds| > 0 {
      assert ds[0] in ds;
    }
  }

  function OfKind(kind: string): TypeUsage -> bool
  {
    (r: TypeUsage) => r.kind == kind
  }

  lemma {:induction false} KindCount(rows: seq<TypeUsage>, kind: string)
    ensures |DevicesOfKind(rows, kind)| == CountWhere(rows, OfKind(kind))
    decreases |rows|
  {
    if |rows| > 0 {
      KindCount(rows[..|rows| - 1], kind);
    }
  }

  /** No two rows share both type and device, as `GROUP BY` guarantees. */
  predicate GroupedRows(rows: seq<TypeUsage>)
  {
    forall i, j :: 0 <= i < j < |rows| ==> rows[i].kind != rows[j].kind || rows[i].device != rows[j].device
  }

  /** With the query grouping by type and device, each (type, device) pair
      comes once, and the count is the number of the type's rows. */
  lemma DeviceCountOfGroupedRows(rows: seq<TypeUsage>, kind: string)
    requires GroupedRows(rows)
    ensures DeviceCount(rows, kind) == CountWhere(rows, OfKind(kind))
  {
    DevicesOfKindDistinct(rows, kind);
    DedupOfDistinct(DevicesOfKind(rows, kind));
    KindCount(rows, kind);
  }

  predicate NoRepeats<K(==)>(ks: seq<K>)
  {
    forall i, j :: 0 <= i < j < |ks| ==> ks[i] != ks[j]
  }

  lemma {:induction false} DevicesOfKindDistinct(rows: seq<TypeUsage>, kind: string)
    requires GroupedRows(rows)
    ensures NoRepeats(DevicesOfKind(rows, kind))
    decreases |rows|
  {
    if |rows| > 0 {
      var init := rows[..|rows| - 1];
      var last := rows[|rows| - 1];
      assert GroupedRows(init) by {
        assert forall i :: 0 <= i < |init| ==> init[i] == rows[i];
      }
      DevicesOfKindDistinct(init, kind);
      var p := DevicesOfKind(init, kind);
      assert NoRepeats(p);
      if last.kind == kind {
        assert DevicesOfKind(rows, kind) == p + [last.device];
        assert last.device !in p by {
          forall j | 0 <= j < |init| && init[j].kind == kind ensures init[j].device != last.device {
            assert init[j] == rows[j];
          }
        }
        var ds := p + [last.device];
        forall i, j | 0 <= i < j < |ds| ensures ds[i] != ds[j] {
          if j == |p| {
            assert ds[i] == p[i] && p[i] in p && ds[j] == last.device;
          } else {
            assert ds[i] == p[i] && ds[j] == p[j];
          }
        }
      } else {
        assert DevicesOfKind(rows, kind) == DevicesOfKind(init, kind) + [];
        assert DevicesOfKind(init, kind) + [] == DevicesOfKind(init, kind);
      }
    }
  }

  datatype TypeTotal = TypeTotal(kind: string, devices: nat, kwh: real)

  function KindsOf(r: seq<TypeTotal>): (ks: seq<string>)
    ensures |ks| == |r|
    ensures forall i :: 0 <= i < |r| ==> ks[i] == r[i].kind
  {
    seq(|r|, i requires 0 <= i < |r| => r[i].kind)
  }

  function TypeRow(rows: seq<TypeUsage>, g: Row<string>): TypeTotal
  {
    TypeTotal(g.key, DeviceCount(rows, g.key), Round2(g.amount))
  }

  /** `byDeviceType`: one entry per type, in order of first appearance
      before the sort, holding its distinct device count and its summed
      usage rounded to the cent, sorted by descending unrounded usage. */
  function ByType(rows: seq<TypeUsage>): (r: seq<TypeTotal>)
    ensures |r| == |FirstSeenOrder(TypeAmounts(rows))|
  {
    TypeRows(rows, TypeRanking(rows))
  }

  function TypeRows(rows: seq<TypeUsage>, ranked: seq<Row<string>>): (r: seq<TypeTotal>)
    ensures |r| == |ranked|
    ensures forall i :: 0 <= i < |r| ==> r[i] == TypeRow(rows, ranked[i])
  {
    if |ranked| == 0 then []
    else TypeRows(rows, ranked[..|ranked| - 1]) + [TypeRow(rows, ranked[|ranked| - 1])]
  }

  /** The per-type sums in report order, before rounding. */
  function TypeRanking(rows: seq<TypeUsage>): (ranked: seq<Row<string>>)
    ensures |ranked| == |FirstSeenOrder(TypeAmounts(rows))|
  {
    var amounts := TypeAmounts(rows);
    RankedGroups(FirstSeenOrder(amounts), amounts)
  }

  /** Every type of the query rows has its entry. */
  lemma ByTypeCovers(rows: seq<TypeUsage>)
    ensures forall j :: 0 <= j < |rows| ==> rows[j].kind in KindsOf(ByType(rows))
  {
    var amounts := TypeAmounts(rows);
    var ranked := RankedGroups(FirstSeenOrder(amounts), amounts);
    assert KindsOf(ByType(rows)) == KeysOf(ranked);
    forall j | 0 <= j < |rows| ensures rows[j].kind in KeysOf(ranked) {
      assert rows[j].kind == KeysOf(amounts)[j];
    }
  }

  /** Each entry holds its type's rounded sum and its positive number of
      distinct devices. */
  lemma ByTypeTotals(rows: seq<TypeUsage>)
    ensures var r := ByType(rows);
            forall i :: 0 <= i < |r| ==>
              r[i].kwh == Round2(SumFor(TypeAmounts(rows), r[i].kind))
              && r[i].devices == DeviceCount(rows, r[i].kind) && r[i].devices > 0
  {
    var r := ByType(rows);
    forall i | 0 <= i < |r|
      ensures r[i].kwh == Round2(SumFor(TypeAmounts(rows), r[i].kind))
      ensures r[i].devices == DeviceCount(rows, r[i].kind) && r[i].devices > 0
    {
      ByTypeTotalAt(rows, i);
    }
  }

  lemma ByTypeTotalAt(rows: seq<TypeUsage>, i: int)
    requires 0 <= i < |ByType(rows)|
    ensures ByType(rows)[i].kwh == Round2(SumFor(TypeAmounts(rows), ByType(rows)[i].kind))
    ensures ByType(rows)[i].devices == DeviceCount(rows, ByType(rows)[i].kind) && ByType(rows)[i].devices > 0
  {
    var amounts := TypeAmounts(rows);
    var g := TypeRanking(rows)[i];
    assert ByType(rows)[i] == TypeRow(rows, g);
    assert g.key in KeysOf(amounts) && g.amount == SumFor(amounts, g.key);
    TypePresent(rows, g.key);
  }

  /** A type among the grouped keys has at least one device. */
  lemma TypePresent(rows: seq<TypeUsage>, kind: string)
    requires kind in KeysOf(TypeAmounts(rows))
    ensures DeviceCount(rows, kind) > 0
  {
    var ks := KeysOf(TypeAmounts(rows));
    var j :| 0 <= j < |ks| && ks[j] == kind;
    assert rows[j].kind == kind;
  }

  /** The entries run from the largest unrounded sum down, and so do their
      rounded values. */
  lemma ByTypeOrdered(rows: seq<TypeUsage>)
    ensures var r := ByType(rows);
            forall i, j :: 0 <= i < j < |r| ==>
              SumFor(TypeAmounts(rows), r[i].kind) >= SumFor(TypeAmounts(rows), r[j].kind) && r[i].kwh >= r[j].kwh
  {
    var amounts := TypeAmounts(rows);
    var ranked := RankedGroups(FirstSeenOrder(amounts), amounts);
    var r := ByType(rows);
    forall i, j | 0 <= i < j < |r|
      ensures SumFor(amounts, r[i].kind) >= SumFor(amounts, r[j].kind) && r[i].kwh >= r[j].kwh
    {
      assert r[i] == TypeRow(rows, ranked[i]) && r[j] == TypeRow(rows, ranked[j]);
      assert AmountOf(ranked[i]) >= AmountOf(ranked[j]);
      Round2Monotone(ranked[j].amount, ranked[i].amount);
    }
  }

  /** The report's summary block. */
  datatype Summary = Summary(totalKwh: real, averageKwh: real, deviceCount: nat, periodCount: nat)

  /** The total is the sum of the rounded points, the average divides it
      by the number of periods (0 without periods), both rounded. */
  function SummaryOf(ts: seq<Point>, deviceCount: nat): (s: Summary)
    ensures s.periodCount == |ts| && s.deviceCount == deviceCount
    ensures s.totalKwh == Round2(SumBy(ts, PointKwh))
    ensures HalfCent(s.totalKwh, SumBy(ts, PointKwh))
    ensures |ts| == 0 ==> s.totalKwh == 0.0 && s.averageKwh == 0.0
    ensures |ts| > 0 ==> HalfCent(s.averageKwh, SumBy(ts, PointKwh) / (|ts| as real))
    ensures |ts| > 0 ==> s.averageKwh == Round2(SumBy(ts, PointKwh) / (|ts| as real))
  {
    var total := SumBy(ts, PointKwh);
    var average := if |ts| > 0 then total / (|ts| as real) else 0.0;
    Round2Whole(0);
    Summary(Round2(total), Round2(average), deviceCount, |ts|)
  }

  /** The four query results; the per-period one depends on the
      granularity. */
  datatype Queries = Queries(
    periodsFor: Granularity -> seq<PeriodRow>, devices: seq<DeviceUsage>,
    rooms: seq<RoomUsage>, types: seq<TypeUsage>)

  datatype Report = Report(
    from: int, to: int, groupBy: string, summary: Summary, timeSeries: seq<Point>,
    topDevices: seq<TopDevice>, byRoom: seq<RoomTotal>, byType: seq<TypeTotal>)

  function Rerounded(p: Point): Point { Point(p.period, Round2(p.kwh)) }

  /** `generateConsumptionReport`: 404 unless the household is the user's;
      the time series is rounded once more on output, which changes
      nothing. */
  function GenerateConsumptionReport(owned: bool, from: int, to: int, groupBy: string, q: Queries)
    : (r: Result<Report, int>)
    ensures r.Err? <==> !owned
    ensures r.Err? ==> r.error == 404
    ensures r.Ok? ==>
              var rep := r.value;
              var ts := TimeSeries(q.periodsFor(ParseGroupBy(groupBy)));
              rep.groupBy == groupBy && rep.from == from && rep.to == to
              && rep.timeSeries == ts
              && rep.topDevices == TopDevices(q.devices)
              && rep.byRoom == ByRoom(q.rooms) && rep.byType == ByType(q.types)
              && rep.summary == SummaryOf(ts, |rep.topDevices|)
              && rep.summary.deviceCount <= TopLimit
              && rep.summary.periodCount == |rep.timeSeries|
  {
    if !owned then Err(404)
    else
      var ts := TimeSeries(q.periodsFor(ParseGroupBy(groupBy)));
      var top := TopDevices(q.devices);
      var shown := seq(|ts|, i requires 0 <= i < |ts| => Rerounded(ts[i]));
      assert shown == ts by {
        forall i | 0 <= i < |ts| ensures shown[i] == ts[i] {
          Round2Idempotent(SumFor(PeriodAmounts(q.periodsFor(ParseGroupBy(groupBy))), ts[i].period));
        }
      }
      Ok(Report(from, to, groupBy, SummaryOf(ts, |top|), shown, top, ByRoom(q.rooms), ByType(q.types)))
  }

  /** `rast`, `pad`, `stabilno`. */
  datatype Trend = Rise | Fall | Steady

  datatype Difference = Difference(kwh: real, percent: real)

  datatype Comparison = Comparison(first: Summary, second: Summary, difference: Difference, trend: Trend)

  /** The difference of two totals, its percentage of the second (0 unless
      the second is positive), both rounded, and the trend of the unrounded
      difference. */
  function CompareTotals(t1: real, t2: real): (r: (Difference, Trend))
    ensures HalfCent(r.0.kwh, t1 - t2)
    ensures t2 > 0.0 ==> HalfCent(r.0.percent, (t1 - t2) / t2 * 100.0)
    ensures t2 <= 0.0 ==> r.0.percent == 0.0
    ensures r.0.kwh == Round2(t1 - t2)
    ensures t2 > 0.0 ==> r.0.percent == Round2((t1 - t2) / t2 * 100.0)
    ensures r.1 == Rise <==> t1 > t2
    ensures r.1 == Fall <==> t1 < t2
    ensures r.1 == Steady <==> t1 == t2
  {
    var diff := t1 - t2;
    var percent := if t2 > 0.0 then diff / t2 * 100.0 else 0.0;
    Round2Whole(0);
    (Difference(Round2(diff), Round2(percent)), if diff > 0.0 then Rise else if diff < 0.0 then Fall else Steady)
  }

  /** `comparePeriodsReport`: both reports by day, then their totals
      compared. */
  function ComparePeriodsReport(owned: bool, from1: int, to1: int, from2: int, to2: int, q1: Queries, q2: Queries)
    : (r: Result<Comparison, int>)
    ensures r.Err? <==> !owned
    ensures r.Err? ==> r.error == 404
    ensures r.Ok? ==>
              r.value.first == GenerateConsumptionReport(true, from1, to1, NameOf(Day), q1).value.summary
              && r.value.second == GenerateConsumptionReport(true, from2, to2, NameOf(Day), q2).value.summary
              && (r.value.difference, r.value.trend) == CompareTotals(r.value.first.totalKwh, r.value.second.totalKwh)
  {
    match GenerateConsumptionReport(owned, from1, to1, NameOf(Day), q1)
    case Err(e) => Err(e)
    case Ok(rep1) =>
      match GenerateConsumptionReport(owned, from2, to2, NameOf(Day), q2)
      case Err(e) => Err(e)
      case Ok(rep2) =>
        var (d, t) := CompareTotals(rep1.summary.totalKwh, rep2.summary.totalKwh);
        Ok(Comparison(rep1.summary, rep2.summary, d, t))
  }

  /** Swapping the two periods swaps a rise for a fall and keeps a steady
      trend. */
  lemma SwappedTrend(t1: real, t2: real)
    ensures CompareTotals(t1, t2).1 == Rise <==> CompareTotals(t2, t1).1 == Fall
    ensures CompareTotals(t1, t2).1 == Steady <==> CompareTotals(t2, t1).1 == Steady
  {
  }
}

=== FILE: scheduler.dfy ===
/** The collection scheduler: a start/stop state machine over an optional
    job, and one collection cycle over every pollable plug. */
module Scheduler {
  import opened Common
  import opened Records
  import opened Shelly
  import opened Measurements

  /** A scheduled job and its cron expression. */
  datatype Job = Job(schedule: string)

  /** The module-level `collectionJob`. */
  datatype State = State(job: Option<Job>)

  /** The schedule `startDataCollection` uses when called without one:
      every five minutes. */
  const DefaultSchedule: string := "*/5 * * * *"

  datatype StartError = InvalidCron(schedule: string)

  /** `isRunning`: a job is running exactly when one is stored. */
  function IsRunning(s: State): (r: bool)
    ensures r <==> s != State(None)
  {
    s.job.Some?
  }

  /** `startDataCollection`: refuses a second job, rejects an invalid cron
      expression before creating anything, otherwise schedules the job.
      Cron validation is the parameter `validCron`. */
  function StartDataCollection(s: State, schedule: string, validCron: string -> bool)
    : (r: Result<(State, bool), StartError>)
    ensures IsRunning(s) ==> r == Ok((s, false))
    ensures !IsRunning(s) && !validCron(schedule) ==> r == Err(InvalidCron(schedule))
    ensures r.Ok? && r.value.1 <==> !IsRunning(s) && validCron(schedule)
    ensures r.Ok? ==> IsRunning(r.value.0) && (r.value.1 ==> r.value.0.job.value.schedule == schedule)
  {
    if s.job.Some? then Ok((s, false))
    else if !validCron(schedule) then Err(InvalidCron(schedule))
    else Ok((State(Some(Job(schedule))), true))
  }

  /** `stopDataCollection`: true exactly when a job was running; the job is
      gone afterwards either way. */
  function StopDataCollection(s: State): (r: (State, bool))
    ensures r.1 <==> IsRunning(s)
    ensures !IsRunning(r.0)
  {
    (State(None), s.job.Some?)
  }

  /** A start without an argument schedules the five-minute default when
      nothing runs and the default is a valid expression. */
  lemma StartWithDefault(s: State, validCron: string -> bool)
    requires !IsRunning(s) && validCron(DefaultSchedule)
    ensures StartDataCollection(s, DefaultSchedule, validCron) == Ok((State(Some(Job("*/5 * * * *"))), true))
  {
  }

  /** Stopping a running job makes a later valid start succeed again. */
  lemma StopThenStart(s: State, schedule: string, validCron: string -> bool)
    requires IsRunning(s) && validCron(schedule)
    ensures StopDataCollection(s).1
    ensures StartDataCollection(StopDataCollection(s).0, schedule, validCron) == Ok((State(Some(Job(schedule))), true))
  {
  }

  /** A second start, with any expression, changes nothing and reports
      false. */
  lemma StartTwice(s: State, first: string, second: string, validCron: string -> bool)
    requires StartDataCollection(s, first, validCron).Ok?
    ensures var s1 := StartDataCollection(s, first, validCron).value.0;
            StartDataCollection(s1, second, validCron) == Ok((s1, false))
  {
  }

  /** The cycle's selection: `status = 'aktivan' AND ip_adresa IS NOT NULL`. */
  predicate Pollable(p: Plug)
  {
    p.status == Active && p.ip.Some?
  }

  function PollableFn(): Plug -> bool
  {
    (p: Plug) => Pollable(p)
  }

  function Selection(plugs: seq<Plug>): (r: seq<Plug>)
    ensures forall i :: 0 <= i < |r| ==> Pollable(r[i]) && r[i] in plugs
    ensures forall i :: 0 <= i < |plugs| && Pollable(plugs[i]) ==> plugs[i] in r
  {
    Filter(plugs, PollableFn())
  }

  /** The reading a pollable plug returns in this cycle; the plug at an
      address answers with `net(address)`. */
  function Outcome(p: Plug, net: string -> Transport): Result<EnergyReading, Failure>
    requires p.ip.Some?
  {
    GetCurrentEnergyConsumption(p.ip.value, net(p.ip.value))
  }

  /** The plug's failure is one the cycle treats as a lost connection. */
  predicate LostConnection(p: Plug, net: string -> Transport)
    requires p.ip.Some?
  {
    Outcome(p, net).Err? && MentionsTransport(Message(Outcome(p, net).error))
  }

  /** `UPDATE pametni_utikac SET status = 'neaktivan' WHERE utikac_id = ?`. */
  function Deactivate(plugs: seq<Plug>, id: int): (r: seq<Plug>)
    ensures |r| == |plugs|
    ensures forall i :: 0 <= i < |r| ==>
              r[i] == if plugs[i].id == id then plugs[i].(status := Inactive) else plugs[i]
  {
    seq(|plugs|, i requires 0 <= i < |plugs| => if plugs[i].id == id then plugs[i].(status := Inactive) else plugs[i])
  }

  /** What one cycle has done so far. */
  datatype Cycle = Cycle(plugs: seq<Plug>, table: MeasurementTable, successCount: nat, errorCount: nat)

  /** One iteration of the loop: store the reading, or count the error and
      deactivate the plug when the connection was lost. */
  function PollOne(c: Cycle, p: Plug, net: string -> Transport): Cycle
    requires p.ip.Some?
  {
    match Outcome(p, net)
    case Ok(e) =>
      var (t, _) := SaveMeasurement(c.table, p.device, p.id, e.energyKwh, e.timestampMs, Automatic);
      Cycle(c.plugs, t, c.successCount + 1, c.errorCount)
    case Err(f) =>
      Cycle(if MentionsTransport(Message(f)) then Deactivate(c.plugs, p.id) else c.plugs,
            c.table, c.successCount, c.errorCount + 1)
  }

  function Succeeds(net: string -> Transport): Plug -> bool
  {
    (p: Plug) => p.ip.Some? && Outcome(p, net).Ok?
  }

  /** Some plug with this id among `ds` lost its connection. */
  predicate AnyLost(ds: seq<Plug>, id: int, net: string -> Transport)
    requires forall i :: 0 <= i < |ds| ==> ds[i].ip.Some?
  {
    exists i :: 0 <= i < |ds| && ds[i].id == id && LostConnection(ds[i], net)
  }

  /** The loop over the selected plugs, in order. */
  function PollAll(c: Cycle, ds: seq<Plug>, net: string -> Transport): (r: Cycle)
    requires forall i :: 0 <= i < |ds| ==> ds[i].ip.Some?
    ensures r.successCount + r.errorCount == c.successCount + c.errorCount + |ds|
    ensures r.successCount == c.successCount + CountWhere(ds, Succeeds(net))
    ensures |r.table.rows| == |c.table.rows| + (r.successCount - c.successCount)
    ensures r.table.rows[..|c.table.rows|] == c.table.rows
    ensures |r.plugs| == |c.plugs|
    decreases |ds|
  {
    if |ds| == 0 then c
    else
      CountWhereHead(ds, Succeeds(net));
      PollAll(PollOne(c, ds[0], net), ds[1..], net)
  }

  /** `collectDataFromAllActiveDevices`: one cycle over the selection. */
  function CollectCycle(plugs: seq<Plug>, table: MeasurementTable, net: string -> Transport): (r: Cycle)
    ensures r.successCount + r.errorCount == |Selection(plugs)|
    ensures |r.table.rows| == |table.rows| + r.successCount
    ensures r.table.rows[..|table.rows|] == table.rows
    ensures |Selection(plugs)| == 0 ==> r == Cycle(plugs, table, 0, 0)
  {
    PollAll(Cycle(plugs, table, 0, 0), Selection(plugs), net)
  }

  /** The cycle as a loop over the selected plugs. */
  method RunCycle(plugs: seq<Plug>, table: MeasurementTable, net: string -> Transport) returns (r: Cycle)
    ensures r == CollectCycle(plugs, table, net)
  {
    var devices := Selection(plugs);
    if |devices| == 0 {
      return Cycle(plugs, table, 0, 0);
    }
    assert forall k :: 0 <= k < |devices| ==> devices[k].ip.Some?;
    r := Cycle(plugs, table, 0, 0);
    var i := 0;
    while i < |devices|
      invariant 0 <= i <= |devices|
      invariant forall k :: 0 <= k < |devices[i..]| ==> devices[i..][k].ip.Some?
      invariant PollAll(r, devices[i..], net) == CollectCycle(plugs, table, net)
    {
      PollAllStep(r, devices[i..], net);
      assert devices[i..][1..] == devices[i + 1..];
      r := PollOne(r, devices[i], net);
      i := i + 1;
    }
  }

  /** One step of the cycle: polling the first plug, then the rest. */
  lemma PollAllStep(c: Cycle, ds: seq<Plug>, net: string -> Transport)
    requires |ds| > 0 && forall i :: 0 <= i < |ds| ==> ds[i].ip.Some?
    ensures PollAll(c, ds, net) == PollAll(PollOne(c, ds[0], net), ds[1..], net)
  {
  }

  /** `m` is the row a successful poll of `p` stores: the plug's device and
      id, the reading's energy and time, an automatic valid reading. */
  predicate Saves(m: Measurement, p: Plug, net: string -> Transport)
    requires p.ip.Some?
  {
    Outcome(p, net).Ok?
    && m.device == p.device && m.plug == p.id && m.kwh == Outcome(p, net).value.energyKwh
    && m.time == Outcome(p, net).value.timestampMs && m.kind == Automatic && m.valid
  }

  /** `rows` are, one for one and in order, the rows saved for the plugs
      `ok`. */
  predicate SavedFor(rows: seq<Measurement>, ok: seq<Plug>, net: string -> Transport)
    decreases |ok|
  {
    |rows| == |ok|
    && (|ok| == 0 || (ok[0].ip.Some? && Saves(rows[0], ok[0], net) && SavedFor(rows[1..], ok[1..], net)))
  }

  /** One poll appends the plug's row when its reading succeeded and
      leaves the table alone otherwise. */
  lemma PollOneSaves(c: Cycle, p: Plug, net: string -> Transport)
    requires p.ip.Some?
    ensures var t := PollOne(c, p, net).table;
            if Succeeds(net)(p) then |t.rows| == |c.table.rows| + 1 && t.rows[..|c.table.rows|] == c.table.rows
                                     && Saves(t.rows[|c.table.rows|], p, net)
            else t == c.table
  {
  }

  /** The loop keeps every earlier row and appends one row per plug whose
      reading succeeded, in the order the plugs were polled. */
  lemma {:induction false} PollAllSaves(c: Cycle, ds: seq<Plug>, net: string -> Transport)
    requires forall i :: 0 <= i < |ds| ==> ds[i].ip.Some?
    ensures var r := PollAll(c, ds, net);
            |c.table.rows| <= |r.table.rows| && r.table.rows[..|c.table.rows|] == c.table.rows
            && SavedFor(r.table.rows[|c.table.rows|..], Filter(ds, Succeeds(net)), net)
    decreases |ds|
  {
    if |ds| > 0 {
      var c1 := PollOne(c, ds[0], net);
      PollAllSaves(c1, ds[1..], net);
      FilterHead(ds, Succeeds(net));
      var rows := PollAll(c, ds, net).table.rows;
      var n := |c.table.rows|;
      PollOneSaves(c, ds[0], net);
      if Succeeds(net)(ds[0]) {
        var ok := Filter(ds, Succeeds(net));
        assert ok[0] == ds[0] && ok[1..] == Filter(ds[1..], Succeeds(net));
        assert rows[n] == c1.table.rows[n];
        assert rows[n..][1..] == rows[n + 1..];
      }
    }
  }

  /** The cycle stores exactly the readings of the selected plugs that
      answered, one row each, in selection order, after the rows that were
      there. */
  lemma CycleSaves(plugs: seq<Plug>, table: MeasurementTable, net: string -> Transport)
    ensures var r := CollectCycle(plugs, table, net);
            r.table.rows[..|table.rows|] == table.rows
            && SavedFor(r.table.rows[|table.rows|..], Filter(Selection(plugs), Succeeds(net)), net)
  {
    PollAllSaves(Cycle(plugs, table, 0, 0), Selection(plugs), net);
  }

  /** Each plug ends the cycle deactivated exactly when a plug with its id
      lost its connection during the cycle. */
  lemma {:induction false} PollAllDeactivates(c: Cycle, ds: seq<Plug>, net: string -> Transport)
    requires forall i :: 0 <= i < |ds| ==> ds[i].ip.Some?
    ensures forall i :: 0 <= i < |c.plugs| ==>
              PollAll(c, ds, net).plugs[i]
              == if AnyLost(ds, c.plugs[i].id, net) then c.plugs[i].(status := Inactive) else c.plugs[i]
    decreases |ds|
  {
    if |ds| > 0 {
      var c1 := PollOne(c, ds[0], net);
      PollAllDeactivates(c1, ds[1..], net);
      forall i | 0 <= i < |c.plugs|
        ensures PollAll(c, ds, net).plugs[i]
                == if AnyLost(ds, c.plugs[i].id, net) then c.plugs[i].(status := Inactive) else c.plugs[i]
      {
        PollOnePlug(c, ds[0], net, i);
        AnyLostHead(ds, c.plugs[i].id, net);
      }
    }
  }

  /** One poll deactivates a plug exactly when the polled plug has its id
      and lost its connection. */
  lemma PollOnePlug(c: Cycle, p: Plug, net: string -> Transport, i: int)
    requires p.ip.Some? && 0 <= i < |c.plugs|
    ensures |PollOne(c, p, net).plugs| == |c.plugs|
    ensures PollOne(c, p, net).plugs[i]
            == if p.id == c.plugs[i].id && LostConnection(p, net) then c.plugs[i].(status := Inactive) else c.plugs[i]
  {
  }

  lemma AnyLostHead(ds: seq<Plug>, id: int, net: string -> Transport)
    requires |ds| > 0 && forall i :: 0 <= i < |ds| ==> ds[i].ip.Some?
    ensures AnyLost(ds, id, net) <==> (ds[0].id == id && LostConnection(ds[0], net)) || AnyLost(ds[1..], id, net)
  {
    if AnyLost(ds, id, net) {
      var k :| 0 <= k < |ds| && ds[k].id == id && LostConnection(ds[k], net);
      if k > 0 {
        assert ds[1..][k - 1] == ds[k];
      }
    }
    if AnyLost(ds[1..], id, net) {
      var k :| 0 <= k < |ds[1..]| && ds[1..][k].id == id && LostConnection(ds[1..][k], net);
      assert ds[k + 1] == ds[1..][k];
    }
  }

  /** With plug ids a primary key, the cycle deactivates exactly the
      pollable plugs whose status request failed; every other plug is left
      as it was. */
  lemma CycleDeactivatesLostPlugs(plugs: seq<Plug>, table: MeasurementTable, net: string -> Transport)
    requires DistinctPlugIds(plugs)
    ensures var r := CollectCycle(plugs, table, net);
            |r.plugs| == |plugs|
            && forall i :: 0 <= i < |plugs| ==>
                 r.plugs[i] == if Pollable(plugs[i]) && !net(plugs[i].ip.value).Answer?
                               then plugs[i].(status := Inactive) else plugs[i]
  {
    var sel := Selection(plugs);
    PollAllDeactivates(Cycle(plugs, table, 0, 0), sel, net);
    forall i | 0 <= i < |plugs|
      ensures AnyLost(sel, plugs[i].id, net) <==> Pollable(plugs[i]) && !net(plugs[i].ip.value).Answer?
    {
      LostIffRequestFailed(plugs, net, i);
    }
  }

  /** Under distinct ids, a plug's id is lost in the cycle exactly when the
      plug itself is pollable and its status request failed. */
  lemma LostIffRequestFailed(plugs: seq<Plug>, net: string -> Transport, i: int)
    requires DistinctPlugIds(plugs) && 0 <= i < |plugs|
    ensures AnyLost(Selection(plugs), plugs[i].id, net) <==> Pollable(plugs[i]) && !net(plugs[i].ip.value).Answer?
  {
    if AnyLost(Selection(plugs), plugs[i].id, net) {
      LostMeansFailed(plugs, net, i);
    }
    if Pollable(plugs[i]) && !net(plugs[i].ip.value).Answer? {
      FailedMeansLost(plugs, net, i);
    }
  }

  lemma LostMeansFailed(plugs: seq<Plug>, net: string -> Transport, i: int)
    requires DistinctPlugIds(plugs) && 0 <= i < |plugs|
    requires AnyLost(Selection(plugs), plugs[i].id, net)
    ensures Pollable(plugs[i]) && !net(plugs[i].ip.value).Answer?
  {
    var sel := Selection(plugs);
    var k :| 0 <= k < |sel| && sel[k].id == plugs[i].id && LostConnection(sel[k], net);
    var j :| 0 <= j < |plugs| && plugs[j] == sel[k];
    assert j == i;
    TransportIffRequestFailed(sel[k].ip.value, net(sel[k].ip.value));
  }

  lemma FailedMeansLost(plugs: seq<Plug>, net: string -> Transport, i: int)
    requires 0 <= i < |plugs|
    requires Pollable(plugs[i]) && !net(plugs[i].ip.value).Answer?
    ensures AnyLost(Selection(plugs), plugs[i].id, net)
  {
    var sel := Selection(plugs);
    var k :| 0 <= k < |sel| && sel[k] == plugs[i];
    TransportIffRequestFailed(plugs[i].ip.value, net(plugs[i].ip.value));
    assert LostConnection(sel[k], net);
  }

  /** A plug deactivated by the cycle is not selected by the next one. */
  lemma DeactivatedNotReselected(plugs: seq<Plug>, table: MeasurementTable, net: string -> Transport)
    requires DistinctPlugIds(plugs)
    ensures var r := CollectCycle(plugs, table, net);
            forall q :: q in Selection(r.plugs) ==> q in plugs && net(q.ip.value).Answer?
  {
    CycleDeactivatesLostPlugs(plugs, table, net);
    NotReselected(plugs, CollectCycle(plugs, table, net).plugs, net);
  }

  lemma NotReselected(plugs: seq<Plug>, r: seq<Plug>, net: string -> Transport)
    requires |r| == |plugs|
    requires forall i :: 0 <= i < |plugs| ==>
               r[i] == if Pollable(plugs[i]) && !net(plugs[i].ip.value).Answer?
                       then plugs[i].(status := Inactive) else plugs[i]
    ensures forall q :: q in Selection(r) ==> q in plugs && net(q.ip.value).Answer?
  {
    forall q | q in Selection(r) ensures q in plugs && net(q.ip.value).Answer? {
      var i :| 0 <= i < |r| && r[i] == q;
      assert q.status == Active;
      assert r[i] == plugs[i];
    }
  }
}

=== FILE: shelly.dfy ===
/** Decoding a smart plug's `Shelly.GetStatus` answer: the power-meter
    component with its fallback, the switch component, the unit
    conversions of the energy reading, and the mapping of transport and
    decode failures onto error messages. */
module Shelly {
  import opened Common

  /** The `aenergy` object: cumulative energy in Wh, the per-minute
      history, and the Unix time (seconds) of the current minute. */
  datatype EnergyCounter = EnergyCounter(total: real, byMinute: seq<real>, minuteTs: int)

  /** A `pm1:0` or `switch:0` component of the status. `aenergy` may be
      absent; `temperatureC` is `temperature.tC` where both exist. */
  datatype Component = Component(
    id: int, output: bool, voltage: real, current: real, apower: real, freq: real,
    aenergy: Option<EnergyCounter>, temperatureC: Option<real>)

  /** The two components the decoder looks at. */
  datatype Status = Status(pm1: Option<Component>, switch0: Option<Component>)

  datatype PowerMeter = PowerMeter(
    voltage: real, current: real, power: real, frequency: real,
    totalEnergy: real, energyByMinute: seq<real>, timestamp: int)

  datatype SwitchState = SwitchState(id: int, output: bool, temperature: Option<real>)

  /** The reasons a status request or decode fails, each standing for the
      message the source throws:
      `Timeout(ip)` — "Timeout: Uređaj na <ip> ne odgovara.";
      `Communication(ip, inner)` — "Greška pri komunikaciji sa <ip>: <inner>";
      `NoPowerMeter` and `NoSwitch` — the "... podaci nisu dostupni u statusu." texts;
      `MissingEnergy` — the TypeError of reading `total` of a missing `aenergy`;
      `Consumption(inner)` — "Greška pri dohvaćanju potrošnje: <inner>". */
  datatype Failure =
    | Timeout(ip: string)
    | Communication(ip: string, inner: string)
    | NoPowerMeter
    | NoSwitch
    | MissingEnergy
    | Consumption(cause: Failure)

  /** What the HTTP exchange produced: an abort by the timeout, a non-2xx
      status, a network or body error with its message, or a parsed
      status. */
  datatype Transport = Aborted | HttpStatus(code: int) | NetworkError(message: string) | Answer(status: Status)

  /** `getShellyStatus`: an abort becomes a timeout, every other failure a
      communication error carrying the inner message. */
  function GetShellyStatus(ip: string, t: Transport): (r: Result<Status, Failure>)
    ensures r.Ok? <==> t.Answer?
    ensures r.Ok? ==> r.value == t.status
    ensures r.Err? ==> (r.error.Timeout? <==> t.Aborted?)
    ensures r.Err? ==> (r.error.Communication? <==> !t.Aborted?)
    ensures r.Err? ==> r.error.ip == ip
  {
    match t
    case Aborted => Err(Timeout(ip))
    case HttpStatus(code) => Err(Communication(ip, "HTTP error! status: " + IntText(code)))
    case NetworkError(m) => Err(Communication(ip, m))
    case Answer(st) => Ok(st)
  }

  /** Decimal text of an integer. */
  function IntText(n: int): (s: string)
    ensures |s| > 0
    decreases if n < 0 then 1 - n else n
  {
    if n < 0 then "-" + IntText(-n)
    else if n < 10 then [DigitChar(n)]
    else IntText(n / 10) + [DigitChar(n % 10)]
  }

  function DigitChar(d: int): char
    requires 0 <= d < 10
  {
    "0123456789"[d]
  }

  /** `testShellyConnection`: true exactly when the status request
      succeeds. */
  function TestShellyConnection(ip: string, t: Transport): (ok: bool)
    ensures ok <==> t.Answer?
  {
    GetShellyStatus(ip, t).Ok?
  }

  /** `parsePowerMeterFromStatus`: `pm1:0` when present, else `switch:0`. */
  function ParsePowerMeter(st: Status): (r: Result<PowerMeter, Failure>)
    ensures r == Err(NoPowerMeter) <==> st.pm1.None? && st.switch0.None?
    ensures r.Ok? ==>
              var c := if st.pm1.Some? then st.pm1.value else st.switch0.value;
              (st.pm1.Some? || st.switch0.Some?)
              && c.aenergy.Some?
              && r.value == PowerMeter(c.voltage, c.current, c.apower, c.freq,
                                       c.aenergy.value.total, c.aenergy.value.byMinute, c.aenergy.value.minuteTs)
    ensures r.Err? ==> r.error == NoPowerMeter || r.error == MissingEnergy
    ensures r == Err(MissingEnergy) <==>
              (st.pm1.Some? || st.switch0.Some?)
              && (if st.pm1.Some? then st.pm1.value else st.switch0.value).aenergy.None?
  {
    var pm := if st.pm1.Some? then st.pm1 else st.switch0;
    match pm
    case None => Err(NoPowerMeter)
    case Some(c) =>
      match c.aenergy
      case None => Err(MissingEnergy)
      case Some(e) => Ok(PowerMeter(c.voltage, c.current, c.apower, c.freq, e.total, e.byMinute, e.minuteTs))
  }

  /** The fallback: when `pm1:0` is present the `switch:0` component plays
      no part; when it is absent, `switch:0` is read exactly as `pm1:0`
      would have been. */
  lemma PowerMeterFallback(st: Status)
    ensures st.pm1.Some? ==> ParsePowerMeter(st) == ParsePowerMeter(Status(st.pm1, None))
    ensures st.pm1.None? ==> ParsePowerMeter(st) == ParsePowerMeter(Status(st.switch0, None))
  {
  }

  /** `tC || null`: a missing or zero reading is reported as `null`. */
  function TemperatureOf(tC: Option<real>): (t: Option<real>)
    ensures t.Some? <==> tC.Some? && tC.value != 0.0
    ensures t.Some? ==> t.value == tC.value
  {
    match tC
    case Some(v) => if v != 0.0 then Some(v) else None
    case None => None
  }

  /** `parseSwitchFromStatus`: only `switch:0` is accepted. */
  function ParseSwitch(st: Status): (r: Result<SwitchState, Failure>)
    ensures r.Err? <==> st.switch0.None?
    ensures r.Err? ==> r.error == NoSwitch
    ensures r.Ok? ==> r.value.id == st.switch0.value.id && r.value.output == st.switch0.value.output
                      && r.value.temperature == TemperatureOf(st.switch0.value.temperatureC)
  {
    match st.switch0
    case None => Err(NoSwitch)
    case Some(sw) => Ok(SwitchState(sw.id, sw.output, TemperatureOf(sw.temperatureC)))
  }

  /** The reading the collectors store: energy in kWh and the timestamp in
      milliseconds. */
  datatype EnergyReading = EnergyReading(
    energyKwh: real, currentPower: real, voltage: real, current: real, frequency: real,
    isOn: bool, temperature: Option<real>, timestampMs: int)

  function Reading(pm: PowerMeter, sw: SwitchState): (e: EnergyReading)
    ensures e.energyKwh * 1000.0 == pm.totalEnergy
    ensures e.timestampMs / 1000 == pm.timestamp && e.timestampMs % 1000 == 0
    ensures e.currentPower == pm.power && e.isOn == sw.output && e.temperature == sw.temperature
  {
    EnergyReading(pm.totalEnergy / 1000.0, pm.power, pm.voltage, pm.current, pm.frequency,
                  sw.output, sw.temperature, pm.timestamp * 1000)
  }

  /** `getCurrentEnergyConsumption`: fetch, decode the meter, decode the
      switch, convert; any failure on the way is re-thrown behind the
      consumption prefix. */
  function GetCurrentEnergyConsumption(ip: string, t: Transport): (r: Result<EnergyReading, Failure>)
    ensures r.Err? ==> r.error.Consumption?
    ensures t.Aborted? ==> r == Err(Consumption(Timeout(ip)))
    ensures r.Ok? <==> t.Answer? && ParsePowerMeter(t.status).Ok? && t.status.switch0.Some?
    ensures r.Ok? ==> r.value == Reading(ParsePowerMeter(t.status).value, ParseSwitch(t.status).value)
  {
    match GetShellyStatus(ip, t)
    case Err(f) => Err(Consumption(f))
    case Ok(st) =>
      match ParsePowerMeter(st)
      case Err(f) => Err(Consumption(f))
      case Ok(pm) =>
        match ParseSwitch(st)
        case Err(f) => Err(Consumption(f))
        case Ok(sw) => Ok(Reading(pm, sw))
  }

  /** The text of a failure's message. The fixed texts are written as
      concatenations of short pieces; the strings are the source's. */
  function Message(f: Failure): string
  {
    match f
    case Timeout(ip) => "Timeout: Uređaj na " + ip + " ne odgovara."
    case Communication(ip, inner) => "Greška pri " + "komunikaciji sa " + ip + ": " + inner
    case NoPowerMeter => NoPowerMeterText
    case NoSwitch => NoSwitchText
    case MissingEnergy => MissingEnergyText
    case Consumption(inner) => ConsumptionHead + ConsumptionTail + Message(inner)
  }

  const NoPowerMeterText: string := "Power meter podaci " + "nisu dostupni " + "u statusu."
  const NoSwitchText: string := "Switch podaci nisu " + "dostupni u statusu."
  const MissingEnergyText: string := "Cannot read properties " + "of undefined " + "(reading 'total')"

  /** The consumption prefix "Greška pri dohvaćanju potrošnje: ", split
      after its only `k`. */
  const ConsumptionHead: string := "Greška"
  const ConsumptionTail: string := " pri dohvaćanju " + "potrošnje: "

  /** A failure raised while decoding an answered status. */
  predicate IsParseFailure(f: Failure)
  {
    f == NoPowerMeter || f == NoSwitch || f == MissingEnergy
  }

  /** `t` occurs in `s` starting at index `i`. */
  predicate InfixAt(s: string, t: string, i: int)
  {
    0 <= i <= |s| - |t| && s[i..i + |t|] == t
  }

  /** JavaScript's `s.includes(t)`. */
  predicate HasInfix(s: string, t: string)
  {
    exists i | 0 <= i <= |s| - |t| :: InfixAt(s, t, i)
  }

  /** The collector's test on an error message:
      `includes('Timeout') || includes('komunikaciji')`. */
  predicate MentionsTransport(m: string)
  {
    HasInfix(m, "Timeout") || HasInfix(m, "komunikaciji")
  }

  /** The words the collector looks for are in the text of every
      transport failure, and stay there behind the consumption prefix. */
  lemma TransportMessagesMention(ip: string, t: Transport)
    requires !t.Answer?
    ensures MentionsTransport(Message(GetShellyStatus(ip, t).error))
    ensures MentionsTransport(Message(Consumption(GetShellyStatus(ip, t).error)))
  {
    var f := GetShellyStatus(ip, t).error;
    var m := Message(f);
    if t.Aborted? {
      TimeoutMentioned(f);
      InfixAfterPrefix(ConsumptionHead + ConsumptionTail, m, "Timeout");
    } else {
      CommunicationMentioned(f);
      InfixAfterPrefix(ConsumptionHead + ConsumptionTail, m, "komunikaciji");
    }
  }

  lemma TimeoutMentioned(f: Failure)
    requires f.Timeout?
    ensures HasInfix(Message(f), "Timeout")
  {
    var m := Message(f);
    assert m[0..7] == "Timeout";
    assert InfixAt(m, "Timeout", 0);
  }

  lemma CommunicationMentioned(f: Failure)
    requires f.Communication?
    ensures HasInfix(Message(f), "komunikaciji")
  {
    var m := Message(f);
    assert m[11..23] == "komunikaciji";
    assert InfixAt(m, "komunikaciji", 11);
  }

  lemma InfixAfterPrefix(p: string, s: string, t: string)
    requires HasInfix(s, t)
    ensures HasInfix(p + s, t)
  {
    var i :| 0 <= i <= |s| - |t| && InfixAt(s, t, i);
    assert (p + s)[|p| + i..|p| + i + |t|] == t;
    assert InfixAt(p + s, t, |p| + i);
  }

  /** A text without the first letter of a word does not contain it. */
  lemma AbsentLetter(s: string, t: string)
    requires |t| > 0 && t[0] !in s
    ensures !HasInfix(s, t)
  {
    forall i | 0 <= i <= |s| - |t| ensures !InfixAt(s, t, i) {
      assert s[i] in s;
      assert s[i..i + |t|][0] == s[i];
    }
  }

  /** The consumption prefix holds one `k`, followed by `a`, so no
      `ko` starts inside it; behind it comes a text without `k`. */
  lemma {:induction false} NoKoAfterPrefix(s: string, t: string)
    requires 'k' !in s && |t| >= 2 && t[0] == 'k' && t[1] == 'o'
    ensures !HasInfix(ConsumptionHead + ConsumptionTail + s, t)
  {
    var h, tail := ConsumptionHead, ConsumptionTail;
    var m := h + tail + s;
    assert h == ['G', 'r', 'e', 'š', 'k', 'a'];
    assert 'k' !in tail;
    forall i | 0 <= i <= |m| - |t| ensures !InfixAt(m, t, i) {
      assert m[i..i + |t|][0] == m[i] && m[i..i + |t|][1] == m[i + 1];
      if i < 6 {
        assert m[i] == h[i];
        if i == 4 {
          assert m[i + 1] == h[5];
        }
      } else if i < 6 + |tail| {
        assert m[i] == tail[i - 6];
      } else {
        assert m[i] == s[i - 6 - |tail|];
      }
    }
  }

  /** The decode messages contain neither a `T` nor a `k`. */
  lemma ParseTextsPlain(f: Failure)
    requires IsParseFailure(f)
    ensures 'T' !in Message(f) && 'k' !in Message(f)
  {
    if f == NoPowerMeter {
      NoPowerMeterPlain();
    } else if f == NoSwitch {
      NoSwitchPlain();
    } else {
      MissingEnergyPlain();
    }
  }

  lemma NoPowerMeterPlain()
    ensures 'T' !in NoPowerMeterText && 'k' !in NoPowerMeterText
  {
    PowerMeterPlain();
    NotAvailablePlain();
    Plain3("Power meter podaci ", "nisu dostupni ", "u statusu.");
  }

  lemma NoSwitchPlain()
    ensures 'T' !in NoSwitchText && 'k' !in NoSwitchText
  {
    SwitchPlain();
    InStatusPlain();
    Plain2("Switch podaci nisu ", "dostupni u statusu.");
  }

  lemma PowerMeterPlain()
    ensures 'T' !in "Power meter podaci " && 'k' !in "Power meter podaci "
  {
  }

  lemma NotAvailablePlain()
    ensures 'T' !in "nisu dostupni " && 'k' !in "nisu dostupni "
  {
  }

  lemma SwitchPlain()
    ensures 'T' !in "Switch podaci nisu " && 'k' !in "Switch podaci nisu "
  {
  }

  lemma InStatusPlain()
    ensures 'T' !in "dostupni u statusu." && 'k' !in "dostupni u statusu."
  {
  }

  lemma MissingEnergyPlain()
    ensures 'T' !in MissingEnergyText && 'k' !in MissingEnergyText
  {
    CannotReadPlain();
    ReadingTotalPlain();
    Plain3("Cannot read properties ", "of undefined ", "(reading 'total')");
  }

  lemma CannotReadPlain()
    ensures 'T' !in "Cannot read properties " && 'k' !in "Cannot read properties "
  {
  }

  lemma ReadingTotalPlain()
    ensures 'T' !in "(reading 'total')" && 'k' !in "(reading 'total')"
  {
  }

  lemma Plain2(a: string, b: string)
    requires 'T' !in a && 'k' !in a && 'T' !in b && 'k' !in b
    ensures 'T' !in a + b && 'k' !in a + b
  {
  }

  lemma Plain3(a: string, b: string, c: string)
    requires 'T' !in a && 'k' !in a && 'T' !in b && 'k' !in b && 'T' !in c && 'k' !in c
    ensures 'T' !in a + b + c && 'k' !in a + b + c
  {
    Plain2(a, b);
    Plain2(a + b, c);
  }

  /** A plug that answered but whose status does not decode yields a
      message with neither word. */
  lemma ParseFailuresDoNotMention(f: Failure)
    requires IsParseFailure(f)
    ensures !MentionsTransport(Message(Consumption(f)))
  {
    var m := Message(f);
    ParseTextsPlain(f);
    assert Message(Consumption(f)) == ConsumptionHead + ConsumptionTail + m;
    NoWordsBehindPrefix(m);
  }

  lemma NoWordsBehindPrefix(m: string)
    requires 'T' !in m && 'k' !in m
    ensures !MentionsTransport(ConsumptionHead + ConsumptionTail + m)
  {
    PrefixWithoutT(m);
    AbsentLetter(ConsumptionHead + ConsumptionTail + m, "Timeout");
    NoKoAfterPrefix(m, "komunikaciji");
  }

  /** The consumption prefix has no `T`, so neither has a message behind
      it that lacks one. */
  lemma PrefixWithoutT(m: string)
    requires 'T' !in m
    ensures 'T' !in ConsumptionHead + ConsumptionTail + m
  {
    assert 'T' !in ConsumptionHead;
    assert 'T' !in " pri dohvaćanju " && 'T' !in "potrošnje: ";
    assert 'T' !in ConsumptionTail;
  }

  /** The message of a failed consumption read passes the collector's
      test exactly when the status request itself failed. */
  lemma {:induction false} TransportIffRequestFailed(ip: string, t: Transport)
    ensures GetCurrentEnergyConsumption(ip, t).Err? ==>
              (MentionsTransport(Message(GetCurrentEnergyConsumption(ip, t).error)) <==> !t.Answer?)
  {
    var r := GetCurrentEnergyConsumption(ip, t);
    if r.Err? {
      if t.Answer? {
        assert IsParseFailure(r.error.cause);
        ParseFailuresDoNotMention(r.error.cause);
      } else {
        TransportMessagesMention(ip, t);
      }
    }
  }

  /** A status carrying only `pm1:0` decodes as a meter but still fails
      the consumption read, for want of `switch:0`. */
  lemma MeterOnlyStatusFails(ip: string, c: Component)
    requires c.aenergy.Some?
    ensures ParsePowerMeter(Status(Some(c), None)).Ok?
    ensures GetCurrentEnergyConsumption(ip, Answer(Status(Some(c), None))) == Err(Consumption(NoSwitch))
  {
  }
}

=== FILE: stats.dfy ===
/** The descriptive statistics the analytics rely on, over exact reals:
    mean, population variance, the ordinary-least-squares line through the
    points (i, ys[i]) and its coefficient of determination. Square roots are
    avoided: a standard deviation is only ever compared, so the model
    compares squares instead. */
module Stats {
  import opened Common

  function Sum(xs: seq<real>): real
  {
    if |xs| == 0 then 0.0 else Sum(xs[..|xs| - 1]) + xs[|xs| - 1]
  }

  function Mean(xs: seq<real>): real
    requires |xs| > 0
  {
    Sum(xs) / |xs| as real
  }

  /** The square of `x`. Facts about squares are proved once, below, and
      used through this name. */
  function Sq(x: real): real
  {
    x * x
  }

  function Copy(x: real): real
  {
    x
  }

  lemma SquareNonNegative(x: real)
    ensures Sq(x) >= 0.0
  {
  }

  lemma SquarePositive(x: real)
    requires x != 0.0
    ensures Sq(x) > 0.0
  {
    // seen as a product of two factors of the same sign
    assert Sq(x) == x * Copy(x);
  }

  lemma SquareZero(x: real)
    requires Sq(x) <= 0.0
    ensures x == 0.0
  {
    if x != 0.0 {
      SquarePositive(x);
    }
  }

  lemma ProductPositive(x: real, y: real)
    requires x > 0.0 && y > 0.0
    ensures x * y > 0.0
  {
  }

  /** Squaring is strictly increasing on the non-negative reals. */
  lemma SquareMonotone(a: real, b: real)
    requires 0.0 <= b < a
    ensures Sq(b) < Sq(a)
  {
    ProductPositive(a - b, Copy(a + b));
    assert Sq(a) - Sq(b) == (a - b) * Copy(a + b);
  }

  lemma SquareMonotoneInverse(a: real, b: real)
    requires 0.0 <= a && 0.0 <= b && Sq(b) < Sq(a)
    ensures b < a
  {
    if b > a {
      SquareMonotone(b, a);
    }
  }

  function Abs(x: real): (r: real)
    ensures r >= 0.0 && (r == x || r == -x)
  {
    if x < 0.0 then -x else x
  }

  /** The z-score test `|d| / sd > t` with `sd = sqrt(v)`, stated without
      the square root. */
  predicate ExceedsZ(d: real, v: real, t: real)
  {
    t < 0.0 || Sq(d) > Sq(t) * v
  }

  /** `ExceedsZ` agrees with the z-score test for every standard deviation
      `sd > 0` whose square is the variance. */
  lemma ExceedsZMeansZScore(d: real, sd: real, t: real)
    requires sd > 0.0
    ensures Abs(d) / sd > t <==> ExceedsZ(d, Sq(sd), t)
  {
    assert Abs(d) / sd > t <==> Abs(d) > t * sd;
    assert Sq(Abs(d)) == Sq(d);
    if t >= 0.0 {
      assert Sq(t) * Sq(sd) == Sq(t * sd);
      if Abs(d) > t * sd {
        SquareMonotone(Abs(d), t * sd);
      }
      if Sq(d) > Sq(t * sd) {
        SquareMonotoneInverse(Abs(d), t * sd);
      }
    }
  }

  /** The uniform-data guard `sd < 0.01` is `variance < 0.0001`. */
  lemma SmallDeviationMeansSmallVariance(sd: real)
    requires sd >= 0.0
    ensures sd < 0.01 <==> Sq(sd) < 0.0001
  {
    assert Sq(0.01) == 0.0001;
    if sd < 0.01 {
      SquareMonotone(0.01, sd);
    } else if sd > 0.01 {
      SquareMonotone(sd, 0.01);
    }
  }

  /** Sum of squared deviations from `m`. */
  function SqDev(xs: seq<real>, m: real): real
  {
    if |xs| == 0 then 0.0
    else SqDev(xs[..|xs| - 1], m) + Sq(xs[|xs| - 1] - m)
  }

  /** Population variance, the square of the library's `standardDeviation`. */
  function Variance(xs: seq<real>): real
    requires |xs| > 0
  {
    SqDev(xs, Mean(xs)) / |xs| as real
  }

  lemma {:induction false} SqDevNonNegative(xs: seq<real>, m: real)
    ensures SqDev(xs, m) >= 0.0
    decreases |xs|
  {
    if |xs| > 0 {
      SqDevNonNegative(xs[..|xs| - 1], m);
      SquareNonNegative(xs[|xs| - 1] - m);
    }
  }

  lemma {:induction false} SqDevBoundsTerm(xs: seq<real>, m: real, k: int)
    requires 0 <= k < |xs|
    ensures Sq(xs[k] - m) <= SqDev(xs, m)
    decreases |xs|
  {
    var p := xs[..|xs| - 1];
    SqDevNonNegative(p, m);
    if k < |xs| - 1 {
      assert p[k] == xs[k];
      SqDevBoundsTerm(p, m, k);
      SquareNonNegative(xs[|xs| - 1] - m);
    }
  }

  lemma {:induction false} SqDevOfConstant(xs: seq<real>, m: real)
    requires forall i :: 0 <= i < |xs| ==> xs[i] == m
    ensures SqDev(xs, m) == 0.0
    decreases |xs|
  {
    if |xs| > 0 {
      SqDevOfConstant(xs[..|xs| - 1], m);
    }
  }

  lemma {:induction false} SumNonNegative(xs: seq<real>)
    requires forall i :: 0 <= i < |xs| ==> xs[i] >= 0.0
    ensures Sum(xs) >= 0.0
    decreases |xs|
  {
    if |xs| > 0 {
      SumNonNegative(xs[..|xs| - 1]);
    }
  }

  lemma {:induction false} SumBoundsTerm(xs: seq<real>, k: int)
    requires forall i :: 0 <= i < |xs| ==> xs[i] >= 0.0
    requires 0 <= k < |xs|
    ensures xs[k] <= Sum(xs)
    decreases |xs|
  {
    var p := xs[..|xs| - 1];
    SumNonNegative(p);
    if k < |xs| - 1 {
      assert p[k] == xs[k];
      SumBoundsTerm(p, k);
    }
  }

  lemma {:induction false} SumOfConstant(xs: seq<real>, c: real)
    requires forall i :: 0 <= i < |xs| ==> xs[i] == c
    ensures Sum(xs) == (|xs| as real) * c
    decreases |xs|
  {
    if |xs| > 0 {
      SumOfConstant(xs[..|xs| - 1], c);
    }
  }

  /** Constant data has its value as mean and no spread. */
  lemma ConstantHasNoVariance(xs: seq<real>, c: real)
    requires |xs| > 0
    requires forall i :: 0 <= i < |xs| ==> xs[i] == c
    ensures Mean(xs) == c
    ensures Variance(xs) == 0.0
  {
    SumOfConstant(xs, c);
    SqDevOfConstant(xs, c);
  }

  /** For non-negative data, a spread that is not negligible forces a
      positive mean, so dividing by the mean is defined. */
  lemma SpreadImpliesPositiveMean(xs: seq<real>)
    requires |xs| > 0
    requires forall i :: 0 <= i < |xs| ==> xs[i] >= 0.0
    requires Variance(xs) >= 0.0001
    ensures Mean(xs) > 0.0
  {
    SumNonNegative(xs);
    if Sum(xs) == 0.0 {
      forall i | 0 <= i < |xs| ensures xs[i] == 0.0 {
        SumBoundsTerm(xs, i);
      }
      SqDevOfConstant(xs, 0.0);
    }
  }

  // ---- ordinary least squares over the points (i, ys[i]) ----

  /** Sum of the x coordinates 0 + 1 + ... + (n - 1). */
  function SumX(n: nat): real
  {
    if n == 0 then 0.0 else SumX(n - 1) + (n - 1) as real
  }

  /** Sum of the squared x coordinates. */
  function SumXX(n: nat): real
  {
    if n == 0 then 0.0 else SumXX(n - 1) + ((n - 1) as real) * ((n - 1) as real)
  }

  /** Sum of x * y over the points (i, ys[i]). */
  function SumXY(ys: seq<real>): real
  {
    if |ys| == 0 then 0.0 else SumXY(ys[..|ys| - 1]) + ((|ys| - 1) as real) * ys[|ys| - 1]
  }

  lemma {:induction false} SumXClosed(n: nat)
    ensures 2.0 * SumX(n) == (n as real) * ((n as real) - 1.0)
  {
    if n > 0 {
      SumXClosed(n - 1);
    }
  }

  lemma {:induction false} SumXXClosed(n: nat)
    ensures 6.0 * SumXX(n) == (n as real) * ((n as real) - 1.0) * (2.0 * (n as real) - 1.0)
  {
    if n > 0 {
      SumXXClosed(n - 1);
      var m := (n - 1) as real;
      assert 6.0 * SumXX(n) == m * (m - 1.0) * (2.0 * m - 1.0) + 6.0 * m * m;
    }
  }

  /** `n * sumXX - sumX * sumX`, the denominator of the slope. */
  function Denominator(n: nat): real
  {
    (n as real) * SumXX(n) - SumX(n) * SumX(n)
  }

  /** With at least two distinct x coordinates the slope is defined:
      12 * D = n^2 (n^2 - 1). */
  lemma DenominatorPositive(n: nat)
    requires n >= 2
    ensures Denominator(n) > 0.0
  {
    var r := n as real;
    SumXClosed(n);
    SumXXClosed(n);
    var sx := SumX(n);
    var sxx := SumXX(n);
    assert 12.0 * Denominator(n) == 2.0 * r * (6.0 * sxx) - 3.0 * (2.0 * sx) * (2.0 * sx);
    assert 12.0 * Denominator(n) == 2.0 * r * (r * (r - 1.0) * (2.0 * r - 1.0)) - 3.0 * (r * (r - 1.0)) * (r * (r - 1.0));
    assert 12.0 * Denominator(n) == (r * r) * ((r - 1.0) * (r + 1.0));
    assert r - 1.0 >= 1.0 && r + 1.0 >= 3.0;
    ProductPositive(r, r);
    ProductPositive(r - 1.0, r + 1.0);
    ProductPositive(r * r, (r - 1.0) * (r + 1.0));
  }

  /** The least-squares slope from the sums over `n` points. */
  function SlopeOf(n: real, sx: real, sxx: real, sy: real, sxy: real): real
    requires n * sxx - sx * sx != 0.0
  {
    (n * sxy - sx * sy) / (n * sxx - sx * sx)
  }

  /** The least-squares intercept from the sums and the slope `m`. */
  function InterceptOf(n: real, sx: real, sy: real, m: real): real
    requires n > 0.0
  {
    sy / n - m * sx / n
  }

  /** The least-squares slope `m` of the points (i, ys[i]). */
  function Slope(ys: seq<real>): real
    requires |ys| >= 2
  {
    DenominatorPositive(|ys|);
    SlopeOf(|ys| as real, SumX(|ys|), SumXX(|ys|), Sum(ys), SumXY(ys))
  }

  /** The least-squares intercept `b` of the points (i, ys[i]). */
  function Intercept(ys: seq<real>): real
    requires |ys| >= 2
  {
    InterceptOf(|ys| as real, SumX(|ys|), Sum(ys), Slope(ys))
  }

  /** The fitted line evaluated at `x`. */
  function LineAt(ys: seq<real>, x: real): real
    requires |ys| >= 2
  {
    LineOf(Slope(ys), Intercept(ys), x)
  }

  /** The line with slope `m` and intercept `c` at `x`. */
  function LineOf(m: real, c: real, x: real): real
  {
    m * x + c
  }

  /** Sum of the squared residuals of the first `k` points against the line
      fitted to `fit`. */
  function ResidualsOf(ys: seq<real>, fit: seq<real>, k: nat): real
    requires |fit| >= 2 && k <= |ys|
  {
    if k == 0 then 0.0
    else ResidualsOf(ys, fit, k - 1)
         + Sq(ys[k - 1] - LineAt(fit, (k - 1) as real))
  }

  /** The coefficient of determination, `None` where the library's formula
      divides zero by zero (constant data) and yields NaN; with fewer than
      two points the library reports 1. */
  function RSquared(ys: seq<real>): Option<real>
  {
    if |ys| < 2 then Some(1.0)
    else
      var sst := SqDev(ys, Mean(ys));
      if sst == 0.0 then None
      else Some(1.0 - ResidualsOf(ys, ys, |ys|) / sst)
  }

  // ---- arithmetic series ----

  predicate Arithmetic(ys: seq<real>, a: real, b: real)
  {
    forall i :: 0 <= i < |ys| ==> ys[i] == a + b * (i as real)
  }

  lemma {:induction false} SumOfArithmetic(ys: seq<real>, a: real, b: real)
    requires Arithmetic(ys, a, b)
    ensures Sum(ys) == (|ys| as real) * a + b * SumX(|ys|)
    decreases |ys|
  {
    if |ys| > 0 {
      SumOfArithmetic(ys[..|ys| - 1], a, b);
    }
  }

  lemma {:induction false} SumXYOfArithmetic(ys: seq<real>, a: real, b: real)
    requires Arithmetic(ys, a, b)
    ensures SumXY(ys) == a * SumX(|ys|) + b * SumXX(|ys|)
    decreases |ys|
  {
    if |ys| > 0 {
      SumXYOfArithmetic(ys[..|ys| - 1], a, b);
      var m := (|ys| - 1) as real;
      assert m * ys[|ys| - 1] == a * m + b * (m * m);
    }
  }

  /** Least squares recovers an exact line: an arithmetic series with step
      `b` starting at `a` has slope `b` and intercept `a`. */
  lemma ArithmeticSlope(ys: seq<real>, a: real, b: real)
    requires |ys| >= 2
    requires Arithmetic(ys, a, b)
    ensures Slope(ys) == b
    ensures Intercept(ys) == a
  {
    SumOfArithmetic(ys, a, b);
    SumXYOfArithmetic(ys, a, b);
    DenominatorPositive(|ys|);
    var n, sx, sxx := |ys| as real, SumX(|ys|), SumXX(|ys|);
    assert n * sxx - sx * sx == Denominator(|ys|);
    LineFromSums(n, a, b, sx, sxx, Sum(ys), SumXY(ys));
  }

  /** The least-squares formulas applied to the sums of an exact line. */
  lemma LineFromSums(n: real, a: real, b: real, sx: real, sxx: real, sy: real, sxy: real)
    requires n > 0.0 && n * sxx - sx * sx > 0.0
    requires sy == n * a + b * sx
    requires sxy == a * sx + b * sxx
    ensures SlopeOf(n, sx, sxx, sy, sxy) == b
    ensures InterceptOf(n, sx, sy, b) == a
  {
    var d := n * sxx - sx * sx;
    assert n * sxy - sx * sy == n * (a * sx + b * sxx) - sx * (n * a + b * sx);
    SlopeNumerator(n, a, b, sx, sxx);
    DivideOut(n * sxy - sx * sy, b, d);
    InterceptOfLine(n, a, b * sx);
  }

  lemma SlopeNumerator(n: real, a: real, b: real, sx: real, sxx: real)
    ensures n * (a * sx + b * sxx) - sx * (n * a + b * sx) == b * (n * sxx - sx * sx)
  {
  }

  lemma DivideOut(x: real, b: real, d: real)
    requires d > 0.0 && x == b * d
    ensures x / d == b
  {
  }

  lemma InterceptOfLine(n: real, a: real, c: real)
    requires n > 0.0
    ensures (n * a + c) / n - c / n == a
  {
    assert (n * a + c) / n == a + c / n;
  }

  /** An exact line leaves no residual. */
  lemma {:induction false} ArithmeticResiduals(ys: seq<real>, a: real, b: real, k: nat)
    requires |ys| >= 2 && k <= |ys|
    requires Arithmetic(ys, a, b)
    ensures ResidualsOf(ys, ys, k) == 0.0
  {
    if k > 0 {
      ArithmeticResiduals(ys, a, b, k - 1);
      ArithmeticSlope(ys, a, b);
      assert ys[k - 1] - LineAt(ys, (k - 1) as real) == 0.0;
    }
  }

  /** Two different values cannot both sit on the mean: the spread is positive. */
  lemma SqDevPositive(ys: seq<real>, m: real)
    requires |ys| >= 2 && ys[0] != ys[1]
    ensures SqDev(ys, m) > 0.0
  {
    SqDevBoundsTerm(ys, m, 0);
    SqDevBoundsTerm(ys, m, 1);
    if SqDev(ys, m) <= 0.0 {
      SquareZero(ys[0] - m);
      SquareZero(ys[1] - m);
    }
  }

  /** A non-constant exact line is fitted perfectly: R^2 is 1. */
  lemma ArithmeticRSquared(ys: seq<real>, a: real, b: real)
    requires |ys| >= 2
    requires Arithmetic(ys, a, b)
    requires b != 0.0
    ensures RSquared(ys) == Some(1.0)
  {
    ArithmeticResiduals(ys, a, b, |ys|);
    assert ys[0] != ys[1];
    SqDevPositive(ys, Mean(ys));
  }
}
